=== FILE: README.md ===
# Softphone connectivity and call control, in Dafny

This project models the decision core of a browser softphone. The softphone
registers a SIP user agent (through JsSIP) and keeps a change-feed websocket
(the "oplog") open to the platform. It tracks both in one application store,
recovers them with a retry policy, and drives calls from a dial pad and a
call-control view.

Every component is a pure step function from an immutable state to a new
state and the list of effects it emits: event-aggregator publications,
websocket frames, and requests to the SIP library. Timers, promises and
library callbacks become explicit inputs. JavaScript's falsy values are
modelled with `Option` (`Truthy` means present and non-empty, `IsSet` means
`Some(true)`).

Modules, following the source components:

- `Wrappers`, `Text`: `Option` and the string operations the code uses (`indexOf`, `replace` with a string pattern, `trim`, removing spaces).
- `TelChars`: the telephone-characters value converter.
- `Dialpad`: the dial-pad component. It models both `src/ui/components/dialpad/z-dialpad.ts` and `src/ui/new-components/molecules/zai-dialpad/zai-dialpad.ts`, whose logic is identical; the rows below cite the first.
- `LogControl`: the logging gate.
- `Devices`: media permission and device checks.
- `Region`: regional base URLs.
- `AppStore`: the application store, i.e. connection flags, call info, online checks and callbacks.
- `Backoff`, `SipReconnect`: the SIP reconnect policy of the state service.
- `ConnectionState`: the connection indicator.
- `OplogTransport`: the websocket wrapper.
- `OplogClient`: the oplog client, i.e. queue, tracking ids, subscribers and reconnect.
- `OplogService`: the subscription registry and its register and deregister messages.
- `SipControl`: the SIP controller, i.e. the held session, inbound classification, DTMF, user-agent lifecycle and the cause table.
- `PhoneService`: the phone service, i.e. DTMF forwarding, ringing tone and forced stop.
- `Tabs`: the call-control view.
- `ApiGlue`: the API service's connectivity glue, i.e. SIP start-up and reconnect, oplog subscriptions and routing callbacks.
- `Connectivity`: lemmas across components. It covers the disconnect policy acting on the store and the indicator, the manual reconnect, forced stops, the path of a key press to the wire, and call ends reaching the store.

Behaviour modelled as written:

- `isOnline` deletes its callback map before reading it, so fully-online callbacks never run. Registering one afterwards throws.
- The oplog client's queue is never emptied. Every open resends it.
- The oplog failure counter is never capped and never reset while connected.
- A non-click-to-dial invite that arrives during a call is left alone: neither adopted nor terminated.
- `destroyUserAgent` does not clear the held session.
- The CALL.FAILED report carries no interaction id, because its payload holds only the call info and the cause.

## Model

| member | source | states |
|---|---|---|
| Text.IndexOf | src/services/api-service.ts:778 | the first position where the pattern occurs, and none exactly when it does not occur |
| Text.ReplaceFirst | src/services/api-service.ts:778 | a string pattern replaces only its first occurrence; a string without it is unchanged |
| Text.TrimEmptyIffBlank | src/views/common/phone/tabs/tabs.ts:103 | a trimmed number is empty exactly when every character is whitespace |
| Text.Trim | src/services/JsSipController.ts:885 | the trimmed number is the slice of the input between a blank prefix and a blank suffix, with no whitespace at either end; a string without surrounding whitespace is unchanged |
| Text.RemoveSpaces | src/ui/components/dialpad/z-dialpad.ts:174 | removing spaces leaves no space and never lengthens the string |
| Text.RemoveSpacesAppend | src/ui/components/dialpad/z-dialpad.ts:174 | removing spaces from a concatenation removes them from each part, so the kept characters stay in order |
| Text.RemoveSpacesCounts | src/ui/components/dialpad/z-dialpad.ts:174 | every character other than a space is kept as often as it occurs, and no space is |
| Text.RemoveSpacesNonEmptyIff | src/ui/components/dialpad/z-dialpad.ts:174 | something is left after removing spaces exactly when some character was not a space |
| TelChars.KeepTelChars | src/resources/converters/tel-chars-only.ts:10 | the filtered string holds only digits, `+`, `*` and `#`, is no longer, and a string of those characters alone is unchanged |
| TelChars.ToView | src/resources/converters/tel-chars-only.ts:6-17 | a falsy value converts to the empty string; anything else to telephone characters only, never longer |
| TelChars.KeepTelCharsIsSubsequence | src/resources/converters/tel-chars-only.ts:10 | the filter keeps characters in their original order |
| TelChars.KeepTelCharsCounts | src/resources/converters/tel-chars-only.ts:10 | every telephone character survives as often as it occurred and every other character disappears |
| TelChars.KeepTelCharsAppend | src/resources/converters/tel-chars-only.ts:10 | filtering a concatenation filters each part |
| TelChars.ToViewIdempotent | src/resources/converters/tel-chars-only.ts:6-17 | converting a converted value changes nothing |
| Dialpad.Utf16Length | src/ui/components/dialpad/z-dialpad.ts:102-105 | `length` counts UTF-16 code units: at least one and at most two per character, and none only for the empty string |
| Dialpad.Utf16LengthAppend | src/ui/components/dialpad/z-dialpad.ts:102-105 | the code units of a concatenation are those of its parts added up |
| Dialpad.Utf16LengthIsLengthIffBmp | src/ui/components/dialpad/z-dialpad.ts:102-105 | a string has as many code units as characters exactly when every character is in the Basic Multilingual Plane |
| Dialpad.IsPastedIffGrewByMoreThanOne | src/ui/components/dialpad/z-dialpad.ts:101-110 | a change counts as a paste exactly when the value grew by more than one UTF-16 code unit |
| Dialpad.KeyToken | src/ui/components/dialpad/z-dialpad.ts:113-121 | a key's token is non-empty and is never the `+` character |
| Dialpad.KeyTokenInjective | src/ui/components/dialpad/z-dialpad.ts:113-121 | different keys give different tokens |
| Dialpad.LastUnitToken | src/ui/components/dialpad/z-dialpad.ts:112-121 | the last code unit of a value is the token of its last character, or a lone low surrogate when that character lies outside the Basic Multilingual Plane |
| Dialpad.GrowthToken | src/ui/components/dialpad/z-dialpad.ts:111-123 | a token is sent exactly when the value grew in code units, and it is the token of its last code unit |
| Dialpad.SendToken | src/ui/components/dialpad/z-dialpad.ts:240-250 | a key name goes through the `+` and space filter; a lone surrogate passes it and reaches a bound handler |
| Dialpad.SendDtmf | src/ui/components/dialpad/z-dialpad.ts:240-250 | the handler is called exactly when the token is not `+` or a space and a handler is bound, and then with that token |
| Dialpad.NumberChanged | src/ui/components/dialpad/z-dialpad.ts:82-99 | during suppression a change is ignored; a paste is sanitised and starts suppression; otherwise a growth by exactly one code unit sends the token of the last code unit; the handlers stay bound |
| Dialpad.SuppressionElapsed | src/ui/components/dialpad/z-dialpad.ts:92-94 | the suppression ends and the number is kept |
| Dialpad.UpdateNumberFromEvent | src/ui/components/dialpad/z-dialpad.ts:148-155 | an external write sets the number under suppression and sends nothing |
| Dialpad.NotifyToStartCall | src/ui/components/dialpad/z-dialpad.ts:173-180 | the number is submitted as typed exactly when a submit handler is bound and some character is not a space |
| Dialpad.SelectKeySendsItsToken | src/ui/components/dialpad/z-dialpad.ts:209-215 | pressing a key of the Basic Multilingual Plane appends its character and sends exactly its token, unless it is a space or no handler is bound; any other character sends nothing |
| Dialpad.SelectKey | src/ui/components/dialpad/z-dialpad.ts:209-214 | a one-unit key appends its character and is never taken for a paste; a two-unit character is taken for a paste and sanitised away; at most that key's token is sent |
| Dialpad.PasteSanitises | src/ui/components/dialpad/z-dialpad.ts:89-95 | a growth by more than one code unit sends no DTMF and leaves only the telephone characters of the pasted value, in order |
| Dialpad.EmojiTypedIsPaste | src/ui/components/dialpad/z-dialpad.ts:89-105 | typing an emoji after "12" is taken for a paste, sends nothing and leaves "12" |
| Dialpad.FiveDigitsAfterTwoEmojiSendsLastDigit | src/ui/components/dialpad/z-dialpad.ts:101-123 | five digits replacing two emoji are no paste, and the last digit is sent |
| Dialpad.NoTokenWithoutGrowth | src/ui/components/dialpad/z-dialpad.ts:111-112 | a value that did not grow in code units sends nothing and is stored as is |
| Dialpad.NeverSendsPlusSign | src/ui/components/dialpad/z-dialpad.ts:240-243 | neither typing nor the `+` key hands the `+` character to the handler |
| LogControl.CanLog | src/services/LogController.ts:13-28 | logging is allowed exactly when the forced flag is set, or both the logs flag and the user's setting are |
| LogControl.ForcedLogsOverride | src/services/LogController.ts:18-20 | a forced-logs flag allows logging whatever the other two say |
| LogControl.NoFlagsNoLogs | src/services/LogController.ts:21-23 | without feature flags, or with neither flag set, nothing is logged |
| LogControl.PublishInfo | src/services/LogController.ts:30-35 | one info publication of the data exactly when logging is allowed |
| LogControl.PublishError | src/services/LogController.ts:37-42 | one error publication of the data exactly when logging is allowed |
| LogControl.Audit | src/services/LogController.ts:44-53 | one info publication whose keys are action, description and the data's keys; a data field wins over action or description |
| Devices.CountKind | src/services/device-management-service.ts:66-124 | the count of a kind is positive exactly when some device has that kind |
| Devices.CheckForValidDevices | src/services/device-management-service.ts:66-124 | resolves exactly when a microphone and a speaker exist; otherwise rejects with the missing kind(s) and raises the device error; a failed enumeration never settles |
| Devices.OtherKindsIgnored | src/services/device-management-service.ts:66-124 | a device of another kind does not change the outcome |
| Devices.PermissionAttempt | src/services/device-management-service.ts:20-50 | granted resolves; a dismissal asks again; denial rejects with its notice; not-found closes the dialogs, shows the notice and publishes the missing microphone before the unawaited device error posts its message and raises the error flag; any other error never settles |
| Devices.GetDevicePermissions | src/services/device-management-service.ts:20-50 | only dismissals, or no answer at all, never settle; a resolution needs a granted answer; a rejection carries the denied or not-found error of some answer |
| Devices.DismissalsAreSkipped | src/services/device-management-service.ts:20-50 | the outcome is that of the first answer that is not a dismissal |
| Devices.FirstMatch | src/services/device-management-service.ts:131-152 | the first listed device matching the query, none exactly when no device matches |
| Devices.FindDevice | src/services/device-management-service.ts:131-152 | no query gives undefined, a failed enumeration gives null, otherwise the first match |
| Devices.CheckIfDevicesExist | src/services/device-management-service.ts:153-178 | each stored device is kept exactly when a device in its own enumeration matches it, and then replaced by that device |
| Devices.LookupsEnumerateSeparately | src/services/device-management-service.ts:153-178 | a failed enumeration for the input drops it while a later successful one still refreshes the output |
| Region.RegionOf | src/services/api-service.ts:28-70 | US and ZA map to their regions, EU countries to the table's EU region, and no other country has an entry |
| Region.RegionBaseUrl | src/services/api-service.ts:769-795 | a missing URL, or one without the placeholder, comes back unchanged; otherwise the first placeholder becomes the region |
| Region.WrapUpEndpoint | src/services/api-service.ts:699-713 | the environment picks the development or production table, which changes the URL only for an EU country; a missing URL is kept |
| Region.TablesDifferOnlyInEurope | src/services/api-service.ts:28-70 | the development and production tables disagree exactly on the EU countries |
| Region.UnknownCountryFallsBack | src/services/api-service.ts:769-781 | an unlisted country gets the default region |
| Region.PlaceholderReplaced | src/services/api-service.ts:778 | only the first placeholder is replaced; what follows is kept |
| Region.NoOverlappingPlaceholders | src/services/api-service.ts:778 | two occurrences of the placeholder never overlap |
| AppStore.CheckPartialOnline | src/services/app-store.ts:801-812 | the partial flag follows the condition; callbacks run, in order, only on entering the partial state |
| AppStore.CheckOnline | src/services/app-store.ts:813-826 | the online flag follows the condition; on going online the callback map is deleted and no callback runs |
| AppStore.Recheck | src/services/app-store.ts:801-826 | the checks change only the two online flags |
| AppStore.HandleSip | src/services/app-store.ts:528-552 | connected sets the SIP flag and ends connecting; connecting clears the flag and starts connecting; a disconnect or failure clears both; UA, oplog and stop flag are kept |
| AppStore.HandleUa | src/services/app-store.ts:623-641 | the UA flag is set exactly on registration; the other connection flags are kept |
| AppStore.HandleOplog | src/services/app-store.ts:512-527 | the oplog flag is set exactly on success; the SIP, UA and connecting flags are kept |
| AppStore.HandleDevice | src/services/app-store.ts:342-357 | a device is stored on success; a failure keeps the device and ends connecting |
| AppStore.HandleLogin | src/services/app-store.ts:258-282 | each login event changes only its own fields: attempt sets loading, success stores the user, failure stores the error and ends connecting, complete clears the error |
| AppStore.HandleCall | src/services/app-store.ts:554-622 | each call event sets the status and flags it names; hold and mute events change only their flag; sending and progress change nothing |
| AppStore.HandleCallKeepsConsistent | src/services/app-store.ts:554-622 | every call event keeps status, on-call and ringing in agreement |
| AppStore.CallInfoAlwaysConsistent | src/services/app-store.ts:554-622 | any sequence of call events keeps status, on-call and ringing in agreement |
| AppStore.MergeActivity | src/services/app-store.ts:372-391 | the update's fields override the current ones, and leaving wrap-up ends any pending end of wrap-up |
| AppStore.HandleEndWrapup | src/services/app-store.ts:669-680 | marks wrap-up as ending without touching the wrap-up flag |
| AppStore.FirstSelected | src/services/app-store.ts:406-423 | the first selected option, none exactly when no option is selected |
| AppStore.HandleInteractionFlows | src/services/app-store.ts:406-423 | the private entry heads the options and is selected exactly when no incoming option is; the selected flow is the first selected option |
| AppStore.ConnectionStopForced | src/services/app-store.ts:856-862 | sets the stop flag and replaces the global error only with a non-empty error |
| AppStore.ClearConnectionStopForced | src/services/app-store.ts:863-866 | clears only the stop flag |
| AppStore.ReconnectSip | src/services/app-store.ts:867-870 | sets only the connecting flag |
| AppStore.HandleLogout | src/services/app-store.ts:871-876 | the state returns to empty, connecting, while the online flags and the callback registrations survive |
| AppStore.Register | src/services/app-store.ts:827-834 | registering a view keeps one entry per view, appended the first time |
| AppStore.OnPartialOnline | src/services/app-store.ts:827-830 | a partial-online callback is registered under its view |
| AppStore.OnFullyOnline | src/services/app-store.ts:831-834 | registration throws exactly when the map has been deleted |
| AppStore.PartialCallbacksEdgeTriggered | src/services/app-store.ts:801-812 | callbacks run only on a transition into the partial state, never twice in a row |
| AppStore.OnlineCallbacksNeverRun | src/services/app-store.ts:813-826 | no fully-online callback ever runs through the checks |
| AppStore.RegisteringAfterOnlineThrows | src/services/app-store.ts:813-834 | once the store has been fully online, registering a fully-online callback throws |
| AppStore.RecheckNeverPartialAndOnline | src/services/app-store.ts:801-826 | one pass of the checks never leaves both flags set, and a pass that runs partial-online callbacks does not also announce the login complete |
| Backoff.ReconnectDelayMs | src/services/state-service.ts:207-209 | the delay is a positive whole number of seconds |
| Backoff.DelayDoubles | src/services/state-service.ts:207-209 | each further failure doubles the delay |
| Backoff.DelayUnbounded | src/services/state-service.ts:207-209 | after n failures the requested delay is at least n+1 seconds, so the request grows without bound |
| Backoff.TimerWaitMs | src/services/OplogWebsocketClient.ts:120-124 | a browser timer waits the requested delay when it fits in 31 bits, never 2^31 ms or more, and not at all for a multiple of 2^32 |
| Backoff.TimerWaitOfDelay | src/services/OplogWebsocketClient.ts:117-124 | the timer waits the requested backoff through 21 failures, fires at once at 22, and fires at once for every count from 29 on |
| SipReconnect.HandleDisconnected | src/services/state-service.ts:174-205 | DISCONNECTED goes out first; logged out or stopped does nothing more; otherwise a retry is requested while retries remain, and the connection is stopped with a reset counter when they run out |
| SipReconnect.Connected | src/services/state-service.ts:102-110 | the counter is reset and CONNECTED goes out |
| SipReconnect.OplogSucceeded | src/services/state-service.ts:94-101 | success goes out before the resubscribe request |
| SipReconnect.CounterBounded | src/services/state-service.ts:174-205 | the counter never exceeds the retry limit |
| SipReconnect.StopOrReconnect | src/services/state-service.ts:174-205 | one disconnect never both stops and reconnects |
| SipReconnect.StopAfterRemainingRetries | src/services/state-service.ts:174-205 | from any counter, the remaining retries each reconnect and the next disconnect stops and resets |
| SipReconnect.FourthDisconnectStops | src/services/state-service.ts:174-209 | from a reset counter: a retry at once, one after 4 s, one after 8 s, then the stop |
| ConnectionState.Status | src/resources/components/connectionstate/connection-state.ts:13-36 | connected, connected without feed, connecting and disconnected each hold exactly under their own combination of flags |
| ConnectionState.RedExactlyWhenNoSignalling | src/resources/components/connectionstate/connection-state.ts:13-36 | the indicator is red exactly without SIP and not actively connecting, and always after a forced stop without SIP |
| OplogTransport.ReadyStateCode | src/services/oplog-websocket.ts:133-152 | ready states map to the codes 0 to 3 |
| OplogTransport.Close | src/services/oplog-websocket.ts:117-158 | close marks the close as asked, keeps a connecting socket, drops the others, and rejects only while closing |
| OplogTransport.Connect | src/services/oplog-websocket.ts:23-96 | an opened handshake installs the message handler and the failure report; an error or timeout closes the socket and marks it closed |
| OplogTransport.SocketClosed | src/services/oplog-websocket.ts:34-40 | the failure callback runs exactly while no close was asked for |
| OplogTransport.StrayClosed | src/services/oplog-websocket.ts:127-131 | the close event of a socket `close` let go of drops the message callback, whichever socket is held by then |
| OplogTransport.StrayCloseSilencesNewSocket | src/services/oplog-websocket.ts:127-144 | after closing an open socket and reconnecting, the old socket's close event leaves the new open socket delivering no frames |
| OplogTransport.CloseSilencesFailureReports | src/services/oplog-websocket.ts:34-40 | once a close was asked for, no later close event reports a failure, however often the socket reconnects |
| OplogTransport.ConnectAllKeepsCloseTriggered | src/services/oplog-websocket.ts:122 | a close request is never forgotten across reconnects |
| OplogTransport.On | src/services/oplog-websocket.ts:178-180 | one callback replaces the last, whatever the topic |
| OplogTransport.OrEmpty | src/services/oplog-websocket.ts:76-79 | a missing or falsy field becomes an empty object; a truthy one is kept |
| OplogTransport.Normalise | src/services/oplog-websocket.ts:67-87 | a frame becomes a name and a state, both truthy, taken from its type and payload when present and truthy |
| OplogTransport.NormaliseWellFormed | src/services/oplog-websocket.ts:67-87 | normalising a well-formed frame gives back its type and payload |
| OplogTransport.Message | src/services/oplog-websocket.ts:67-89 | before open nothing happens; after, the normalised envelope reaches the callback if there is one and liveness checking starts |
| OplogTransport.LivenessTick | src/services/oplog-websocket.ts:99-108 | the liveness timer stops after more than 40 silent seconds and never touches the socket |
| OplogTransport.ToWire | src/services/oplog-websocket.ts:164-171 | each field lands in its wire field |
| OplogTransport.WireRoundTrip | src/services/oplog-websocket.ts:164-171 | the wire mapping loses nothing |
| OplogTransport.Emit | src/services/oplog-websocket.ts:160-176 | a frame leaves exactly when the socket is open |
| OplogClient.Authorization | src/services/OplogWebsocketClient.ts:165 | a bearer header exactly when a token is present, empty otherwise |
| OplogClient.Stamp | src/services/OplogWebsocketClient.ts:161-171 | a sent frame carries the message's name and state, the given tracking id and the bearer authorization, and no root |
| OplogClient.Publish | src/services/OplogWebsocketClient.ts:161-171 | on an open socket the message is sent with a fresh tracking id; otherwise it is queued |
| OplogClient.StampAll | src/services/OplogWebsocketClient.ts:161-171 | the i-th message is stamped with the first id plus i |
| OplogClient.PublishAll | src/services/OplogWebsocketClient.ts:161-171 | messages go out in order with consecutive ids on an open socket, and are queued in order otherwise |
| OplogClient.StampIgnoresCounter | src/services/OplogWebsocketClient.ts:164-165 | stamping depends only on the token and the ids |
| OplogClient.OnOpen | src/services/OplogWebsocketClient.ts:149-159 | OPENED, the success signal, then the whole queue in order; the queue is kept |
| OplogClient.SecondOpenResendsQueue | src/services/OplogWebsocketClient.ts:154-158 | a second open resends every queued message under new ids |
| OplogClient.HandleDisconnected | src/services/OplogWebsocketClient.ts:102-129 | logged out does nothing; stopped resets the counter; otherwise the counter grows and the socket is reset, at once the first time and after the backoff delay later |
| OplogClient.Init | src/services/OplogWebsocketClient.ts:42-99 | during a handshake nothing happens; an opened socket installs the OPEN subscriber; a failed one runs the disconnect handling; queue and token are kept |
| OplogClient.ResetWebsocket | src/services/OplogWebsocketClient.ts:135-147 | the old socket is asked to close before the new start; a close that rejects on a closing socket ends the reset with no socket and nothing scheduled; an open, closed or absent socket is replaced by an open one when the handshake succeeds |
| OplogClient.ResetOfClosingSocketStalls | src/services/OplogWebsocketClient.ts:135-147 | a reset that meets a closing socket leaves no socket and schedules no retry, where the same reset of an open socket schedules one after a failed handshake |
| OplogClient.ResetDuringHandshakeOpensNothing | src/services/OplogWebsocketClient.ts:135-139 | a reset during a handshake sends nothing and leaves the handshake alone |
| OplogClient.SocketClose | src/services/OplogWebsocketClient.ts:61-67 | a close event reports the failure, and runs the disconnect handling, only while no close was asked for |
| OplogClient.StraySocketClose | src/services/oplog-websocket.ts:127-131 | the late close event of a let-go socket drops the message callback and nothing else |
| OplogClient.ResetThenStrayCloseDropsFrames | src/services/OplogWebsocketClient.ts:135-139 | a reset of an open socket followed by the old socket's close event leaves an open client that routes no frame |
| OplogClient.Subscribe | src/services/OplogWebsocketClient.ts:173-177 | one subscriber per name, the last wins, the others untouched |
| OplogClient.Unsubscribe | src/services/OplogWebsocketClient.ts:179-181 | only the named subscriber is removed |
| OplogClient.Addressee | src/services/OplogWebsocketClient.ts:84-85 | an envelope goes to the subscriber under its name exactly when there is one |
| OplogClient.Receive | src/services/OplogWebsocketClient.ts:77-94 | an inbound frame is normalised and handed to the subscriber its name selects |
| OplogClient.DispatchByName | src/services/OplogWebsocketClient.ts:77-94 | a message for an unknown name is dropped; one for a subscriber reaches exactly that subscriber |
| OplogClient.AuthorizationAlwaysEmpty | src/services/OplogWebsocketClient.ts:16 | nothing assigns the user, so every frame carries an empty authorization |
| OplogClient.TrackingIdsFresh | src/services/OplogWebsocketClient.ts:164 | tracking ids are consecutive and never reused |
| OplogClient.StampedIds | src/services/OplogWebsocketClient.ts:161-171 | frames stamped from a starting id carry that id and the ones after it, in order |
| OplogClient.BackoffUncapped | src/services/OplogWebsocketClient.ts:114-133 | after n failures the counter has grown by n, and the last reset is scheduled with a requested delay of 2^n seconds |
| OplogClient.BackoffCollapses | src/services/OplogWebsocketClient.ts:114-133 | once the counter passes 28, every further disconnect schedules a reset whose timer waits 0 ms |
| OplogService.SplitAtSep | src/services/oplog-service.ts:224-227 | two separator-free strings followed by the separator are told apart by what follows |
| OplogService.ProvisionIdInjective | src/services/oplog-service.ts:224-227 | separator-free subscriptions with the same id are the same subscription |
| OplogService.Put | src/services/oplog-service.ts:165-171 | storing an entry keeps ids unique, keeps an existing key's place, appends a new key, and leaves the others |
| OplogService.Remove | src/services/oplog-service.ts:201 | removing an id drops exactly the entries with that id |
| OplogService.RemoveKeepsUnique | src/services/oplog-service.ts:201 | removing an id keeps the ids unique |
| OplogService.Lookup | src/services/oplog-service.ts:152 | a lookup finds an entry exactly when the id is held, and the entry holds that id |
| OplogService.RegisterMessage | src/services/oplog-service.ts:172-180 | a registration that the server reads back as the same four fields |
| OplogService.DeregisterMessage | src/services/oplog-service.ts:203-211 | a deregistration that the server reads back as the same four fields |
| OplogService.SubscribeOplog | src/services/oplog-service.ts:162-181 | the subscription is stored under its id, the others are kept, and one registration goes out |
| OplogService.LookupUnique | src/services/oplog-service.ts:152-157 | with unique ids, looking up an entry's id finds that entry |
| OplogService.RegisterAll | src/services/oplog-service.ts:183-197 | one registration per stored subscriber, in registry order |
| OplogService.ResubscribeOplog | src/services/oplog-service.ts:183-197 | the registry is unchanged and every subscriber is registered again in order |
| OplogService.UnsubscribeOplog | src/services/oplog-service.ts:199-212 | the subscription's id is gone, every other entry is kept, and one deregistration goes out |
| OplogService.SubscribeUnsubscribeRoundTrip | src/services/oplog-service.ts:162-212 | subscribing to something new and unsubscribing again gives the registry back |
| OplogService.RemoveLast | src/services/oplog-service.ts:201 | removing the id of a freshly appended entry gives the registry back |
| OplogService.Deregister | src/services/oplog-service.ts:215-222 | the registry is cleared unless reconnecting; a bare deregistration goes out either way |
| OplogService.OperationLogged | src/services/oplog-service.ts:141-159 | an operation is delivered exactly when a subscriber holds its id, and to that subscriber |
| OplogService.OperationReachesItsSubscriber | src/services/oplog-service.ts:141-181 | an operation logged for a subscription reaches that subscription's callback |
| OplogService.InstanceOn | src/services/oplog-service.ts:87-106 | the operation is recorded and subscribed under the instance's namespace and key |
| OplogService.OperationIds | src/services/oplog-service.ts:111-121 | the ids of every recorded operation |
| OplogService.DeregisterEach | src/services/oplog-service.ts:111-121 | one deregistration per operation, in order |
| OplogService.UnsubscribeAll | src/services/oplog-service.ts:111-121 | every recorded operation's id leaves the registry and nothing else does |
| OplogService.InstanceUnsubscribe | src/services/oplog-service.ts:111-121 | every recorded operation is deregistered in order, its id leaves the registry, and the list is emptied |
| OplogService.Init | src/services/oplog-service.ts:35-42 | a fresh client with the OperationLogged subscriber; the registry survives only a reconnecting init |
| OplogService.Apply | src/services/oplog-service.ts:172-180 | a change's messages are published through the client and its registry adopted |
| OplogService.Start | src/services/oplog-service.ts:44-48 | the client starts, then every stored subscription is registered again in order |
| OplogService.Stop | src/services/oplog-service.ts:50-53 | a deregistration that keeps the registry, then the socket closes |
| OplogService.StartRegistersEverything | src/services/oplog-service.ts:44-48 | an opened start sends one registration per stored subscription, in order |
| OplogService.StopKeepsRegistry | src/services/oplog-service.ts:50-53 | stopping and re-initialising for a reconnect keeps every subscription |
| SipControl.FirstRaw | src/services/JsSipController.ts:728 | the first header value's text exactly when it is present and non-empty |
| SipControl.Classify | src/services/JsSipController.ts:725-743 | click-to-dial exactly without a reference; internal exactly when it names internal; flow exactly when it names flow and not internal |
| SipControl.Analyze | src/services/JsSipController.ts:717-807 | local calls are regular outbound; a remote invite is outbound exactly when click-to-dial; the remote party is the display name only for internal calls |
| SipControl.InternalCheckedBeforeFlow | src/services/JsSipController.ts:732-735 | a reference naming both is internal |
| SipControl.InboundTagging | src/services/JsSipController.ts:754-765 | a remote invite is never regular outbound and is outbound exactly when it has no reference |
| SipControl.Payload | src/services/JsSipController.ts:808-826 | the call data carry the session's remote party, direction and work type |
| SipControl.DoConnecting | src/services/JsSipController.ts:286-292 | a connecting report exactly when a session is held |
| SipControl.Adopt | src/services/JsSipController.ts:835-867 | the session becomes the held one and is reported connecting |
| SipControl.NewRtcSession | src/services/JsSipController.ts:207-248 | the parent is always told; a local session changes nothing; a held session is never replaced |
| SipControl.ClickToDialAdoptedWhenIdle | src/services/JsSipController.ts:207-248 | an idle click-to-dial invite is adopted and answered |
| SipControl.ClickToDialRejectedWhileBusy | src/services/JsSipController.ts:207-248 | a second click-to-dial invite during a call is terminated and the held call untouched |
| SipControl.OtherInvitesAdoptedOnlyWhenIdle | src/services/JsSipController.ts:207-248 | another invite is adopted only when idle and never answered or terminated here |
| SipControl.OnSession | src/services/JsSipController.ts:386-551 | only an end or failure clears the held session, reporting it with the formatted cause; a failed media request raises the media-device error; a peer connection is posted to the parent; a successful refer terminates the held session |
| SipControl.EndedPayload | src/services/JsSipController.ts:386-466 | a listed cause adds its title and cause to the call data, an unlisted one adds nothing |
| SipControl.CallSip | src/services/JsSipController.ts:868-900 | a new call only without a held session; it rejects when a found device meets call options never filled in, or without a user agent or configuration |
| SipControl.PlaceOnAgent | src/services/JsSipController.ts:873-899 | after the device lookup the outgoing session takes the slot without a second look; it rejects exactly when a found device is written into unfilled call options, or without a user agent or configuration |
| SipControl.CallSipOverwritesSessionAdoptedDuringLookup | src/services/JsSipController.ts:869-885 | an invite adopted while the device lookup is pending is displaced by the outgoing session, which the call taken in one step would have refused |
| SipControl.Answer | src/services/JsSipController.ts:913-962 | answers and reports the held session, and nothing without one |
| SipControl.AnswerHeld | src/services/JsSipController.ts:934-956 | after the device lookup whatever session the slot holds is answered; an empty slot makes the promise reject |
| SipControl.AnswerAfterLookupMeetsCurrentSlot | src/services/JsSipController.ts:914-956 | if the call ends during the lookup the answer rejects, and an invite adopted meanwhile is answered instead |
| SipControl.Operate | src/services/JsSipController.ts:901-1003 | each control acts once on the held session, and does nothing without one |
| SipControl.TransferBlind | src/services/JsSipController.ts:1036-1062 | refers the held session to the target at the configured domain; throws without a session or configuration |
| SipControl.TransferSuccessEndsReferredCall | src/services/JsSipController.ts:1041-1047 | the refer's success terminates the referred call, and the call's end event then empties the slot |
| SipControl.IsOnHold | src/services/JsSipController.ts:1032-1035 | the session's hold flag; throws without a session |
| SipControl.NormaliseTone | src/services/JsSipController.ts:1066-1074 | asterisk and hash become `*` and `#`, other tokens pass unchanged |
| SipControl.SendDtmf | src/services/JsSipController.ts:1063-1084 | sends exactly a single tone character to the held session |
| SipControl.SentTones | src/services/JsSipController.ts:1063-1084 | what reaches the wire is a digit, `*`, `#`, or the named forms of the last two |
| SipControl.PlusNeverSent | src/services/JsSipController.ts:1063-1084 | the plus key is never sent |
| SipControl.Initialise | src/services/JsSipController.ts:604-709 | nothing while a user agent exists; rejects without permission or valid devices; a lost race stops the new agent; the held session is kept |
| SipControl.DestroyUserAgent | src/services/JsSipController.ts:1085-1095 | the agent and its configuration are dropped, the held session and the call options are not |
| SipControl.StartUserAgent | src/services/JsSipController.ts:624-709 | the new agent replaces whatever is held, with the given configuration and no race listeners left; it runs only when registered, a lost race ends with it stopped, and only a won race fills in the call options |
| SipControl.RunningAgentHasCallOptions | src/services/JsSipController.ts:553-590 | every event keeps the call options filled in whenever the agent is running |
| SipControl.LostFirstRaceBreaksCallsWithDevice | src/services/JsSipController.ts:873-885 | after a lost first race the agent is stopped, a call whose lookup finds a device rejects, and one that finds none is placed |
| SipControl.OverlappingInitialisesBothStart | src/services/JsSipController.ts:604-624 | two initialise calls that both pass the guard both build an agent, and the later one wins, where the second call taken in one step would do nothing |
| SipControl.InitialiseOnceUntilDestroyed | src/services/JsSipController.ts:604-709 | a second initialise does nothing until the agent is destroyed, then starts afresh |
| SipControl.OnUa | src/services/JsSipController.ts:120-199 | a disconnect reports the lost channel and stops the agent; other agent events change nothing in the controller |
| SipControl.Apply | src/services/JsSipController.ts:207-471 | the held session changes only when an idle controller adopts or places a call, or the call ends or fails; only start-up, destruction and agent events touch the agent |
| SipControl.HeldSessionNeverReplaced | src/services/JsSipController.ts:207-471 | a held session is never replaced by another |
| SipControl.OnlyEndingClears | src/services/JsSipController.ts:386-471 | only an end or a failure clears the held session |
| SipControl.KeptUnlessEnded | src/services/JsSipController.ts:207-471 | any other event keeps the held session |
| SipControl.SessionHeldUntilEnded | src/services/JsSipController.ts:207-471 | over any run without an end, the held session stays |
| SipControl.CauseFormatter | src/services/JsSipController.ts:1137-1283 | a result exactly for a listed cause, carrying that cause; a rejected call's title depends on direction; unavailable and not-found share a title |
| SipControl.NoEntryIsUnlisted | src/services/JsSipController.ts:1137-1283 | a cause without an entry is in no category |
| SipControl.EntryIsListed | src/services/JsSipController.ts:1137-1283 | a cause with an entry is listed |
| SipControl.CauseCategories | src/services/JsSipController.ts:1137-1283 | each listed cause is filed under exactly the category that holds it |
| SipControl.CategoriesDisjoint | src/services/JsSipController.ts:1137-1283 | no cause is in two categories |
| SipControl.DirectionMattersOnlyForRejected | src/services/JsSipController.ts:1172-1177 | the direction changes the result only for a rejected call |
| PhoneService.DtmfSound | src/services/phone-service.ts:26-39 | a tone file exactly for a digit, hash or asterisk |
| PhoneService.DigitIsKey | src/services/phone-service.ts:26-39 | every digit has a key tone |
| PhoneService.SendDtmf | src/services/phone-service.ts:97-102 | the key tone plays always; the controller is asked only without no-send |
| PhoneService.ToneTableMatchesController | src/services/phone-service.ts:97-126 | every key with a tone is sent on a held call; the only others sent are `*` and `#` |
| PhoneService.PlusIsSilent | src/services/phone-service.ts:97-126 | the plus key plays and sends nothing |
| PhoneService.StopRinging | src/services/phone-service.ts:133-140 | the referenced ringing instance stops and is forgotten |
| PhoneService.PlayRinging | src/services/phone-service.ts:128-131 | the old instance is stopped before a new one starts |
| PhoneService.OnCallEvent | src/services/phone-service.ts:42-48 | connecting rings; accept, confirm, end and failure stop the ringing; other events change nothing |
| PhoneService.AtMostOneRinging | src/services/phone-service.ts:42-48 | at most one ringing instance plays, and it is the referenced one |
| PhoneService.EndingSilences | src/services/phone-service.ts:42-48 | after an end or failure nothing rings |
| PhoneService.StopSip | src/services/phone-service.ts:142-146 | the store's forced stop is set and the user agent destroyed |
| Tabs.CanMakeCall | src/views/common/phone/tabs/tabs.ts:210-215 | with no call status a call can be made |
| Tabs.IsPendingInbound | src/views/common/phone/tabs/tabs.ts:217-230 | a pending inbound call blocks a new one |
| Tabs.IsPendingOutbound | src/views/common/phone/tabs/tabs.ts:232-241 | a pending outbound call blocks a new one and is not inbound |
| Tabs.EndCallEnabled | src/views/common/phone/tabs/tabs.ts:199-203 | end-call is enabled on a call or while ringing, and otherwise only for a pending call, which blocks a new one |
| Tabs.PendingExclusive | src/views/common/phone/tabs/tabs.ts:210-242 | no call is pending both ways, and a pending call blocks a new one |
| Tabs.EndCallWhileBusy | src/views/common/phone/tabs/tabs.ts:199-216 | with consistent call info, end-call is enabled only while no call can be made, and always then for a directed call |
| Tabs.ToggleMute | src/views/common/phone/tabs/tabs.ts:126-135 | only on a call, unmuting exactly when muted |
| Tabs.ToggleHold | src/views/common/phone/tabs/tabs.ts:144-153 | only on a call, unholding exactly when held |
| Tabs.ToggleMuteFlips | src/views/common/phone/tabs/tabs.ts:126-135 | toggling and feeding back the resulting event flips the muted flag |
| Tabs.StartCall | src/views/common/phone/tabs/tabs.ts:96-111 | a blank number does nothing; otherwise the number is called with the selected flow's name and reset |
| Tabs.WorkTypeIsSelectedFlow | src/views/common/phone/tabs/tabs.ts:96-111 | with the store's flows, the work type is the selected flow's name |
| Tabs.DoStartCall | src/views/common/phone/tabs/tabs.ts:112-117 | answers exactly a pending inbound call |
| Tabs.ShowDefaultTab | src/views/common/phone/tabs/tabs.ts:48-86 | the dial pad shows unless in wrap-up with every interaction wrapping up |
| Tabs.CallsTabOnlyInWrapUp | src/views/common/phone/tabs/tabs.ts:48-86 | the calls tab shows exactly in wrap-up with all interactions wrapping up |
| Tabs.DtmfNoSend | src/views/common/phone/tabs/tabs.ts:136-143 | the transfer pad sets no-send, the other does not |
| ApiGlue.FailedCallReports | src/services/api-service.ts:101-107 | cancelled and rejected calls are reported, others are not |
| ApiGlue.FailureReportsFollowCause | src/services/api-service.ts:101-107 | a failure is reported exactly for cancellation or rejection, with no interaction id |
| ApiGlue.StartSip | src/services/api-service.ts:448-475 | nothing without a device, otherwise the controller's initialise |
| ApiGlue.ReconnectSip | src/services/api-service.ts:477-487 | acts only with a device and SIP down, destroying the agent before starting another |
| ApiGlue.ReconnectRestarts | src/services/api-service.ts:477-487 | a reconnect that passes its checks always brings up a user agent |
| ApiGlue.WatchRouting | src/services/api-service.ts:276-293 | a given callback replaces the pending one |
| ApiGlue.OnRoutingUpdate | src/services/api-service.ts:276-293 | an update with data runs and deletes the pending callback, then passes the update on |
| ApiGlue.RoutingCallbackRunsOnce | src/services/api-service.ts:276-293 | the callback runs at most once, and exactly once if pending and some update has data |
| ApiGlue.Subscriptions | src/services/api-service.ts:239-442 | the seven feeds: five keyed on the member, one on the user, one on the application, all following updates |
| ApiGlue.NamespacesSepFree | src/services/api-service.ts:239-442 | no namespace holds the id separator |
| ApiGlue.NamespacesDistinct | src/services/api-service.ts:239-442 | the seven namespaces are distinct |
| ApiGlue.SubscriptionsDistinct | src/services/api-service.ts:239-442 | the seven subscription ids are distinct whatever the ids hold |
| ApiGlue.IdsTellNamespaces | src/services/oplog-service.ts:224-227 | equal ids have equal namespaces when namespaces are separator-free |
| ApiGlue.SubscribeAddsId | src/services/api-service.ts:754-767 | subscribing adds the descriptor's id and keeps every other |
| ApiGlue.SubscribeAll | src/services/api-service.ts:754-767 | one registration per descriptor, in order |
| ApiGlue.SubscribeAllIds | src/services/api-service.ts:754-767 | subscribing a list adds exactly its ids |
| ApiGlue.SubscribeFeeds | src/services/api-service.ts:754-767 | the feeds are subscribed only with a user |
| ApiGlue.ResubscribingReusesIds | src/services/api-service.ts:93 | resubscribing on every feed reconnect reuses the same ids |
| ApiGlue.OnPartialOnline | src/services/api-service.ts:189-213 | nothing after a forced stop; an off-duty login is set ready and starts SIP on the next routing update; otherwise SIP starts at once |
| ApiGlue.OffDutyStartsOnFirstUpdate | src/services/api-service.ts:189-213 | an off-duty login starts SIP on the first routing update with data, and never again |
| Connectivity.ApplyPolicy | src/services/state-service.ts:174-205 | each policy action reaches the store as the store's own handler |
| Connectivity.Disconnect | src/services/state-service.ts:174-205 | the policy reads login and stop flag from the store and applies its actions to it |
| Connectivity.PolicyKeepsUser | src/services/state-service.ts:174-205 | the policy never changes the logged-in user |
| Connectivity.DisconnectShows | src/services/state-service.ts:174-205 | a logged-in disconnect shows connecting while retries remain, then stops and shows red; a stopped link only publishes DISCONNECTED |
| Connectivity.RetriesShowConnecting | src/services/state-service.ts:174-205 | each disconnect with retries left counts and shows connecting |
| Connectivity.FourthDisconnectStopsTheStore | src/services/state-service.ts:174-205 | the fourth disconnect in a row stops the store, resets the counter and turns the indicator red |
| Connectivity.StoppedStaysStopped | src/services/state-service.ts:174-205 | once stopped, further disconnects leave it stopped, red and uncounted |
| Connectivity.DisconnectLoggedOut | src/services/state-service.ts:174-205 | logged out, a disconnect only publishes DISCONNECTED |
| Connectivity.ManualReconnect | src/views/common/disconnected/disconnected.ts:14-17 | clearing the stop flag and rerunning the policy shows connecting again for a logged-in user |
| Connectivity.ManualReconnectRetriesAtOnce | src/views/common/disconnected/disconnected.ts:14-17 | after the policy's own stop, the manual reconnect retries at once |
| Connectivity.ForcedStopBlocksReconnect | src/services/phone-service.ts:142-146 | after a forced stop a disconnect neither counts nor retries, and the indicator is red |
| Connectivity.ToWire | src/views/common/phone/tabs/tabs.ts:136-143 | a key goes through the phone service to the controller unless on the transfer pad |
| Connectivity.KeyReachesWireIffToneChar | src/services/JsSipController.ts:1063-1084 | a key reaches the held session exactly when it is a digit, `*` or `#`, and as that character |
| Connectivity.TelephonyEvents | src/services/JsSipController.ts:386-466 | the telephony events among a step's actions, in order |
| Connectivity.CallEndReachesStore | src/services/app-store.ts:554-622 | an ended or failed held call shows ended in the store, with the cause exactly when it is listed |

## Left out

- Timers: `setTimeout`, `setInterval` and their delays are represented as delay values or explicit steps (`SuppressionElapsed`, `LivenessTick`), not as time.
- JsSIP and browser WebSocket internals: the user agent, sessions and sockets are abstract states; their events are inputs.
- HTTP requests (login, `fetch*`, `changePresence`, routing and presence updates) appear only as emitted actions, since they are network I/O.
- Persistence (`storeSession`, `loadState`) and the store's change and ready callbacks are left out, since they are browser storage and UI notification.
- Audio playback, UI rendering, key animation and focus handling are left out, since they are presentation only; the tone file chosen is modelled.
- `_format` in `src/services/oplog-service.ts` (reshaping oplog payloads for custom formats) and `handleVersion` are left out, because they only reshape data for views.
- The 120-second OPTIONS ping (`startSocketPing`, `pingTimeout`) and the debounce of the disconnected-view listener are left out, because both are timer-driven.
- `getStats` and `logReport` are left out, because they are diagnostics.
- Re-entrant publications are modelled synchronously: a handler's effects are applied in the order the source publishes them.
- PhoneService.PlayRinging: the stop of the old instance and the start of the new one are taken as one step. The source awaits the synchronous stop, so other handlers can run between the two.
- PhoneService.OnCallEvent: a stop event handled in that gap is not modelled; the instance created after it would keep ringing.
- PhoneService.AtMostOneRinging: holds only when connecting events do not overlap that gap; two overlapping starts leave an unreferenced instance playing.
- PhoneService.EndingSilences: holds only when the end is not handled in that gap; otherwise a new instance starts after the end.
- SipControl.CallSip: the check of the slot, the device lookup and the assignment are taken as one step. `PlaceOnAgent` and `CallSipOverwritesSessionAdoptedDuringLookup` model what happens when an invite is adopted during the lookup.
- SipControl.Answer: the device lookup is taken as one step with the check of the slot. `AnswerHeld` and `AnswerAfterLookupMeetsCurrentSlot` model a call that ends, or is replaced, during the lookup.
- SipControl.Initialise: the guard, both device checks and the start of the agent are taken as one step. `StartUserAgent` and `OverlappingInitialisesBothStart` model two calls that both pass the guard.
- SipControl.HeldSessionNeverReplaced: holds for events taken as one step. A `callSip` that completes after an invite was adopted during its lookup does replace the held session.
- SipControl.KeptUnlessEnded: holds for events taken as one step, for the same reason.
- SipControl.SessionHeldUntilEnded: holds for runs of events taken as one step, for the same reason.
- SipControl.InitialiseOnceUntilDestroyed: holds only when the second `initialise` starts after the first has built its agent.
- SipControl.PlaceOnAgent: a call placed with call options never filled in goes out with no session handlers bound; the model still passes that session's events to `OnSession`.
- SipControl.OnSession: the refer-success event is accepted at any time; in the source it comes only from the subscriber a `transferBlind` created. The peer connection itself is not stored, and the `getusermediafailed` logging is left out.
- OplogService.Deregister: the `logout` listener that calls it (src/services/oplog-service.ts:136-139) is left out; the model runs `Deregister` as its own step.
- The enter-key listener of the dialpad (src/ui/components/dialpad/z-dialpad.ts:17-33, 156-166) is left out: it submits at most once a second, which is timer-driven.
- TelChars.ToView: the `catch` branch of src/resources/converters/tel-chars-only.ts:13-16 is not modelled. It returns a truthy value that is not a string unchanged; the model only takes strings.
- PhoneService.StopSip: the `logInfo` call before the forced stop is left out, because logging is diagnostics.
- ApiGlue.StartSip: the device is modelled by its presence alone. `initiateSip` reads `device.devices[0].name` and `.pin.code` outside its `try` (src/services/api-service.ts:459-460), so a device record with no entries throws before `initialise` and `reconnectSip` rejects; that case is not modelled.
- Dialpad.NumberChanged: `number` is modelled as a string. With a null new value and a falsy old value `isPasted` throws on `newValue.length`. A pad key on an undefined `number` gives `"undefined0"`, which counts as a paste and is sanitised to `"0"`. Neither case is modelled.
- OplogTransport.SocketClosed: models the close event of the socket held. A let-go socket's late close event is the separate `StrayClosed`. A socket replaced by `connect` while it still carries the failure-reporting handler is not tracked.
- A failed `initialise` keeps a stopped user agent, so later `initialise` calls do nothing until it is destroyed; this is modelled, not corrected.
- The `oplogSubscriptions` array in `src/services/api-service.ts` grows on every reconnect; only the registry's ids are modelled, and they do not grow.
- `handleDisconnected` reads the user and the stop flag after publishing DISCONNECTED; the model reads them before, which is equivalent because that publication changes neither.
- Devices.GetDevicePermissions: the browser's answers are a finite sequence; one that runs out leaves the promise unsettled, where the browser would keep asking.
- OplogClient.TrackingIdsFresh: the source draws each tracking id from `uuid.v4()` (randomness); the model draws consecutive numbers from a counter, so "never reused" stands for the assumption that generated ids do not collide. `Publish`, `PublishAll`, `Stamp` and `StampedIds` use the same counter.

=== FILE: api_glue.dfy ===
/** The decisions the API service takes on connectivity events: which call
    failures it reports, when it restarts the signalling channel, the
    one-shot callback on the routing-status feed, the change-feed
    subscriptions it (re)creates, and what the partial-online callback
    does. The HTTP requests themselves are actions. */
module ApiGlue {
  import opened Wrappers
  import AppStore
  import SipControl
  import OplogService

  /** What the service does in response. */
  datatype GlueAction =
    | ReportCallCancelled(interactionId: Option<string>)
    | ReportCallRejected(interactionId: Option<string>)
    | InitiateSip
    | WatchRoutingStatus(withCallback: bool)
    | ChangeRoutingStatus(status: string)
    | RoutingStatusFromFeed

  // ---------------------------------------------------------------------
  // Failed calls
  // ---------------------------------------------------------------------

  /** The CALL.FAILED subscriber: a cancelled call and a rejected call are
      each reported; any other cause is not. */
  function FailedCallReports(cause: string, interactionId: Option<string>): (r: seq<GlueAction>)
    ensures |r| <= 1
    ensures cause == "Canceled" <==> r == [ReportCallCancelled(interactionId)]
    ensures cause == "Rejected" <==> r == [ReportCallRejected(interactionId)]
  {
    if cause == "Canceled" then [ReportCallCancelled(interactionId)]
    else if cause == "Rejected" then [ReportCallRejected(interactionId)]
    else []
  }

  /** The failure event the controller publishes carries the call info and
      the raw cause, and no top-level interaction id. */
  const FailedEventInteractionId: Option<string> := None

  /** A failed call is reported exactly when its cause is the library's
      cancellation or rejection cause, and then with no interaction id. */
  lemma FailureReportsFollowCause(cause: string)
    ensures FailedCallReports(cause, FailedEventInteractionId) != [] <==>
      cause == SipControl.Canceled || cause == SipControl.RejectedCause
    ensures forall a | a in FailedCallReports(cause, FailedEventInteractionId) ::
      (a.ReportCallCancelled? || a.ReportCallRejected?) && a.interactionId.None?
  {
  }

  // ---------------------------------------------------------------------
  // Restarting the signalling channel
  // ---------------------------------------------------------------------

  /** The inputs a user-agent start-up needs from the outside. */
  datatype StartUp = StartUp(config: SipControl.SipConfig, permitted: bool, devicesValid: bool, race: SipControl.Race)

  /** `initiateSip(device)`: nothing without a device; otherwise the
      controller's `initialise`. */
  function StartSip(c: SipControl.Controller, device: Option<string>, u: StartUp): (r: SipControl.Step)
    ensures device.None? ==> r == SipControl.Step(c, [])
    ensures device.Some? ==>
      var i := SipControl.Initialise(c, u.config, u.permitted, u.devicesValid, u.race);
      r == SipControl.Step(i.controller, i.actions)
  {
    if device.None? then SipControl.Step(c, [])
    else
      var i := SipControl.Initialise(c, u.config, u.permitted, u.devicesValid, u.race);
      SipControl.Step(i.controller, i.actions)
  }

  /** `reconnectSip`: only with a device and the signalling channel down;
      then the user agent is destroyed before a new one is started. */
  function ReconnectSip(s: AppStore.Store, c: SipControl.Controller, u: StartUp): (r: SipControl.Step)
    ensures s.device.None? || IsSet(s.sip) ==> r == SipControl.Step(c, [])
    ensures s.device.Some? && !IsSet(s.sip) ==>
      var destroyed := SipControl.DestroyUserAgent(c);
      var started := StartSip(destroyed.controller, s.device, u);
      r == SipControl.Step(started.controller, destroyed.actions + started.actions)
  {
    if s.device.None? || IsSet(s.sip) then SipControl.Step(c, [])
    else
      var destroyed := SipControl.DestroyUserAgent(c);
      var started := StartSip(destroyed.controller, s.device, u);
      SipControl.Step(started.controller, destroyed.actions + started.actions)
  }

  /** Without the destroy a start-up would do nothing while a user agent
      exists; with it, a reconnect that passes its guard and the device
      checks always brings up a user agent with the new configuration. */
  lemma ReconnectRestarts(s: AppStore.Store, c: SipControl.Controller, u: StartUp)
    requires s.device.Some? && !IsSet(s.sip)
    ensures c.ua.Some? ==> StartSip(c, s.device, u) == SipControl.Step(c, [])
    ensures u.permitted && u.devicesValid ==>
      ReconnectSip(s, c, u).controller.ua.Some? && ReconnectSip(s, c, u).controller.config == Some(u.config)
    ensures ReconnectSip(s, c, u).controller.session == c.session
  {
  }

  // ---------------------------------------------------------------------
  // The routing-status feed
  // ---------------------------------------------------------------------

  /** Whether a routing-status change callback is pending. */
  datatype RoutingWatch = RoutingWatch(callbackPending: bool)

  /** `subscribeToRoutingStatus(memberId, callback?)`: a given callback
      replaces the pending one. */
  function WatchRouting(w: RoutingWatch, withCallback: bool): (w': RoutingWatch)
    ensures w'.callbackPending == (w.callbackPending || withCallback)
  {
    if withCallback then RoutingWatch(true) else w
  }

  /** An update on the routing-status feed: with data, the pending callback
      (which starts the signalling channel) runs and is deleted, then the
      update is passed on. */
  function OnRoutingUpdate(w: RoutingWatch, hasData: bool): (r: (RoutingWatch, seq<GlueAction>))
    ensures !hasData ==> r == (w, [])
    ensures hasData ==> !r.0.callbackPending
    ensures hasData ==> r.1 == (if w.callbackPending then [InitiateSip] else []) + [RoutingStatusFromFeed]
  {
    if !hasData then (w, [])
    else if w.callbackPending then (RoutingWatch(false), [InitiateSip, RoutingStatusFromFeed])
    else (w, [RoutingStatusFromFeed])
  }

  /** A run of updates; returns the watch and the number of times the
      callback ran. */
  function OnRoutingUpdates(w: RoutingWatch, updates: seq<bool>): (RoutingWatch, nat)
    decreases |updates|
  {
    if updates == [] then (w, 0)
    else
      var step := OnRoutingUpdate(w, updates[0]);
      var rest := OnRoutingUpdates(step.0, updates[1..]);
      (rest.0, rest.1 + (if InitiateSip in step.1 then 1 else 0))
  }

  /** The callback runs at most once, and exactly once if it was pending and
      some update carried data. */
  lemma {:induction false} RoutingCallbackRunsOnce(w: RoutingWatch, updates: seq<bool>)
    ensures OnRoutingUpdates(w, updates).1 <= 1
    ensures OnRoutingUpdates(w, updates).1 == 1 <==>
      w.callbackPending && exists k | 0 <= k < |updates| :: updates[k]
    ensures !w.callbackPending ==> OnRoutingUpdates(w, updates).1 == 0
    decreases |updates|
  {
    if updates != [] {
      var step := OnRoutingUpdate(w, updates[0]);
      RoutingCallbackRunsOnce(step.0, updates[1..]);
      if updates[0] {
        assert !step.0.callbackPending;
      } else {
        assert step == (w, []);
        assert forall k | 1 <= k < |updates| :: updates[1..][k - 1] == updates[k];
      }
      if exists k | 0 <= k < |updates[1..]| :: updates[1..][k] {
        var k :| 0 <= k < |updates[1..]| && updates[1..][k];
        assert updates[k + 1];
      }
    }
  }

  // ---------------------------------------------------------------------
  // Change-feed subscriptions
  // ---------------------------------------------------------------------

  /** The namespaces of the seven views the service follows. */
  const Namespaces: seq<string> := [
    "member-projector.displayMemberProfileView",
    "member-projector.displayRoutingStatusView",
    "member-projector.activityRoutabilityView",
    "member-projector.displayMemberActivityView",
    "passport-projector.displayPresenceView",
    "interaction-projector.memberInteractionsView",
    "version-service.versionServiceView"]

  /** The seven subscriptions: five views keyed on the member, one on the
      user and one on the application, all following updates. */
  function Subscriptions(user: AppStore.UserInfo): (ds: seq<OplogService.Descriptor>)
    ensures |ds| == |Namespaces|
    ensures forall k | 0 <= k < |ds| :: ds[k].nameSpace == Namespaces[k] && ds[k].operation == "update"
    ensures forall k | 0 <= k < 6 :: ds[k].keyField == "_id"
    ensures ds[4].keyValue == user.userId && ds[6].keyValue == "sip-phone"
    ensures forall k | 0 <= k < 4 || k == 5 :: ds[k].keyValue == user.memberId
  {
    var m := user.memberId;
    [OplogService.Descriptor(Namespaces[0], "update", "_id", m),
     OplogService.Descriptor(Namespaces[1], "update", "_id", m),
     OplogService.Descriptor(Namespaces[2], "update", "_id", m),
     OplogService.Descriptor(Namespaces[3], "update", "_id", m),
     OplogService.Descriptor(Namespaces[4], "update", "_id", user.userId),
     OplogService.Descriptor(Namespaces[5], "update", "_id", m),
     OplogService.Descriptor(Namespaces[6], "update", "application", "sip-phone")]
  }

  /** No namespace holds the separator. */
  lemma NamespacesSepFree()
    ensures forall k | 0 <= k < |Namespaces| :: OplogService.NoSep(Namespaces[k])
  {
    assert OplogService.NoSep(Namespaces[0]);
    assert OplogService.NoSep(Namespaces[1]);
    assert OplogService.NoSep(Namespaces[2]);
    assert OplogService.NoSep(Namespaces[3]);
    assert OplogService.NoSep(Namespaces[4]);
    assert OplogService.NoSep(Namespaces[5]);
    assert OplogService.NoSep(Namespaces[6]);
  }

  /** No two namespaces are equal. */
  lemma NamespacesDistinct()
    ensures forall i, j | 0 <= i < j < |Namespaces| :: Namespaces[i] != Namespaces[j]
  {
    forall i, j | 0 <= i < j < |Namespaces| ensures Namespaces[i] != Namespaces[j] {
      assert |Namespaces[i]| != |Namespaces[j]| || Namespaces[i][18] != Namespaces[j][18] || Namespaces[i][25] != Namespaces[j][25];
    }
  }

  /** The seven ids are distinct, whatever the member and user ids hold. */
  lemma SubscriptionsDistinct(user: AppStore.UserInfo)
    ensures forall i, j | 0 <= i < j < |Subscriptions(user)| ::
      OplogService.ProvisionId(Subscriptions(user)[i]) != OplogService.ProvisionId(Subscriptions(user)[j])
  {
    var ds := Subscriptions(user);
    NamespacesSepFree();
    NamespacesDistinct();
    forall i, j | 0 <= i < j < |ds|
      ensures OplogService.ProvisionId(ds[i]) != OplogService.ProvisionId(ds[j])
    {
      if OplogService.ProvisionId(ds[i]) == OplogService.ProvisionId(ds[j]) {
        IdsTellNamespaces(ds[i], ds[j]);
      }
    }
  }

  /** Ids that agree have the same namespace, when namespaces are free of
      the separator. */
  lemma IdsTellNamespaces(a: OplogService.Descriptor, b: OplogService.Descriptor)
    requires OplogService.NoSep(a.nameSpace) && OplogService.NoSep(b.nameSpace)
    requires OplogService.ProvisionId(a) == OplogService.ProvisionId(b)
    ensures a.nameSpace == b.nameSpace
  {
    var ta := a.operation + [OplogService.Sep] + a.keyField + [OplogService.Sep] + a.keyValue;
    var tb := b.operation + [OplogService.Sep] + b.keyField + [OplogService.Sep] + b.keyValue;
    assert OplogService.ProvisionId(a) == a.nameSpace + [OplogService.Sep] + ta;
    assert OplogService.ProvisionId(b) == b.nameSpace + [OplogService.Sep] + tb;
    OplogService.SplitAtSep(a.nameSpace, ta, b.nameSpace, tb);
  }

  /** The ids held by a registry. */
  function Ids(r: OplogService.Registry): set<string> {
    set k | 0 <= k < |r| :: r[k].id
  }

  /** The ids of a list of descriptors. */
  function IdsOf(ds: seq<OplogService.Descriptor>): set<string>
    decreases |ds|
  {
    if ds == [] then {} else {OplogService.ProvisionId(ds[0])} + IdsOf(ds[1..])
  }

  /** Every descriptor's id is among the ids of the list, and only those. */
  lemma {:induction false} IdsOfMembers(ds: seq<OplogService.Descriptor>, id: string)
    ensures id in IdsOf(ds) <==> exists k | 0 <= k < |ds| :: OplogService.ProvisionId(ds[k]) == id
    decreases |ds|
  {
    if ds != [] {
      IdsOfMembers(ds[1..], id);
      if exists k | 0 <= k < |ds[1..]| :: OplogService.ProvisionId(ds[1..][k]) == id {
        var k :| 0 <= k < |ds[1..]| && OplogService.ProvisionId(ds[1..][k]) == id;
        assert OplogService.ProvisionId(ds[k + 1]) == id;
      }
      if exists k | 0 <= k < |ds| :: OplogService.ProvisionId(ds[k]) == id {
        var k :| 0 <= k < |ds| && OplogService.ProvisionId(ds[k]) == id;
        if k > 0 {
          assert OplogService.ProvisionId(ds[1..][k - 1]) == id;
        }
      }
    }
  }

  /** Subscribing to a descriptor adds its id and keeps every other. */
  lemma SubscribeAddsId(r: OplogService.Registry, d: OplogService.Descriptor, handler: string)
    requires OplogService.Valid(r)
    ensures Ids(OplogService.SubscribeOplog(r, d, handler).registry) == Ids(r) + {OplogService.ProvisionId(d)}
  {
    var c := OplogService.SubscribeOplog(r, d, handler);
    var p := OplogService.ProvisionId(d);
    forall id | id in Ids(c.registry) ensures id in Ids(r) + {p} {
      var k :| 0 <= k < |c.registry| && c.registry[k].id == id;
      if id != p {
        assert c.registry[k] in r;
      }
    }
    forall id | id in Ids(r) + {p} ensures id in Ids(c.registry) {
      if id == p {
        assert OplogService.HasId(c.registry, p);
      } else {
        var k :| 0 <= k < |r| && r[k].id == id;
        assert r[k] in c.registry;
      }
    }
  }

  /** Subscribing a list of descriptors in order; the handler is named
      after the namespace. */
  function SubscribeAll(r: OplogService.Registry, ds: seq<OplogService.Descriptor>): (c: OplogService.Change)
    requires OplogService.Valid(r)
    ensures OplogService.Valid(c.registry)
    ensures |c.messages| == |ds|
    ensures forall k | 0 <= k < |ds| :: c.messages[k] == OplogService.RegisterMessage(ds[k])
    decreases |ds|
  {
    if ds == [] then OplogService.Change(r, [])
    else
      var first := OplogService.SubscribeOplog(r, ds[0], ds[0].nameSpace);
      var rest := SubscribeAll(first.registry, ds[1..]);
      OplogService.Change(rest.registry, first.messages + rest.messages)
  }

  /** Subscribing a list adds exactly the list's ids to the registry. */
  lemma {:induction false} SubscribeAllIds(r: OplogService.Registry, ds: seq<OplogService.Descriptor>)
    requires OplogService.Valid(r)
    ensures Ids(SubscribeAll(r, ds).registry) == Ids(r) + IdsOf(ds)
    decreases |ds|
  {
    if ds != [] {
      var first := OplogService.SubscribeOplog(r, ds[0], ds[0].nameSpace);
      SubscribeAddsId(r, ds[0], ds[0].nameSpace);
      SubscribeAllIds(first.registry, ds[1..]);
    }
  }

  /** `subscribeOplogSubscriptions`: only with a user. */
  function SubscribeFeeds(user: Option<AppStore.UserInfo>, r: OplogService.Registry): (c: OplogService.Change)
    requires OplogService.Valid(r)
    ensures OplogService.Valid(c.registry)
    ensures user.None? ==> c == OplogService.Change(r, [])
    ensures user.Some? ==> |c.messages| == 7 && c == SubscribeAll(r, Subscriptions(user.value))
  {
    if user.None? then OplogService.Change(r, []) else SubscribeAll(r, Subscriptions(user.value))
  }

  /** Repeating the subscriptions on every change-feed reconnect re-uses
      the same ids: the registry's ids do not grow. */
  lemma ResubscribingReusesIds(user: AppStore.UserInfo, r: OplogService.Registry)
    requires OplogService.Valid(r)
    ensures var once := SubscribeFeeds(Some(user), r).registry;
            Ids(SubscribeFeeds(Some(user), once).registry) == Ids(once)
  {
    var ds := Subscriptions(user);
    SubscribeAllIds(r, ds);
    SubscribeAllIds(SubscribeAll(r, ds).registry, ds);
  }

  // ---------------------------------------------------------------------
  // The partial-online callback
  // ---------------------------------------------------------------------

  /** The callback registered for the partial-online transition after
      login: nothing after a forced stop; an agent logged in off duty is
      first set to READY, with the signalling channel started once the
      routing status is seen to change, unless already Ready. */
  function OnPartialOnline(s: AppStore.Store, setOffDuty: bool): (r: seq<GlueAction>)
    ensures s.connectionStopped ==> r == []
    ensures !s.connectionStopped && (!setOffDuty || s.routingStatus == Some("Ready")) ==> r == [InitiateSip]
    ensures !s.connectionStopped && setOffDuty && s.routingStatus != Some("Ready") ==>
      r == [WatchRoutingStatus(true), ChangeRoutingStatus("READY")]
  {
    if s.connectionStopped then []
    else if setOffDuty then
      if s.routingStatus == Some("Ready") then [InitiateSip]
      else [WatchRoutingStatus(true), ChangeRoutingStatus("READY")]
    else [InitiateSip]
  }

  /** An off-duty login that is not yet Ready starts the signalling channel
      on the first routing-status update with data, and never again. */
  lemma OffDutyStartsOnFirstUpdate(s: AppStore.Store, w: RoutingWatch, updates: seq<bool>)
    requires !s.connectionStopped && s.routingStatus != Some("Ready")
    requires exists k | 0 <= k < |updates| :: updates[k]
    ensures OnPartialOnline(s, true)[0] == WatchRoutingStatus(true)
    ensures OnRoutingUpdates(WatchRouting(w, true), updates).1 == 1
  {
    RoutingCallbackRunsOnce(WatchRouting(w, true), updates);
  }
}

=== FILE: app_store.dfy ===
/** The application store: the connectivity flags, the derived
    partial-online / fully-online checks with their callbacks, the call-status
    machine, the routing activity merge and the outbound flow options.
    Events the store subscribes to are inputs; what it calls out to (the
    registered callbacks, the parent window, the event bus) comes back as a
    list of effects. */
module AppStore {
  import opened Wrappers

  datatype UserInfo = UserInfo(memberId: string, userId: string)

  /** One outbound flow option. */
  datatype Flow = Flow(flowId: Option<string>, flowName: string, selected: bool)

  datatype InteractionFlows = InteractionFlows(outboundFlowOptions: seq<Flow>, selectedFlow: Option<Flow>)

  datatype RoutingActivity = RoutingActivity(endingWrapup: bool, notResponding: bool, wrapUp: bool)

  /** The fields an activity update carries; None is a field it leaves out. */
  datatype ActivityPatch = ActivityPatch(endingWrapup: Option<bool>, notResponding: Option<bool>, wrapUp: Option<bool>)

  datatype Interaction = Interaction(interactionId: string, state: string)

  /** `callInfo`. `status` is 20 while a call is pending, 30 while it is up
      and 40 once it ended; `hold` and `muted` may be absent. */
  datatype CallInfo = CallInfo(
    title: Option<string>,
    ringing: bool,
    remote: Option<string>,
    onCall: bool,
    status: Option<int>,
    direction: Option<string>,
    workType: Option<string>,
    hold: Option<bool>,
    muted: Option<bool>,
    cause: Option<string>)

  const EmptyCallInfo := CallInfo(None, false, None, false, None, None, None, None, None, None)

  const StatusPending := 20
  const StatusOnCall := 30
  const StatusEnded := 40

  /** What a call event carries about the call. */
  datatype CallData = CallData(
    title: Option<string>, remote: Option<string>, direction: Option<string>,
    workType: Option<string>, cause: Option<string>)

  datatype CallEvent =
    | CallConnecting(data: CallData)
    | CallSending
    | CallProgress
    | CallAccepted
    | CallConfirmed
    | CallEnded(data: CallData)
    | CallFailed(data: CallData)
    | CallHold
    | CallUnhold
    | CallMuted
    | CallUnmuted

  datatype Store = Store(
    loginLoading: bool,
    loginError: Option<string>,
    user: Option<UserInfo>,
    /** The selected device, an object: present is truthy. */
    device: Option<string>,
    routingStatus: Option<string>,
    routingStatusActivity: RoutingActivity,
    interactionFlows: InteractionFlows,
    activeInteractions: Option<seq<Interaction>>,
    callInfo: CallInfo,
    globalError: Option<string>,
    oplog: Option<bool>,
    connecting: bool,
    connectionStopped: bool,
    sip: Option<bool>,
    ua: Option<bool>,
    isPartial: bool,
    isFullyOnline: bool,
    /** Registered views, in registration order. */
    partialOnlineCallbacks: seq<string>,
    /** None once the map has been deleted. */
    onlineCallbacks: Option<seq<string>>)

  /** The state a fresh store and a logout start from. */
  function EmptyState(s: Store): Store {
    s.(loginLoading := false, loginError := None, user := None, device := None, routingStatus := None,
       routingStatusActivity := RoutingActivity(false, false, false),
       interactionFlows := InteractionFlows([], None), activeInteractions := None,
       callInfo := EmptyCallInfo, globalError := None, oplog := None,
       connecting := true, connectionStopped := false, sip := None, ua := None)
  }

  const Initial: Store := Store(false, None, None, None, None, RoutingActivity(false, false, false),
    InteractionFlows([], None), None, EmptyCallInfo, None, None, true, false, None, None,
    false, false, [], Some([]))

  datatype CallbackKind = PartialKind | OnlineKind

  datatype StoreEffect =
    | RunCallback(kind: CallbackKind, view: string)
    | PostMessage(message: string)
    | LoginCompletePublished

  datatype Outcome = Outcome(store: Store, effects: seq<StoreEffect>)

  /** The condition `isPartialOnline` tests. */
  predicate PartialOnline(s: Store) {
    s.user.Some? && s.device.Some? && IsSet(s.oplog) && (!IsSet(s.sip) || !IsSet(s.ua))
  }

  /** The condition `isOnline` tests. It does not ask for a device. */
  predicate FullyOnline(s: Store) {
    s.user.Some? && IsSet(s.oplog) && IsSet(s.sip) && IsSet(s.ua)
  }

  function RunAll(kind: CallbackKind, views: seq<string>): (e: seq<StoreEffect>)
    ensures |e| == |views|
    ensures forall i :: 0 <= i < |views| ==> e[i] == RunCallback(kind, views[i])
  {
    if views == [] then [] else [RunCallback(kind, views[0])] + RunAll(kind, views[1..])
  }

  /** `isPartialOnline`: the callbacks run only on the way in. */
  function CheckPartialOnline(s: Store): (o: Outcome)
    ensures o.store == s.(isPartial := PartialOnline(s))
    ensures PartialOnline(s) && !s.isPartial ==> o.effects == RunAll(PartialKind, s.partialOnlineCallbacks)
    ensures !(PartialOnline(s) && !s.isPartial) ==> o.effects == []
  {
    if s.user.None? || s.device.None? then Outcome(s.(isPartial := false), [])
    else if IsSet(s.oplog) && (!IsSet(s.sip) || !IsSet(s.ua)) then
      var effects := if !s.isPartial then RunAll(PartialKind, s.partialOnlineCallbacks) else [];
      Outcome(s.(isPartial := true), effects)
    else Outcome(s.(isPartial := false), [])
  }

  /** `isOnline`: the callback map is deleted before it is consulted, so no
      fully-online callback runs; the parent window is told and LOGIN.COMPLETE
      (which clears the login's loading flag and error) is published every
      time the check passes. */
  function CheckOnline(s: Store): (o: Outcome)
    ensures o.store.isFullyOnline == FullyOnline(s)
    ensures FullyOnline(s) ==> o.store.onlineCallbacks.None?
    ensures FullyOnline(s) ==> o.effects == [PostMessage("webphone-initialized"), LoginCompletePublished]
    ensures !FullyOnline(s) ==> o == Outcome(s.(isFullyOnline := false), [])
    ensures forall v :: RunCallback(OnlineKind, v) !in o.effects
  {
    if s.user.None? then Outcome(s.(isFullyOnline := false), [])
    else if IsSet(s.oplog) && IsSet(s.sip) && IsSet(s.ua) then
      // `handleAllCallbacks` finds no map and returns at once.
      var completed := s.(onlineCallbacks := None, loginLoading := false, loginError := None);
      Outcome(completed.(isFullyOnline := true), [PostMessage("webphone-initialized"), LoginCompletePublished])
    else Outcome(s.(isFullyOnline := false), [])
  }

  /** Both checks, in the order the handlers make them. */
  function Recheck(s: Store): (o: Outcome)
    ensures o.store.isPartial == PartialOnline(s) && o.store.isFullyOnline == FullyOnline(s)
    ensures o.store.sip == s.sip && o.store.ua == s.ua && o.store.oplog == s.oplog
    ensures o.store.user == s.user && o.store.device == s.device
    ensures o.store.connecting == s.connecting && o.store.connectionStopped == s.connectionStopped
    ensures o.store.callInfo == s.callInfo && o.store.partialOnlineCallbacks == s.partialOnlineCallbacks
  {
    var p := CheckPartialOnline(s);
    var q := CheckOnline(p.store);
    Outcome(q.store, p.effects + q.effects)
  }

  datatype SipEvent = SipConnecting | SipConnected | SipDisconnected | SipFailed
  datatype UaEvent = UaRegistered | UaUnregistered | UaFailed
  datatype OplogEvent = OplogSuccess | OplogFailed

  /** `handleSIP` */
  function HandleSip(s: Store, e: SipEvent): (o: Outcome)
    ensures e == SipConnected ==> o.store.sip == Some(true) && !o.store.connecting
    ensures e == SipConnecting ==> o.store.sip == Some(false) && o.store.connecting
    ensures (e == SipDisconnected || e == SipFailed) ==> o.store.sip == Some(false) && !o.store.connecting
    ensures o.store.ua == s.ua && o.store.oplog == s.oplog && o.store.connectionStopped == s.connectionStopped
  {
    var s1 := match e
      case SipConnecting => s.(sip := Some(false), connecting := true)
      case SipConnected => s.(sip := Some(true), connecting := false)
      case SipDisconnected => s.(sip := Some(false), connecting := false)
      case SipFailed => s.(sip := Some(false), connecting := false);
    Recheck(s1)
  }

  /** `handleUA` */
  function HandleUa(s: Store, e: UaEvent): (o: Outcome)
    ensures o.store.ua == Some(e == UaRegistered)
    ensures o.store.sip == s.sip && o.store.oplog == s.oplog && o.store.connecting == s.connecting
  {
    var s1 := match e
      case UaRegistered => s.(ua := Some(true))
      case UaUnregistered => s.(ua := Some(false))
      case UaFailed => s.(ua := Some(false));
    Recheck(s1)
  }

  /** `handleOplog` */
  function HandleOplog(s: Store, e: OplogEvent): (o: Outcome)
    ensures o.store.oplog == Some(e == OplogSuccess)
    ensures o.store.sip == s.sip && o.store.ua == s.ua && o.store.connecting == s.connecting
  {
    var s1 := if e == OplogSuccess then s.(oplog := Some(true)) else s.(oplog := Some(false));
    Recheck(s1)
  }

  /** `handleDeviceInfo`: a failure also ends `connecting`. */
  function HandleDevice(s: Store, device: Option<string>): (o: Outcome)
    ensures device.Some? ==> o.store.device == device && o.store.connecting == s.connecting
    ensures device.None? ==> o.store.device == s.device && !o.store.connecting
  {
    var s1 := if device.Some? then s.(device := device) else s.(connecting := false);
    Recheck(s1)
  }

  /** `handleLogin`. A success records the user but runs no check; a failure
      falls through to the default branch and ends `connecting`. */
  datatype LoginEvent = LoginAttempt | LoginSuccess(user: UserInfo) | LoginComplete | LoginFailed(error: string)

  function HandleLogin(s: Store, e: LoginEvent): (r: Store)
    ensures e.LoginSuccess? ==> r == s.(loginLoading := false, user := Some(e.user))
    ensures e.LoginFailed? ==> r == s.(loginLoading := false, loginError := Some(e.error), connecting := false)
    ensures e == LoginComplete ==> r == s.(loginLoading := false, loginError := None)
    ensures e == LoginAttempt ==> r == s.(loginLoading := true)
    ensures r.isPartial == s.isPartial && r.isFullyOnline == s.isFullyOnline
  {
    match e
    case LoginAttempt => s.(loginLoading := true)
    case LoginSuccess(u) => s.(loginLoading := false, user := Some(u))
    case LoginComplete => s.(loginLoading := false, loginError := None)
    case LoginFailed(err) => s.(loginLoading := false, loginError := Some(err), connecting := false)
  }

  /** `handleSIPCall` */
  function HandleCall(c: CallInfo, e: CallEvent): (r: CallInfo)
    ensures e.CallConnecting? ==>
      r == CallInfo(e.data.title, true, e.data.remote, false, Some(StatusPending), e.data.direction,
                    e.data.workType, None, None, None)
    ensures e == CallAccepted ==>
      r == c.(title := Some("On Call"), ringing := false, onCall := false, status := Some(StatusPending))
    ensures e == CallConfirmed ==>
      r == c.(title := Some("On Call"), ringing := false, onCall := true, status := Some(StatusOnCall))
    ensures (e.CallEnded? || e.CallFailed?) ==>
      r == c.(title := e.data.title, cause := e.data.cause, ringing := false, onCall := false,
              status := Some(StatusEnded), muted := Some(false), hold := Some(false))
    ensures e == CallHold ==> r == c.(hold := Some(true))
    ensures e == CallUnhold ==> r == c.(hold := Some(false))
    ensures e == CallMuted ==> r == c.(muted := Some(true))
    ensures e == CallUnmuted ==> r == c.(muted := Some(false))
    ensures (e == CallSending || e == CallProgress) ==> r == c
  {
    match e
    case CallConnecting(d) =>
      // A fresh object: hold, muted and cause are not carried over.
      CallInfo(d.title, true, d.remote, false, Some(StatusPending), d.direction, d.workType, None, None, None)
    case CallSending => c
    case CallProgress => c
    case CallAccepted => c.(title := Some("On Call"), ringing := false, onCall := false, status := Some(StatusPending))
    case CallConfirmed => c.(title := Some("On Call"), ringing := false, onCall := true, status := Some(StatusOnCall))
    case CallEnded(d) => EndCall(c, d)
    case CallFailed(d) => EndCall(c, d)
    case CallHold => c.(hold := Some(true))
    case CallUnhold => c.(hold := Some(false))
    case CallMuted => c.(muted := Some(true))
    case CallUnmuted => c.(muted := Some(false))
  }

  function EndCall(c: CallInfo, d: CallData): CallInfo {
    c.(title := d.title, cause := d.cause, ringing := false, onCall := false,
       status := Some(StatusEnded), muted := Some(false), hold := Some(false))
  }

  /** The status after any call event is one of the three, once a call has
      started, and a call is up exactly while the status says so. */
  predicate CallInfoConsistent(c: CallInfo) {
    && (c.status.Some? ==> c.status.value in {StatusPending, StatusOnCall, StatusEnded})
    && (c.onCall <==> c.status == Some(StatusOnCall))
    && (c.ringing ==> c.status == Some(StatusPending))
  }

  lemma HandleCallKeepsConsistent(c: CallInfo, e: CallEvent)
    requires CallInfoConsistent(c)
    ensures CallInfoConsistent(HandleCall(c, e))
  {
  }

  /** Events applied one after another. */
  function HandleCalls(c: CallInfo, es: seq<CallEvent>): CallInfo
    decreases |es|
  {
    if es == [] then c else HandleCalls(HandleCall(c, es[0]), es[1..])
  }

  /** From the empty call info, every sequence of call events keeps the
      status, on-call and ringing flags in agreement. */
  lemma {:induction false} CallInfoAlwaysConsistent(c: CallInfo, es: seq<CallEvent>)
    requires CallInfoConsistent(c)
    ensures CallInfoConsistent(HandleCalls(c, es))
    decreases |es|
  {
    if es != [] {
      HandleCallKeepsConsistent(c, es[0]);
      CallInfoAlwaysConsistent(HandleCall(c, es[0]), es[1..]);
    }
  }

  /** `handleRoutingStatusActivity` for a success or a change-feed update:
      the update's fields are spread over the current ones, and leaving
      wrap-up ends any pending end-of-wrap-up. */
  function MergeActivity(a: RoutingActivity, p: ActivityPatch): (r: RoutingActivity)
    ensures !r.wrapUp ==> !r.endingWrapup
    ensures r.wrapUp == p.wrapUp.GetOr(a.wrapUp)
    ensures r.notResponding == p.notResponding.GetOr(a.notResponding)
    ensures r.wrapUp ==> r.endingWrapup == p.endingWrapup.GetOr(a.endingWrapup)
  {
    var merged := RoutingActivity(
      p.endingWrapup.GetOr(a.endingWrapup),
      p.notResponding.GetOr(a.notResponding),
      p.wrapUp.GetOr(a.wrapUp));
    if !merged.wrapUp then merged.(endingWrapup := false) else merged
  }

  /** `handleEndWrapup`: a pending end of wrap-up, whatever the wrap-up flag. */
  function HandleEndWrapup(s: Store): (r: Store)
    ensures r.routingStatusActivity.endingWrapup
    ensures r.routingStatusActivity.wrapUp == s.routingStatusActivity.wrapUp
  {
    s.(routingStatusActivity := s.routingStatusActivity.(endingWrapup := true))
  }

  const PrivateFlowName := "Private (No Flow)"

  function FirstSelected(options: seq<Flow>): (r: Option<Flow>)
    ensures r.Some? ==> r.value in options && r.value.selected
    ensures r.Some? ==> exists i :: (0 <= i < |options| && options[i] == r.value &&
      forall j :: 0 <= j < i ==> !options[j].selected)
    ensures r.None? <==> forall i :: 0 <= i < |options| ==> !options[i].selected
  {
    if options == [] then None
    else if options[0].selected then Some(options[0])
    else
      var r := FirstSelected(options[1..]);
      assert forall i :: 1 <= i < |options| ==> options[i] == options[1..][i - 1];
      if r.Some? then
        var i :| 0 <= i < |options[1..]| && options[1..][i] == r.value &&
          forall j :: 0 <= j < i ==> !options[1..][j].selected;
        assert options[i + 1] == r.value;
        r
      else r
  }

  /** `handleInteractionFlows`: the private entry heads the list and is
      selected exactly when no incoming option is; the selected flow is the
      first incoming option marked selected, else the private entry. */
  function HandleInteractionFlows(options: seq<Flow>): (r: InteractionFlows)
    ensures |r.outboundFlowOptions| == |options| + 1
    ensures r.outboundFlowOptions[0].flowId.None? && r.outboundFlowOptions[0].flowName == PrivateFlowName
    ensures r.outboundFlowOptions[1..] == options
    ensures r.outboundFlowOptions[0].selected <==> forall i :: 0 <= i < |options| ==> !options[i].selected
    ensures r.selectedFlow.Some? && r.selectedFlow.value.selected
    ensures r.selectedFlow == FirstSelected(r.outboundFlowOptions)
  {
    var chosen := FirstSelected(options);
    var privateNoFlow := Flow(None, PrivateFlowName, chosen.None?);
    var all := [privateNoFlow] + options;
    assert all[1..] == options;
    assert FirstSelected(all) == (if chosen.None? then Some(privateNoFlow) else chosen);
    InteractionFlows(all, if chosen.Some? then chosen else Some(privateNoFlow))
  }

  /** `connectionStopForced`: the error replaces the global error only when
      one is given (a non-empty string). */
  function ConnectionStopForced(s: Store, error: Option<string>): (r: Store)
    ensures r.connectionStopped
    ensures r.globalError == (if Truthy(error) then error else s.globalError)
    ensures r == s.(connectionStopped := true, globalError := r.globalError)
  {
    if Truthy(error) then s.(connectionStopped := true, globalError := error)
    else s.(connectionStopped := true)
  }

  /** `clearConnectionStopForced`: only the flag. */
  function ClearConnectionStopForced(s: Store): (r: Store)
    ensures !r.connectionStopped && r == s.(connectionStopped := false)
  {
    s.(connectionStopped := false)
  }

  /** `reconnectSip` */
  function ReconnectSip(s: Store): (r: Store)
    ensures r.connecting && r == s.(connecting := true)
  {
    s.(connecting := true)
  }

  /** `handleLogout`: the state returns to the empty state; the online
      flags and the callback registrations survive. */
  function HandleLogout(s: Store): (r: Store)
    ensures r.user.None? && r.device.None? && r.sip.None? && r.ua.None? && r.oplog.None?
    ensures r.connecting && !r.connectionStopped && r.callInfo == EmptyCallInfo
    ensures r.isPartial == s.isPartial && r.isFullyOnline == s.isFullyOnline
    ensures r.partialOnlineCallbacks == s.partialOnlineCallbacks && r.onlineCallbacks == s.onlineCallbacks
  {
    EmptyState(s)
  }

  function Register(views: seq<string>, view: string): (r: seq<string>)
    ensures view in r
    ensures view in views ==> r == views
    ensures view !in views ==> r == views + [view]
  {
    if view in views then views else views + [view]
  }

  /** `onPartialOnline`: registering a view again replaces its callback in
      place. */
  function OnPartialOnline(s: Store, view: string): (r: Store)
    ensures r.partialOnlineCallbacks == Register(s.partialOnlineCallbacks, view)
  {
    s.(partialOnlineCallbacks := Register(s.partialOnlineCallbacks, view))
  }

  /** `onFullyOnline`: once the map is deleted the assignment throws (None). */
  function OnFullyOnline(s: Store, view: string): (r: Option<Store>)
    ensures r.None? <==> s.onlineCallbacks.None?
    ensures r.Some? ==> r.value.onlineCallbacks == Some(Register(s.onlineCallbacks.value, view))
  {
    match s.onlineCallbacks
    case None => None
    case Some(views) => Some(s.(onlineCallbacks := Some(Register(views, view))))
  }

  /** Partial-online callbacks run only on a transition into the partial
      state: a check that finds the store already partial runs none. */
  lemma PartialCallbacksEdgeTriggered(s: Store)
    ensures CheckPartialOnline(s).effects != [] ==>
      !s.isPartial && PartialOnline(s) && s.partialOnlineCallbacks != []
    ensures s.isPartial ==> CheckPartialOnline(s).effects == []
    ensures CheckPartialOnline(CheckPartialOnline(s).store).effects == []
  {
  }

  /** Registered fully-online callbacks never run through the checks. */
  lemma OnlineCallbacksNeverRun(s: Store, v: string)
    ensures RunCallback(OnlineKind, v) !in Recheck(s).effects
  {
    var p := CheckPartialOnline(s);
    assert forall i :: 0 <= i < |p.effects| ==> p.effects[i].kind == PartialKind;
  }

  /** Once the store has been fully online, registering a fully-online
      callback throws. */
  lemma RegisteringAfterOnlineThrows(s: Store, view: string)
    requires FullyOnline(s)
    ensures OnFullyOnline(Recheck(s).store, view).None?
  {
  }

  /** One pass of the checks never leaves the store both partially and
      fully online, and a pass that runs partial-online callbacks does not
      also announce the login complete. */
  lemma RecheckNeverPartialAndOnline(s: Store)
    ensures !(Recheck(s).store.isPartial && Recheck(s).store.isFullyOnline)
    ensures forall v :: RunCallback(PartialKind, v) in Recheck(s).effects ==>
      LoginCompletePublished !in Recheck(s).effects && !Recheck(s).store.isFullyOnline
  {
    var p := CheckPartialOnline(s);
    assert forall i :: 0 <= i < |p.effects| ==> p.effects[i].kind == PartialKind;
    if p.effects != [] {
      assert PartialOnline(s);
      assert CheckOnline(p.store).effects == [];
    }
  }
}

=== FILE: backoff.dfy ===
/** The reconnect delay both channels use: `2^n * 1000` milliseconds after
    the n-th consecutive failure. */
module Backoff {
  function Pow2(n: nat): (r: nat)
    ensures r >= 1
  {
    if n == 0 then 1 else 2 * Pow2(n - 1)
  }

  /** `calculateReconnectDelayMS` */
  function ReconnectDelayMs(failureCount: nat): (ms: nat)
    ensures ms >= 1000 && ms % 1000 == 0
  {
    Pow2(failureCount) * 1000
  }

  /** Every further failure doubles the delay, so it has no upper bound. */
  lemma DelayDoubles(n: nat)
    ensures ReconnectDelayMs(n + 1) == 2 * ReconnectDelayMs(n)
  {
  }

  /** The delay requested after `n` failures is never below `n` seconds,
      so a counter that is never reset requests ever longer delays. The
      wait a timer gives for them is `TimerWaitMs`. */
  lemma {:induction false} DelayUnbounded(n: nat)
    ensures ReconnectDelayMs(n) >= (n + 1) * 1000
  {
    if n > 0 {
      DelayUnbounded(n - 1);
    }
  }

  /** Powers of two multiply. */
  lemma {:induction false} Pow2Add(a: nat, b: nat)
    ensures Pow2(a + b) == Pow2(a) * Pow2(b)
    decreases b
  {
    if b > 0 {
      Pow2Add(a, b - 1);
      assert Pow2(a + b) == 2 * Pow2(a + b - 1);
    }
  }

  /** Powers of two grow with the exponent. */
  lemma {:induction false} Pow2Monotone(a: nat, b: nat)
    requires a <= b
    ensures Pow2(a) <= Pow2(b)
    decreases b
  {
    if a < b {
      Pow2Monotone(a, b - 1);
    }
  }

  lemma Pow2Of21()
    ensures Pow2(21) == 0x20_0000
  {
    Pow2Add(10, 11);
    Pow2Add(5, 5);
    Pow2Add(5, 6);
    assert Pow2(5) == 32;
    assert Pow2(6) == 64;
  }

  /** The wait a browser timer gives for a requested delay: the delay is
      converted to a 32-bit signed integer (the WebIDL `long` conversion,
      ToInt32 of ECMAScript section 7.1.6), and a negative result becomes
      0 (the timer initialisation steps of the HTML Living Standard). */
  function TimerWaitMs(requestedMs: nat): (w: nat)
    ensures requestedMs < 0x8000_0000 ==> w == requestedMs
    ensures w < 0x8000_0000
    ensures requestedMs % 0x1_0000_0000 == 0 ==> w == 0
  {
    var low := requestedMs % 0x1_0000_0000;
    if low < 0x8000_0000 then low else 0
  }

  /** Through 21 failures the timer waits the requested delay; at 22 the
      request no longer fits in 32 bits and the timer fires at once, and
      from 29 on every request is a multiple of 2^32 and fires at once. */
  lemma TimerWaitOfDelay(n: nat)
    ensures n <= 21 ==> TimerWaitMs(ReconnectDelayMs(n)) == ReconnectDelayMs(n)
    ensures n == 22 ==> TimerWaitMs(ReconnectDelayMs(n)) == 0
    ensures n >= 29 ==> TimerWaitMs(ReconnectDelayMs(n)) == 0
  {
    Pow2Of21();
    if n <= 21 {
      Pow2Monotone(n, 21);
    } else if n == 22 {
      assert Pow2(22) == 2 * Pow2(21);
    } else if n >= 29 {
      Pow2Add(29, n - 29);
      Pow2Add(21, 8);
      assert Pow2(8) == 256 by {
        Pow2Add(4, 4);
        assert Pow2(4) == 16;
      }
      var k := 125 * Pow2(n - 29);
      assert ReconnectDelayMs(n) == k * 0x1_0000_0000;
    }
  }
}

=== FILE: connection_state.dfy ===
/** The connection indicator: a reading of the store's `sip`, `oplog`,
    `connecting` and `connectionStopped` flags. */
module ConnectionState {
  import opened Wrappers
  import opened AppStore

  datatype Color = Green | Yellow | Red

  datatype Indicator = Indicator(text: string, color: Color)

  const Connected := Indicator("Connected", Green)
  const ConnectedWithoutFeed := Indicator("Connected", Yellow)
  const Connecting := Indicator("Connecting", Yellow)
  const Disconnected := Indicator("Disconnected", Red)

  /** `status` */
  function Status(s: Store): (i: Indicator)
    ensures i == Connected <==> IsSet(s.sip) && IsSet(s.oplog)
    ensures i == ConnectedWithoutFeed <==> IsSet(s.sip) && !IsSet(s.oplog)
    ensures i == Connecting <==> !IsSet(s.sip) && s.connecting && !s.connectionStopped
    ensures i == Disconnected <==> !IsSet(s.sip) && !(s.connecting && !s.connectionStopped)
  {
    if IsSet(s.sip) && IsSet(s.oplog) then Connected
    else if IsSet(s.sip) && !IsSet(s.oplog) then ConnectedWithoutFeed
    else if !IsSet(s.sip) && s.connecting && !s.connectionStopped then Connecting
    else Disconnected
  }

  /** A signalling connection is never shown red, and a forced stop without
      one always is. */
  lemma RedExactlyWhenNoSignalling(s: Store)
    ensures IsSet(s.sip) ==> Status(s).color != Red
    ensures !IsSet(s.sip) && s.connectionStopped ==> Status(s) == Disconnected
    ensures Status(s).color == Red <==> !IsSet(s.sip) && (!s.connecting || s.connectionStopped)
  {
  }
}

=== FILE: connectivity.dfy ===
/** How the pieces meet: the disconnect policy driving the store and the
    connection indicator, the manual reconnect from the disconnected view,
    the forced stop, a dial-pad key travelling to the wire, and the end of
    a call travelling from the controller into the store. */
module Connectivity {
  import opened Wrappers
  import AppStore
  import SipReconnect
  import ConnectionState
  import SipControl
  import PhoneService
  import Dialpad
  import Tabs

  // ---------------------------------------------------------------------
  // The disconnect policy and the store
  // ---------------------------------------------------------------------

  /** The store together with the policy's failure counter. */
  datatype Link = Link(store: AppStore.Store, failureCount: nat)

  /** What one of the policy's actions does to the store. The reconnect
      request itself is carried out on the controller by the API service;
      the store only sees its outcome as later SIP events. */
  function ApplyPolicy(s: AppStore.Store, a: SipReconnect.Action): (r: AppStore.Store)
    ensures a.PublishDisconnected? ==> !IsSet(r.sip) && !r.connecting && r.connectionStopped == s.connectionStopped
    ensures a.StopConnection? ==> r.connectionStopped
    ensures a.MarkConnecting? ==> r.connecting && r.sip == s.sip && r.connectionStopped == s.connectionStopped
    ensures a.PublishReconnect? || a.PublishOplogReconnect? ==> r == s
    ensures r.user == s.user
  {
    match a
    case PublishDisconnected => AppStore.HandleSip(s, AppStore.SipDisconnected).store
    case PublishConnected => AppStore.HandleSip(s, AppStore.SipConnected).store
    case StopConnection => AppStore.ConnectionStopForced(s, None)
    case MarkConnecting => AppStore.ReconnectSip(s)
    case PublishReconnect(_) => s
    case PublishOplogSuccess => AppStore.HandleOplog(s, AppStore.OplogSuccess).store
    case PublishOplogReconnect => s
  }

  function ApplyPolicyAll(s: AppStore.Store, acts: seq<SipReconnect.Action>): AppStore.Store
    decreases |acts|
  {
    if acts == [] then s else ApplyPolicyAll(ApplyPolicy(s, acts[0]), acts[1..])
  }

  /** `handleDisconnected` against the store: the login and the stop flag
      are read from it, and the actions are applied to it in order. */
  function Disconnect(l: Link): (r: (Link, seq<SipReconnect.Action>))
    ensures r.1 == SipReconnect.HandleDisconnected(l.failureCount, l.store.user.Some?, l.store.connectionStopped).actions
    ensures r.0.failureCount == SipReconnect.HandleDisconnected(l.failureCount, l.store.user.Some?, l.store.connectionStopped).failureCount
    ensures r.0.store.user == l.store.user
  {
    var st := SipReconnect.HandleDisconnected(l.failureCount, l.store.user.Some?, l.store.connectionStopped);
    PolicyKeepsUser(l.store, st.actions);
    (Link(ApplyPolicyAll(l.store, st.actions), st.failureCount), st.actions)
  }

  lemma {:induction false} PolicyKeepsUser(s: AppStore.Store, acts: seq<SipReconnect.Action>)
    ensures ApplyPolicyAll(s, acts).user == s.user
    decreases |acts|
  {
    if acts != [] {
      PolicyKeepsUser(ApplyPolicy(s, acts[0]), acts[1..]);
    }
  }

  /** Every disconnect while logged in and not stopped is shown as
      connecting until the retries run out; a stopped link answers a
      disconnect with nothing but the DISCONNECTED publication and shows
      red. */
  lemma DisconnectShows(l: Link)
    requires l.store.user.Some?
    ensures var r := Disconnect(l);
      !l.store.connectionStopped && l.failureCount < SipReconnect.MaxRetries ==>
        ConnectionState.Status(r.0.store) == ConnectionState.Connecting &&
        r.0.failureCount == l.failureCount + 1
    ensures var r := Disconnect(l);
      !l.store.connectionStopped && l.failureCount >= SipReconnect.MaxRetries ==>
        r.0.store.connectionStopped && r.0.failureCount == 0 &&
        ConnectionState.Status(r.0.store) == ConnectionState.Disconnected
    ensures var r := Disconnect(l);
      l.store.connectionStopped ==>
        r.1 == [SipReconnect.PublishDisconnected] && r.0.failureCount == l.failureCount &&
        r.0.store.connectionStopped && ConnectionState.Status(r.0.store) == ConnectionState.Disconnected
  {
    var st := SipReconnect.HandleDisconnected(l.failureCount, true, l.store.connectionStopped);
    var s1 := ApplyPolicy(l.store, SipReconnect.PublishDisconnected);
    if l.store.connectionStopped {
      assert ApplyPolicyAll(l.store, st.actions) == ApplyPolicyAll(s1, []);
    } else if l.failureCount < SipReconnect.MaxRetries {
      var s2 := ApplyPolicy(s1, SipReconnect.MarkConnecting);
      assert ApplyPolicyAll(l.store, st.actions) == ApplyPolicyAll(s2, st.actions[2..]);
      assert ApplyPolicyAll(s2, st.actions[2..]) == s2;
    } else {
      var s2 := ApplyPolicy(s1, SipReconnect.StopConnection);
      assert ApplyPolicyAll(l.store, st.actions) == ApplyPolicyAll(s2, []);
    }
  }

  /** `n` disconnects in a row. */
  function DisconnectRun(l: Link, n: nat): Link
    decreases n
  {
    if n == 0 then l else Disconnect(DisconnectRun(l, n - 1)).0
  }

  /** While retries remain, each disconnect of a logged-in user counts and
      shows connecting. */
  lemma {:induction false} RetriesShowConnecting(l: Link, n: nat)
    requires l.store.user.Some? && !l.store.connectionStopped
    requires 1 <= n && l.failureCount + n <= SipReconnect.MaxRetries
    ensures var m := DisconnectRun(l, n);
      && m.store.user == l.store.user
      && !m.store.connectionStopped
      && m.failureCount == l.failureCount + n
      && ConnectionState.Status(m.store) == ConnectionState.Connecting
    decreases n
  {
    if n > 1 {
      RetriesShowConnecting(l, n - 1);
    }
    DisconnectShows(DisconnectRun(l, n - 1));
  }

  /** From a reset counter, a logged-in user's fourth disconnect in a row
      sets the store's stop flag, resets the counter and turns the
      indicator red; the first three show connecting. */
  lemma FourthDisconnectStopsTheStore(s: AppStore.Store)
    requires s.user.Some? && !s.connectionStopped
    ensures forall n | 1 <= n <= 3 ::
      !DisconnectRun(Link(s, 0), n).store.connectionStopped &&
      ConnectionState.Status(DisconnectRun(Link(s, 0), n).store) == ConnectionState.Connecting
    ensures DisconnectRun(Link(s, 0), 4).store.connectionStopped
    ensures DisconnectRun(Link(s, 0), 4).failureCount == 0
    ensures ConnectionState.Status(DisconnectRun(Link(s, 0), 4).store) == ConnectionState.Disconnected
  {
    forall n | 1 <= n <= 3
      ensures !DisconnectRun(Link(s, 0), n).store.connectionStopped
      ensures ConnectionState.Status(DisconnectRun(Link(s, 0), n).store) == ConnectionState.Connecting
    {
      RetriesShowConnecting(Link(s, 0), n);
    }
    RetriesShowConnecting(Link(s, 0), 3);
    DisconnectShows(DisconnectRun(Link(s, 0), 3));
  }

  /** Once stopped, any number of further disconnects leave the link
      stopped, the counter untouched and the indicator red. */
  lemma {:induction false} StoppedStaysStopped(l: Link, n: nat)
    requires l.store.user.Some? && l.store.connectionStopped
    ensures DisconnectRun(l, n).store.user == l.store.user
    ensures DisconnectRun(l, n).store.connectionStopped
    ensures DisconnectRun(l, n).failureCount == l.failureCount
    ensures n > 0 ==> ConnectionState.Status(DisconnectRun(l, n).store) == ConnectionState.Disconnected
    decreases n
  {
    if n > 0 {
      StoppedStaysStopped(l, n - 1);
      DisconnectShows(DisconnectRun(l, n - 1));
    }
  }

  /** With nobody logged in, a disconnect only publishes DISCONNECTED: the
      counter and the stop flag stay as they were. */
  lemma DisconnectLoggedOut(l: Link)
    requires l.store.user.None?
    ensures Disconnect(l).1 == [SipReconnect.PublishDisconnected]
    ensures Disconnect(l).0.failureCount == l.failureCount
    ensures Disconnect(l).0.store.connectionStopped == l.store.connectionStopped
  {
    var st := SipReconnect.HandleDisconnected(l.failureCount, false, l.store.connectionStopped);
    assert ApplyPolicyAll(l.store, st.actions) == ApplyPolicyAll(ApplyPolicy(l.store, st.actions[0]), []);
  }

  /** `reconnectDevice` in the disconnected view: clear the stop flag, then
      run the disconnect policy. A logged-in user with retries left is
      shown connecting again; without a user nothing restarts. */
  function ManualReconnect(l: Link): (r: (Link, seq<SipReconnect.Action>))
    ensures l.store.user.Some? && l.failureCount < SipReconnect.MaxRetries ==>
      && SipReconnect.MarkConnecting in r.1
      && r.0.failureCount == l.failureCount + 1
      && !r.0.store.connectionStopped
      && ConnectionState.Status(r.0.store) == ConnectionState.Connecting
    ensures l.store.user.None? ==>
      r.1 == [SipReconnect.PublishDisconnected] && !r.0.store.connectionStopped
  {
    var cleared := Link(AppStore.ClearConnectionStopForced(l.store), l.failureCount);
    if l.store.user.Some? then
      DisconnectShows(cleared);
      Disconnect(cleared)
    else
      DisconnectLoggedOut(cleared);
      Disconnect(cleared)
  }

  /** After the policy's own stop, which resets the counter, the manual
      reconnect retries at once and shows connecting. */
  lemma ManualReconnectRetriesAtOnce(s: AppStore.Store)
    requires s.user.Some? && !s.connectionStopped
    ensures var stopped := DisconnectRun(Link(s, 0), 4);
      var r := ManualReconnect(stopped);
      r.1 == [SipReconnect.PublishDisconnected, SipReconnect.MarkConnecting, SipReconnect.PublishReconnect(None)] &&
      r.0.failureCount == 1 &&
      ConnectionState.Status(r.0.store) == ConnectionState.Connecting
  {
    FourthDisconnectStopsTheStore(s);
    var stopped := DisconnectRun(Link(s, 0), 4);
    DisconnectShows(Link(AppStore.ClearConnectionStopForced(stopped.store), stopped.failureCount));
  }

  /** A forced stop of the signalling channel (an invalid device, say)
      destroys the user agent and sets the stop flag, so the disconnect
      that follows neither counts nor asks for a reconnect. */
  lemma ForcedStopBlocksReconnect(l: Link, c: SipControl.Controller, error: Option<string>)
    requires l.store.user.Some?
    ensures var (s', step) := PhoneService.StopSip(l.store, c, error);
      var r := Disconnect(Link(s', l.failureCount));
      step.controller.ua.None? &&
      r.1 == [SipReconnect.PublishDisconnected] &&
      SipReconnect.MarkConnecting !in r.1 &&
      r.0.failureCount == l.failureCount &&
      ConnectionState.Status(r.0.store) == ConnectionState.Disconnected
  {
    var (s', step) := PhoneService.StopSip(l.store, c, error);
    DisconnectShows(Link(s', l.failureCount));
  }

  // ---------------------------------------------------------------------
  // A dial-pad key on its way to the wire
  // ---------------------------------------------------------------------

  /** The DTMF handler of the call view: each token goes through the phone
      service, which forwards it to the controller unless the pad is the
      transfer pad. A lone surrogate has no tone and fails the controller's
      one-tone-character test, so it adds nothing. */
  function ToWire(calls: seq<Dialpad.HandlerCall>, c: SipControl.Controller, transferPad: bool): (a: seq<SipControl.SipAction>)
    ensures transferPad ==> a == []
    decreases |calls|
  {
    if calls == [] then []
    else
      var first := if calls[0].DtmfKey? then PhoneService.SendDtmf(c, calls[0].token, Tabs.DtmfNoSend(transferPad)).sent else [];
      first + ToWire(calls[1..], c, transferPad)
  }

  /** A key pressed on the call view's pad reaches the held session exactly
      when it is a digit, `*` or `#`, and then as that very character; the
      `+` key and every other character never do. */
  lemma KeyReachesWireIffToneChar(st: Dialpad.DialpadState, key: char, c: SipControl.Controller)
    requires !st.isEvent && st.hasDtmfHandler && c.session.Some?
    ensures var a := ToWire(Dialpad.SelectKey(st, key).calls, c, false);
      (a != [] <==> SipControl.IsToneChar(key)) &&
      (a != [] ==> a == [SipControl.SendTone(c.session.value.id, [key])])
  {
    Dialpad.SelectKeySendsItsToken(st, key);
    var calls := Dialpad.SelectKey(st, key).calls;
    if key == ' ' || !Dialpad.InBmp(key) {
      assert calls == [];
    } else {
      var t := Dialpad.KeyToken(key);
      assert calls == [Dialpad.DtmfKey(t)];
      assert ToWire(calls, c, false) == PhoneService.SendDtmf(c, t, None).sent + ToWire([], c, false);
      if key != '#' && key != '*' && key != '+' {
        assert t == [key];
        assert SipControl.NormaliseTone(t) == [key];
      }
    }
  }

  // ---------------------------------------------------------------------
  // The end of a call, from the controller into the store
  // ---------------------------------------------------------------------

  /** The telephony events among a controller step's actions, in order. */
  function TelephonyEvents(actions: seq<SipControl.SipAction>): (es: seq<AppStore.CallEvent>)
    ensures |es| <= |actions|
    decreases |actions|
  {
    if actions == [] then []
    else if actions[0].Telephony? then [actions[0].call] + TelephonyEvents(actions[1..])
    else TelephonyEvents(actions[1..])
  }

  /** When the held session ends or fails, the store's call info shows the
      call ended, not up and not ringing, with the library's cause exactly
      when the cause is one the formatter lists; the controller lets go of
      the session. */
  lemma CallEndReachesStore(c: SipControl.Controller, info: AppStore.CallInfo, cause: string, failed: bool)
    requires c.session.Some?
    ensures var r := SipControl.OnSession(c, if failed then SipControl.Failed(cause) else SipControl.Ended(cause));
      var info' := AppStore.HandleCalls(info, TelephonyEvents(r.actions));
      && r.controller.session.None?
      && info'.status == Some(AppStore.StatusEnded)
      && !info'.onCall && !info'.ringing
      && info'.muted == Some(false) && info'.hold == Some(false)
      && (info'.cause == Some(cause) <==> cause in SipControl.ListedCauses)
      && (cause !in SipControl.ListedCauses ==> info'.cause.None?)
  {
    var e := if failed then SipControl.Failed(cause) else SipControl.Ended(cause);
    var r := SipControl.OnSession(c, e);
    var p := SipControl.EndedPayload(c.session.value.data, cause);
    var ev := if failed then AppStore.CallFailed(p) else AppStore.CallEnded(p);
    assert r.actions[0].ToParent? && r.actions[1] == SipControl.Telephony(ev);
    assert TelephonyEvents(r.actions) == [ev] by {
      assert r.actions[1..] == [SipControl.Telephony(ev)];
      assert r.actions[1..][1..] == [];
    }
    assert AppStore.HandleCalls(info, [ev]) == AppStore.HandleCalls(AppStore.HandleCall(info, ev), []);
  }
}

=== FILE: devices.dfy ===
/** Media device management: microphone permission, the check that a
    microphone and a speaker exist, and matching stored devices against the
    devices the browser enumerates. The browser's media APIs are inputs: the
    outcome of `getUserMedia` and the enumerated device list. */
module Devices {
  import opened Wrappers

  datatype Device = Device(deviceId: string, kind: string, deviceLabel: string)

  /** The promise the caller gets back. `Unsettled` is a promise that neither
      resolves nor rejects. */
  datatype Outcome = Resolved | Rejected(reason: string) | Unsettled

  /** Side effects, in the order they happen. */
  datatype Effect =
    | DevicesChanged(micDetected: Option<bool>, speakerDetected: Option<bool>)
    | PostMessage(message: string)
    | CloseAllDialogs
    | ShowInvalidDevices(message: string)
    | MediaDeviceError

  datatype Checked = Checked(outcome: Outcome, effects: seq<Effect>)

  const NoMicrophone := "No microphone detected"
  const NoSpeaker := "No speaker/headset detected"
  const NoMicrophoneNorSpeaker := "No microphone and speaker/headset detected"

  function CountKind(devices: seq<Device>, kind: string): (n: nat)
    ensures n <= |devices|
    ensures n > 0 <==> exists i :: 0 <= i < |devices| && devices[i].kind == kind
  {
    if devices == [] then 0
    else
      var rest := CountKind(devices[1..], kind);
      assert forall i :: 1 <= i < |devices| ==> devices[i] == devices[1..][i - 1];
      (if devices[0].kind == kind then 1 else 0) + rest
  }

  predicate MicDetected(devices: seq<Device>) {
    CountKind(devices, "audioinput") > 0
  }

  predicate SpeakerDetected(devices: seq<Device>) {
    CountKind(devices, "audiooutput") > 0
  }

  /** `triggerDeviceError` awaited, followed by the notification it leads to. */
  function DeviceErrorThenNotice(notice: string): seq<Effect> {
    [CloseAllDialogs, PostMessage("webphone-missing-device"), MediaDeviceError, ShowInvalidDevices(notice)]
  }

  /** `checkForValidDevices`, given the enumeration (None when it fails, in
      which case the error is thrown inside the chain and the promise never
      settles). */
  function CheckForValidDevices(enumeration: Option<seq<Device>>): (c: Checked)
    ensures enumeration.None? ==> c == Checked(Unsettled, [])
    ensures enumeration.Some? ==>
      && c.outcome != Unsettled
      && c.effects != []
      && c.effects[0] == DevicesChanged(Some(MicDetected(enumeration.value)), Some(SpeakerDetected(enumeration.value)))
    ensures c.outcome == Resolved <==>
      enumeration.Some? && MicDetected(enumeration.value) && SpeakerDetected(enumeration.value)
    ensures c.outcome == Rejected(NoMicrophone) <==>
      enumeration.Some? && !MicDetected(enumeration.value) && SpeakerDetected(enumeration.value)
    ensures c.outcome == Rejected(NoSpeaker) <==>
      enumeration.Some? && MicDetected(enumeration.value) && !SpeakerDetected(enumeration.value)
    ensures c.outcome == Rejected(NoMicrophoneNorSpeaker) <==>
      enumeration.Some? && !MicDetected(enumeration.value) && !SpeakerDetected(enumeration.value)
    ensures c.outcome.Rejected? ==> MediaDeviceError in c.effects
  {
    match enumeration
    case None => Checked(Unsettled, [])
    case Some(devices) =>
      var mic := MicDetected(devices);
      var speaker := SpeakerDetected(devices);
      var changed := DevicesChanged(Some(mic), Some(speaker));
      if mic && speaker then
        Checked(Resolved, [changed, PostMessage("webphone-devices-found"), CloseAllDialogs])
      else if !mic && speaker then
        Checked(Rejected(NoMicrophone), [changed] + DeviceErrorThenNotice("Missing input device"))
      else if !speaker && mic then
        Checked(Rejected(NoSpeaker), [changed] + DeviceErrorThenNotice("Missing output device"))
      else
        Checked(Rejected(NoMicrophoneNorSpeaker), [changed] + DeviceErrorThenNotice(""))
  }

  /** Devices of kinds other than audio input and output play no part. */
  lemma OtherKindsIgnored(devices: seq<Device>, d: Device)
    requires d.kind != "audioinput" && d.kind != "audiooutput"
    ensures CheckForValidDevices(Some(devices + [d])).outcome == CheckForValidDevices(Some(devices)).outcome
  {
    var e := devices + [d];
    assert forall i :: 0 <= i < |devices| ==> e[i] == devices[i];
    assert MicDetected(e) == MicDetected(devices);
    assert SpeakerDetected(e) == SpeakerDetected(devices);
  }

  /** What `getUserMedia` reported: success or an error message. */
  datatype MediaResult = Granted | Failed(message: string)

  /** One permission attempt: a dismissal asks again. */
  datatype Attempt = Settled(outcome: Outcome, effects: seq<Effect>) | AskAgain

  /** The error mapping of `getDevicePermissions`. */
  function PermissionAttempt(r: MediaResult): (a: Attempt)
    ensures r == Granted ==> a == Settled(Resolved, [])
    ensures r == Failed("Permission dismissed") <==> a == AskAgain
    ensures a.Settled? && a.outcome.Rejected? ==>
      r.Failed? && (r.message == "Permission denied" || r.message == "Requested device not found")
      && a.outcome.reason == r.message
    ensures r.Failed? && r.message == "Requested device not found" ==>
      a == Settled(Rejected(r.message),
                   [CloseAllDialogs, ShowInvalidDevices("Missing input device"), DevicesChanged(Some(false), None),
                    PostMessage("webphone-missing-device"), MediaDeviceError])
    ensures (r.Failed? && r.message != "Permission denied" && r.message != "Permission dismissed"
             && r.message != "Requested device not found") ==> a == Settled(Unsettled, [])
  {
    match r
    case Granted => Settled(Resolved, [])
    case Failed(m) =>
      if m == "Permission denied" then Settled(Rejected(m), [ShowInvalidDevices(m)])
      else if m == "Permission dismissed" then AskAgain
      else if m == "Requested device not found" then
        // `triggerDeviceError` is not awaited here: it closes the dialogs and
        // yields, so the notice and the publication come before its message
        // to the parent and the error flag.
        Settled(Rejected(m), [CloseAllDialogs, ShowInvalidDevices("Missing input device"),
                              DevicesChanged(Some(false), None),
                              PostMessage("webphone-missing-device"), MediaDeviceError])
      else Settled(Unsettled, [])
  }

  /** `getDevicePermissions` over the successive answers of `getUserMedia`:
      every dismissal is followed by a new request. Running out of answers
      leaves the promise unsettled. */
  function GetDevicePermissions(answers: seq<MediaResult>): (c: Checked)
    ensures (forall i :: 0 <= i < |answers| ==> answers[i] == Failed("Permission dismissed")) ==>
      c == Checked(Unsettled, [])
    ensures c.outcome == Resolved ==> Granted in answers
    ensures c.outcome.Rejected? ==>
      (c.outcome.reason == "Permission denied" || c.outcome.reason == "Requested device not found")
      && Failed(c.outcome.reason) in answers
    decreases |answers|
  {
    if answers == [] then Checked(Unsettled, [])
    else match PermissionAttempt(answers[0])
      case AskAgain => GetDevicePermissions(answers[1..])
      case Settled(o, e) => Checked(o, e)
  }

  /** The outcome is decided by the first answer that is not a dismissal. */
  lemma {:induction false} DismissalsAreSkipped(answers: seq<MediaResult>, k: nat)
    requires k < |answers| && answers[k] != Failed("Permission dismissed")
    requires forall i :: 0 <= i < k ==> answers[i] == Failed("Permission dismissed")
    ensures GetDevicePermissions(answers).outcome == PermissionAttempt(answers[k]).outcome
  {
    if k > 0 {
      assert answers[0] == Failed("Permission dismissed");
      DismissalsAreSkipped(answers[1..], k - 1);
    }
  }

  /** A device matches the query on a non-empty equal id, or failing that on
      a non-empty equal label. */
  predicate Matches(query: Device, d: Device) {
    (d.deviceId != "" && query.deviceId != "" && d.deviceId == query.deviceId)
    || (d.deviceLabel != "" && query.deviceLabel != "" && d.deviceLabel == query.deviceLabel)
  }

  /** What `findDevice` hands back: `undefined` (no query, or no match),
      `null` (the enumeration failed) or the matching device. */
  datatype Lookup = Undefined | Null | Found(device: Device)

  function FirstMatch(query: Device, devices: seq<Device>): (r: Option<Device>)
    ensures r.Some? ==> r.value in devices && Matches(query, r.value)
    ensures r.Some? ==> exists i :: (0 <= i < |devices| && devices[i] == r.value &&
      forall j :: 0 <= j < i ==> !Matches(query, devices[j]))
    ensures r.None? <==> forall i :: 0 <= i < |devices| ==> !Matches(query, devices[i])
  {
    if devices == [] then None
    else if Matches(query, devices[0]) then Some(devices[0])
    else
      var r := FirstMatch(query, devices[1..]);
      assert forall i :: 1 <= i < |devices| ==> devices[i] == devices[1..][i - 1];
      if r.Some? then
        var i :| 0 <= i < |devices[1..]| && devices[1..][i] == r.value &&
          forall j :: 0 <= j < i ==> !Matches(query, devices[1..][j]);
        assert devices[i + 1] == r.value;
        r
      else r
  }

  /** `findDevice`, given the enumeration (None when it fails). */
  function FindDevice(query: Option<Device>, enumeration: Option<seq<Device>>): (l: Lookup)
    ensures query.None? ==> l == Undefined
    ensures query.Some? && enumeration.None? ==> l == Null
    ensures l.Found? ==>
      && query.Some? && enumeration.Some?
      && l.device in enumeration.value && Matches(query.value, l.device)
    ensures query.Some? && enumeration.Some? ==>
      (l == Undefined <==> forall i :: 0 <= i < |enumeration.value| ==> !Matches(query.value, enumeration.value[i]))
  {
    if query.None? then Undefined
    else if enumeration.None? then Null
    else match FirstMatch(query.value, enumeration.value)
      case Some(d) => Found(d)
      case None => Undefined
  }

  /** The stored audio settings. */
  datatype StoredSettings = StoredSettings(inputDevice: Option<Device>, outputDevice: Option<Device>)

  /** A stored device is replaced by the device it matches, or dropped. */
  function Refresh(stored: Option<Device>, enumeration: Option<seq<Device>>): Option<Device> {
    if stored.None? then None
    else match FindDevice(stored, enumeration)
      case Found(d) => Some(d)
      case _ => None
  }

  /** `checkIfDevicesExist`: each stored device is looked up in an
      enumeration of its own, since every `findDevice` enumerates afresh. */
  function CheckIfDevicesExist(settings: Option<StoredSettings>, inputs: Option<seq<Device>>, outputs: Option<seq<Device>>): (r: Option<StoredSettings>)
    ensures r.None? <==> settings.None?
    ensures r.Some? ==> (r.value.inputDevice.Some? <==>
      settings.value.inputDevice.Some? && inputs.Some? &&
      exists i :: 0 <= i < |inputs.value| && Matches(settings.value.inputDevice.value, inputs.value[i]))
    ensures r.Some? ==> (r.value.outputDevice.Some? <==>
      settings.value.outputDevice.Some? && outputs.Some? &&
      exists i :: 0 <= i < |outputs.value| && Matches(settings.value.outputDevice.value, outputs.value[i]))
    ensures r.Some? && r.value.inputDevice.Some? ==>
      r.value.inputDevice.value in inputs.value && Matches(settings.value.inputDevice.value, r.value.inputDevice.value)
    ensures r.Some? && r.value.outputDevice.Some? ==>
      r.value.outputDevice.value in outputs.value && Matches(settings.value.outputDevice.value, r.value.outputDevice.value)
  {
    match settings
    case None => None
    case Some(s) => Some(StoredSettings(Refresh(s.inputDevice, inputs), Refresh(s.outputDevice, outputs)))
  }

  /** The two lookups are independent: a failed enumeration for the input
      drops the stored input while the output is still refreshed from a
      later enumeration that succeeds. */
  lemma LookupsEnumerateSeparately(s: StoredSettings, outputs: seq<Device>, i: nat)
    requires s.outputDevice.Some? && i < |outputs| && Matches(s.outputDevice.value, outputs[i])
    ensures var r := CheckIfDevicesExist(Some(s), None, Some(outputs));
            r.value.inputDevice.None? && r.value.outputDevice.Some?
  {
  }
}

=== FILE: dialpad.dfy ===
/** The dialpad component: the observer on the bound `number`, paste
    detection and sanitisation, the keystroke-to-DTMF-token mapping and the
    enter-to-start-call notification. Both dialpad components of the
    application follow these rules. `number` is always a string here; an
    empty `number` is the empty string. Lengths and the last character are
    read the way JavaScript reads them, in UTF-16 code units. */
module Dialpad {
  import opened Wrappers
  import opened Text
  import opened TelChars

  datatype DialpadState = DialpadState(
    number: string,
    /** Set while the component writes `number` itself, so that the
        observer ignores the change. */
    isEvent: bool,
    hasDtmfHandler: bool,
    hasSubmitHandler: bool)

  /** Calls the component makes on its bound handlers. `DtmfUnit` is the
      DTMF handler called with a lone low surrogate: the last code unit of
      a value ending in a character outside the Basic Multilingual Plane,
      which no `char` can hold. */
  datatype HandlerCall = DtmfKey(token: string) | DtmfUnit(unit: int) | SubmitNumber(number: string)

  datatype Step = Step(state: DialpadState, calls: seq<HandlerCall>)

  /** A character that one UTF-16 code unit holds. */
  predicate InBmp(c: char) {
    c as int < 0x1_0000
  }

  /** The code units one character takes in UTF-16. */
  function Units(c: char): (n: nat)
    ensures n == 1 <==> InBmp(c)
    ensures n == 1 || n == 2
  {
    if InBmp(c) then 1 else 2
  }

  /** `s.length`: the number of UTF-16 code units of `s`. */
  function Utf16Length(s: string): (n: nat)
    ensures |s| <= n <= 2 * |s|
    ensures n == 0 <==> s == []
  {
    if s == [] then 0 else Utf16Length(s[..|s| - 1]) + Units(s[|s| - 1])
  }

  /** The length of a concatenation is the sum of the lengths. */
  lemma {:induction false} Utf16LengthAppend(a: string, b: string)
    ensures Utf16Length(a + b) == Utf16Length(a) + Utf16Length(b)
    decreases |b|
  {
    if b == [] {
      assert a + b == a;
    } else {
      assert (a + b)[..|a + b| - 1] == a + b[..|b| - 1];
      Utf16LengthAppend(a, b[..|b| - 1]);
    }
  }

  /** A string of characters from the Basic Multilingual Plane has as many
      code units as characters, and only such a string does. */
  lemma {:induction false} Utf16LengthIsLengthIffBmp(s: string)
    ensures Utf16Length(s) == |s| <==> forall i | 0 <= i < |s| :: InBmp(s[i])
  {
    if s != [] {
      var init := s[..|s| - 1];
      Utf16LengthIsLengthIffBmp(init);
      assert forall i | 0 <= i < |init| :: init[i] == s[i];
    }
  }

  /** `isPasted(newValue, oldValue)`, in the shape the component tests it. */
  predicate IsPasted(newValue: string, oldValue: string) {
    (newValue != "" && oldValue != "" && Utf16Length(newValue) > Utf16Length(oldValue) + 1)
    || (oldValue == "" && Utf16Length(newValue) > 1)
  }

  /** A change counts as a paste exactly when the value grew by more than
      one code unit. */
  lemma IsPastedIffGrewByMoreThanOne(newValue: string, oldValue: string)
    ensures IsPasted(newValue, oldValue) <==> Utf16Length(newValue) > Utf16Length(oldValue) + 1
  {
  }

  /** The DTMF token for the key whose character ends the value. */
  function KeyToken(c: char): (t: string)
    ensures |t| >= 1
    ensures t != "+"
  {
    if c == '#' then "hash"
    else if c == '*' then "asterisk"
    else if c == '+' then "plus"
    else [c]
  }

  /** Different keys give different tokens. */
  lemma KeyTokenInjective(a: char, b: char)
    ensures KeyToken(a) == KeyToken(b) ==> a == b
  {
    if KeyToken(a) == KeyToken(b) {
      if |KeyToken(a)| == 1 {
        assert KeyToken(a)[0] == a && KeyToken(b)[0] == b;
      } else {
        assert KeyToken(a)[0] == KeyToken(b)[0];
      }
    }
  }

  /** What `newValue[newValue.length - 1]` reads and is sent as: the token
      of the last character, or, for a character outside the Basic
      Multilingual Plane, its low surrogate alone. */
  datatype Token = KeyName(name: string) | LowSurrogate(unit: int)

  /** The token of the last code unit of a non-empty value. */
  function LastUnitToken(s: string): (t: Token)
    requires s != []
    ensures InBmp(s[|s| - 1]) ==> t == KeyName(KeyToken(s[|s| - 1]))
    ensures !InBmp(s[|s| - 1]) ==> t.LowSurrogate? && 0xDC00 <= t.unit < 0xE000
  {
    var c := s[|s| - 1];
    if InBmp(c) then KeyName(KeyToken(c)) else LowSurrogate(0xDC00 + (c as int - 0x1_0000) % 0x400)
  }

  /** `activateAnimation`: the token of the last code unit, only when the
      value is non-empty and either the old one was empty or it grew. */
  function GrowthToken(newValue: string, oldValue: string): (t: Option<Token>)
    ensures t.Some? <==> Utf16Length(newValue) > Utf16Length(oldValue)
    ensures t.Some? && InBmp(newValue[|newValue| - 1]) ==> t.value == KeyName(KeyToken(newValue[|newValue| - 1]))
    ensures t.Some? && !InBmp(newValue[|newValue| - 1]) ==> t.value.LowSurrogate?
  {
    if (newValue != "" && oldValue != "" && Utf16Length(newValue) > Utf16Length(oldValue))
       || (newValue != "" && Utf16Length(newValue) > 0 && oldValue == "")
    then Some(LastUnitToken(newValue))
    else None
  }

  /** `sendDTMF`: a space or '+' is never passed on; anything else reaches
      the handler when one is bound. */
  function SendDtmf(st: DialpadState, token: string): (calls: seq<HandlerCall>)
    ensures calls != [] <==> token != "+" && token != " " && st.hasDtmfHandler
    ensures calls != [] ==> calls == [DtmfKey(token)]
  {
    if token == "+" || token == " " then []
    else if st.hasDtmfHandler then [DtmfKey(token)]
    else []
  }

  /** `sendDTMF` on a token: a lone surrogate is neither '+' nor a space,
      so it reaches the handler when one is bound. */
  function SendToken(st: DialpadState, t: Token): (calls: seq<HandlerCall>)
    ensures t.KeyName? ==> calls == SendDtmf(st, t.name)
    ensures t.LowSurrogate? ==> (calls != [] <==> st.hasDtmfHandler) && (calls != [] ==> calls == [DtmfUnit(t.unit)])
  {
    match t
    case KeyName(name) => SendDtmf(st, name)
    case LowSurrogate(u) => if st.hasDtmfHandler then [DtmfUnit(u)] else []
  }

  /** The binding writes `newValue` into `number`, then the observer runs. */
  function NumberChanged(st: DialpadState, newValue: string): (s: Step)
    ensures st.isEvent ==> s == Step(st.(number := newValue), [])
    ensures !st.isEvent && IsPasted(newValue, st.number) ==>
      s.state.isEvent && s.state.number == KeepTelChars(newValue) && s.calls == []
    ensures !st.isEvent && !IsPasted(newValue, st.number) ==> s.state == st.(number := newValue)
    ensures s.calls != [] ==> !st.isEvent && Utf16Length(newValue) == Utf16Length(st.number) + 1
    ensures s.calls != [] && InBmp(newValue[|newValue| - 1]) ==> s.calls == [DtmfKey(KeyToken(newValue[|newValue| - 1]))]
    ensures s.calls != [] && !InBmp(newValue[|newValue| - 1]) ==> |s.calls| == 1 && s.calls[0].DtmfUnit?
    ensures s.state.hasDtmfHandler == st.hasDtmfHandler && s.state.hasSubmitHandler == st.hasSubmitHandler
  {
    var oldValue := st.number;
    var st1 := st.(number := newValue);
    if st.isEvent then Step(st1, [])
    else if IsPasted(newValue, oldValue) then
      // The component's own write is ignored by the observer.
      Step(st1.(isEvent := true, number := KeepTelChars(newValue)), [])
    else
      match GrowthToken(newValue, oldValue)
      case None => Step(st1, [])
      case Some(t) => Step(st1, SendToken(st1, t))
  }

  /** The suppression timer fires. */
  function SuppressionElapsed(st: DialpadState): (s: DialpadState)
    ensures !s.isEvent && s.number == st.number
  {
    st.(isEvent := false)
  }

  /** `updateNumberFromEvent`: a write the observer ignores. */
  function UpdateNumberFromEvent(st: DialpadState, n: string): (s: Step)
    ensures s.calls == [] && s.state.number == n && s.state.isEvent
  {
    NumberChanged(st.(isEvent := true), n)
  }

  /** The value after appending one character is longer by that
      character's code units. */
  lemma AppendOneUnits(number: string, c: char)
    ensures Utf16Length(number + [c]) == Utf16Length(number) + Units(c)
    ensures (number + [c])[|number + [c]| - 1] == c
  {
  }

  /** A key of the pad appends its character to the number; the observer
      then sees a growth by one code unit, never a paste. A character
      outside the Basic Multilingual Plane is two code units, so the
      observer takes it for a paste and sanitises the number. */
  function SelectKey(st: DialpadState, c: char): (s: Step)
    ensures InBmp(c) || st.isEvent ==> s.state.number == st.number + [c]
    ensures !InBmp(c) && !st.isEvent ==> s.state.number == KeepTelChars(st.number + [c]) && s.calls == []
    ensures s.calls == [] || s.calls == [DtmfKey(KeyToken(c))]
  {
    var n := st.number + [c];
    AppendOneUnits(st.number, c);
    assert InBmp(c) <==> !IsPasted(n, st.number);
    NumberChanged(st, n)
  }

  /** `notifyToStartCall`: enter submits the number as typed, provided it
      holds a character other than a space. */
  function NotifyToStartCall(st: DialpadState): (calls: seq<HandlerCall>)
    ensures calls != [] <==> st.hasSubmitHandler && exists i :: 0 <= i < |st.number| && st.number[i] != ' '
    ensures calls != [] ==> calls == [SubmitNumber(st.number)]
  {
    RemoveSpacesNonEmptyIff(st.number);
    if |RemoveSpaces(st.number)| > 0 && st.hasSubmitHandler then [SubmitNumber(st.number)]
    else []
  }

  /** Pressing one key while the observer listens sends exactly that key's
      token, unless the key is a space or no handler is bound. */
  lemma SelectKeySendsItsToken(st: DialpadState, c: char)
    requires !st.isEvent
    ensures InBmp(c) ==> SelectKey(st, c).state.number == st.number + [c]
    ensures SelectKey(st, c).calls ==
      (if InBmp(c) && c != ' ' && st.hasDtmfHandler then [DtmfKey(KeyToken(c))] else [])
  {
  }

  /** A paste never sends DTMF and leaves only telephone characters. */
  lemma PasteSanitises(st: DialpadState, newValue: string)
    requires !st.isEvent && Utf16Length(newValue) > Utf16Length(st.number) + 1
    ensures NumberChanged(st, newValue).calls == []
    ensures AllTelChars(NumberChanged(st, newValue).state.number)
    ensures IsSubsequence(NumberChanged(st, newValue).state.number, newValue)
  {
    IsPastedIffGrewByMoreThanOne(newValue, st.number);
    KeepTelCharsIsSubsequence(newValue);
  }

  /** A value that did not grow sends nothing. */
  lemma NoTokenWithoutGrowth(st: DialpadState, newValue: string)
    requires Utf16Length(newValue) <= Utf16Length(st.number)
    ensures NumberChanged(st, newValue).calls == []
    ensures NumberChanged(st, newValue).state == st.(number := newValue)
  {
  }

  /** Typing an emoji after "12" grows the value by two code units: the
      observer takes it for a paste and the number goes back to "12". */
  lemma EmojiTypedIsPaste(st: DialpadState)
    requires !st.isEvent && st.number == "12"
    ensures NumberChanged(st, "12\U{1F600}").calls == []
    ensures NumberChanged(st, "12\U{1F600}").state.number == "12"
  {
    AppendOneUnits("12", '\U{1F600}');
    assert "12\U{1F600}" == "12" + ['\U{1F600}'];
    assert Utf16Length("12") == 2 by {
      assert "12"[..1] == "1";
    }
    KeepTelCharsAppend("12", ['\U{1F600}']);
    assert KeepTelChars("12") == "12" by {
      KeepTelCharsAppend("1", "2");
      assert "1" + "2" == "12";
    }
  }

  /** Replacing two emoji by five digits is no growth beyond one code
      unit: not a paste, and the last digit is sent. */
  lemma FiveDigitsAfterTwoEmojiSendsLastDigit(st: DialpadState)
    requires !st.isEvent && st.hasDtmfHandler && st.number == "\U{1F600}\U{1F600}"
    ensures NumberChanged(st, "12345").calls == [DtmfKey("5")]
  {
    assert Utf16Length("\U{1F600}\U{1F600}") == 4 by {
      assert "\U{1F600}\U{1F600}"[..1] == "\U{1F600}";
    }
    Utf16LengthIsLengthIffBmp("12345");
  }

  /** The dialpad never hands '+' to the DTMF handler: it has already
      become "plus". */
  lemma NeverSendsPlusSign(st: DialpadState, newValue: string)
    ensures DtmfKey("+") !in NumberChanged(st, newValue).calls
    ensures DtmfKey("+") !in SelectKey(st, '+').calls
  {
  }
}

=== FILE: log_control.dfy ===
/** The log gate: whether log records leave the application is decided by two
    feature flags and one user setting, each of which may be absent. */
module LogControl {
  import opened Wrappers

  datatype FeatureFlags = FeatureFlags(forcedLogs: Option<bool>, logs: Option<bool>)
  datatype Settings = Settings(logs: Option<bool>)

  /** What the store holds when the gate is consulted. */
  datatype LogConfig = LogConfig(featureFlags: Option<FeatureFlags>, settings: Option<Settings>)

  /** A log record: a flat object of string fields. */
  type Payload = map<string, string>

  datatype Channel = LogInfo | LogError
  datatype Publication = Publication(channel: Channel, payload: Payload)

  function ForcedLogsFlag(c: LogConfig): Option<bool> {
    if c.featureFlags.Some? then c.featureFlags.value.forcedLogs else None
  }

  function LogsFlag(c: LogConfig): Option<bool> {
    if c.featureFlags.Some? then c.featureFlags.value.logs else None
  }

  function UserLogsSetting(c: LogConfig): Option<bool> {
    if c.settings.Some? then c.settings.value.logs else None
  }

  /** `canLog` */
  predicate CanLog(c: LogConfig): (r: bool)
    ensures r <==> IsSet(ForcedLogsFlag(c)) || (IsSet(LogsFlag(c)) && IsSet(UserLogsSetting(c)))
  {
    if IsSet(ForcedLogsFlag(c)) then true
    else if !IsSet(LogsFlag(c)) then false
    else IsSet(UserLogsSetting(c))
  }

  /** A forced flag wins whatever the other two say. */
  lemma ForcedLogsOverride(flags: FeatureFlags, settings: Option<Settings>)
    requires flags.forcedLogs == Some(true)
    ensures CanLog(LogConfig(Some(flags), settings))
  {
  }

  /** Without feature flags, or with none set, nothing is logged whatever the
      user chose. */
  lemma NoFlagsNoLogs(c: LogConfig)
    requires c.featureFlags.None? || (!IsSet(c.featureFlags.value.forcedLogs) && !IsSet(c.featureFlags.value.logs))
    ensures !CanLog(c)
  {
  }

  /** `logInfo` */
  function PublishInfo(c: LogConfig, data: Payload): (out: seq<Publication>)
    ensures CanLog(c) ==> out == [Publication(LogInfo, data)]
    ensures !CanLog(c) ==> out == []
  {
    if !CanLog(c) then [] else [Publication(LogInfo, data)]
  }

  /** `logError` */
  function PublishError(c: LogConfig, data: Payload): (out: seq<Publication>)
    ensures CanLog(c) ==> out == [Publication(LogError, data)]
    ensures !CanLog(c) ==> out == []
  {
    if !CanLog(c) then [] else [Publication(LogError, data)]
  }

  /** `audit`: on the info channel, `action` and `description` first, then the
      fields of `data` spread over them (a field of `data` with either name
      wins). */
  function Audit(c: LogConfig, action: string, description: string, data: Option<Payload>): (out: seq<Publication>)
    ensures !CanLog(c) ==> out == []
    ensures CanLog(c) ==> |out| == 1 && out[0].channel == LogInfo
    ensures CanLog(c) ==> forall k :: k in out[0].payload <==>
      k == "action" || k == "description" || (data.Some? && k in data.value)
    ensures CanLog(c) && data.Some? ==> forall k :: k in data.value ==> out[0].payload[k] == data.value[k]
    ensures CanLog(c) && (data.None? || "action" !in data.value) ==> out[0].payload["action"] == action
    ensures CanLog(c) && (data.None? || "description" !in data.value) ==> out[0].payload["description"] == description
  {
    if !CanLog(c) then []
    else
      var base := map["action" := action, "description" := description];
      var spread := if data.Some? then data.value else map[];
      [Publication(LogInfo, base + spread)]
  }
}

=== FILE: oplog_client.dfy ===
/** The change-feed client: publish-or-queue, the flush when the server
    announces the connection open, the guard against a second socket during
    a handshake, the uncapped reconnect back-off, and dispatch of inbound
    messages to the subscriber registered under their name. Fresh tracking
    ids come from a counter. */
module OplogClient {
  import opened Wrappers
  import opened Backoff
  import opened OplogTransport

  /** A message as the services hand it to `publish`. */
  datatype PubMessage = PubMessage(name: string, state: Option<Json>)

  /** Who is registered under a name. */
  datatype Listener =
    /** Installed by `init` under OPEN: runs `onOpen`. */
    | OpenListener
    /** Any other subscriber, by name. */
    | External(id: string)

  datatype Client = Client(
    transport: Transport,
    subscribers: map<string, Listener>,
    /** Messages published while the socket was not open, oldest first. */
    queue: seq<PubMessage>,
    /** The logged-in user's token. Nothing in the client assigns it. */
    loggedInToken: Option<string>,
    nextTrackingId: nat,
    failureCount: nat)

  const Initial := Client(OplogTransport.Initial, map[], [], None, 0, 0)

  /** What the client does besides changing its own state, in order. */
  datatype ClientAction =
    | Sent(wire: Wire)
    | OplogSucceeded
    | OplogFailed
    | LoginFailed
    | Delivered(listener: Listener, envelope: Envelope)
    /** `resetWebsocket`, now (None) or by a timer asked for a delay in
        milliseconds; `Backoff.TimerWaitMs` is the wait that gives. */
    | ScheduleReset(delayMs: Option<nat>)

  datatype Step = Step(client: Client, actions: seq<ClientAction>)

  /** The name of the message `onOpen` sends first. */
  const OpenedName := "OPENED"

  /** The `Authorization` field stamped on every sent message. */
  function Authorization(token: Option<string>): (a: string)
    ensures Truthy(token) ==> a == "Bearer " + token.value
    ensures !Truthy(token) ==> a == ""
  {
    if Truthy(token) then "Bearer " + token.value else ""
  }

  /** The frame a message becomes when it is sent with tracking id `id`. */
  function Stamp(c: Client, m: PubMessage, id: nat): (w: Wire)
    ensures w.msgType == m.name && w.payload == m.state && w.requestId == Some(id) && w.root.None?
    ensures w.authorization == Some(Authorization(c.loggedInToken))
    ensures FromWire(w).trackingId == Some(id)
  {
    ToWire(OutMessage(m.name, m.state, None, Some(Authorization(c.loggedInToken)), Some(id)))
  }

  predicate IsOpen(c: Client) {
    c.transport.ws == Some(Open)
  }

  /** `publish` */
  function Publish(c: Client, m: PubMessage): (s: Step)
    ensures IsOpen(c) ==> s.actions == [Sent(Stamp(c, m, c.nextTrackingId))] && s.client.queue == c.queue
    ensures IsOpen(c) ==> s.client.nextTrackingId == c.nextTrackingId + 1
    ensures !IsOpen(c) ==> s == Step(c.(queue := c.queue + [m]), [])
    ensures s.client.transport == c.transport && s.client.loggedInToken == c.loggedInToken
    ensures s.client.subscribers == c.subscribers && s.client.failureCount == c.failureCount
  {
    if IsOpen(c) then
      Step(c.(nextTrackingId := c.nextTrackingId + 1), [Sent(Stamp(c, m, c.nextTrackingId))])
    else Step(c.(queue := c.queue + [m]), [])
  }

  /** The frames `ms` become when sent in order from tracking id `first`. */
  function StampAll(c: Client, ms: seq<PubMessage>, first: nat): (ws: seq<ClientAction>)
    ensures |ws| == |ms|
    ensures forall i :: 0 <= i < |ms| ==> ws[i] == Sent(Stamp(c, ms[i], first + i))
  {
    if ms == [] then [] else [Sent(Stamp(c, ms[0], first))] + StampAll(c, ms[1..], first + 1)
  }

  /** Messages published one after another on an open socket are sent in
      order with consecutive fresh tracking ids; on a closed one they are
      queued in order. */
  function PublishAll(c: Client, ms: seq<PubMessage>): (s: Step)
    ensures IsOpen(c) ==> s.actions == StampAll(c, ms, c.nextTrackingId)
    ensures IsOpen(c) ==> s.client == c.(nextTrackingId := c.nextTrackingId + |ms|)
    ensures !IsOpen(c) ==> s == Step(c.(queue := c.queue + ms), [])
    decreases |ms|
  {
    if ms == [] then Step(c, [])
    else
      var first := Publish(c, ms[0]);
      var rest := PublishAll(first.client, ms[1..]);
      if IsOpen(c) then
        assert rest.actions == StampAll(first.client, ms[1..], c.nextTrackingId + 1);
        assert StampAll(first.client, ms[1..], c.nextTrackingId + 1) == StampAll(c, ms[1..], c.nextTrackingId + 1)
          by { StampIgnoresCounter(first.client, c, ms[1..], c.nextTrackingId + 1); }
        Step(rest.client, first.actions + rest.actions)
      else
        assert c.queue + [ms[0]] + ms[1..] == c.queue + ms;
        Step(rest.client, first.actions + rest.actions)
  }

  lemma StampIgnoresCounter(a: Client, b: Client, ms: seq<PubMessage>, first: nat)
    requires a.loggedInToken == b.loggedInToken
    ensures StampAll(a, ms, first) == StampAll(b, ms, first)
  {
  }

  /** The outcome of `onOpen`: on a socket that is not open, every publish
      inside the loop over the queue appends to the queue it is iterating,
      so the loop never ends. */
  datatype Opening = Flushed(step: Step) | Diverges

  /** `onOpen`: OPENED, then the success signal, then every queued message in
      queue order; the queue itself is kept. */
  function OnOpen(c: Client): (o: Opening)
    ensures o.Diverges? <==> !IsOpen(c)
    ensures o.Flushed? ==>
      && o.step.actions == [Sent(Stamp(c, PubMessage(OpenedName, None), c.nextTrackingId)), OplogSucceeded]
                           + StampAll(c, c.queue, c.nextTrackingId + 1)
      && o.step.client == c.(nextTrackingId := c.nextTrackingId + 1 + |c.queue|)
  {
    if !IsOpen(c) then Diverges
    else
      var announced := Publish(c, PubMessage(OpenedName, None));
      var flushed := PublishAll(announced.client, c.queue);
      StampIgnoresCounter(announced.client, c, c.queue, c.nextTrackingId + 1);
      Flushed(Step(flushed.client, announced.actions + [OplogSucceeded] + flushed.actions))
  }

  /** The queue is never emptied: a second open resends every message the
      first one sent, under new tracking ids. */
  lemma SecondOpenResendsQueue(c: Client)
    requires IsOpen(c)
    ensures OnOpen(c).Flushed? && OnOpen(OnOpen(c).step.client).Flushed?
    ensures var c1 := OnOpen(c).step.client;
      c1.queue == c.queue
      && OnOpen(c1).step.actions[2..] == StampAll(c, c.queue, c1.nextTrackingId + 1)
  {
    var c1 := OnOpen(c).step.client;
    StampIgnoresCounter(c1, c, c.queue, c1.nextTrackingId + 1);
  }

  /** `handleDisconnected`: without a user nothing happens; a stopped
      connection resets the counter; otherwise the counter grows without
      bound and the socket is reset, the first time at once. */
  function HandleDisconnected(c: Client, loggedIn: bool, connectionStopped: bool): (s: Step)
    ensures !loggedIn ==> s == Step(c, [])
    ensures loggedIn && connectionStopped ==> s == Step(c.(failureCount := 0), [])
    ensures loggedIn && !connectionStopped ==>
      && s.client == c.(failureCount := c.failureCount + 1)
      && s.actions == [ScheduleReset(if c.failureCount == 0 then None else Some(ReconnectDelayMs(c.failureCount + 1)))]
  {
    if !loggedIn then Step(c, [])
    else if connectionStopped then Step(c.(failureCount := 0), [])
    else
      var count := c.failureCount + 1;
      if count > 1 then Step(c.(failureCount := count), [ScheduleReset(Some(ReconnectDelayMs(count)))])
      else Step(c.(failureCount := count), [ScheduleReset(None)])
  }

  /** `init`: while a handshake is in progress it does nothing. Otherwise a
      new socket is opened; once it is open the OPEN subscriber and the
      message callback are installed, and a failed handshake goes through
      `handleDisconnected`. */
  function Init(c: Client, loggedIn: bool, connectionStopped: bool, h: Handshake): (s: Step)
    ensures c.transport.ws == Some(Connecting) ==> s == Step(c, [])
    ensures c.transport.ws != Some(Connecting) && h == Opened ==>
      && s.actions == []
      && IsOpen(s.client)
      && s.client.subscribers == c.subscribers["OPEN" := OpenListener]
      && s.client.transport.callback == Some("message-SUB")
      && s.client.failureCount == c.failureCount
    ensures c.transport.ws != Some(Connecting) && h != Opened ==>
      s == HandleDisconnected(c.(transport := Connect(c.transport, h).0), loggedIn, connectionStopped)
    ensures s.client.queue == c.queue && s.client.loggedInToken == c.loggedInToken
  {
    if c.transport.ws == Some(Connecting) then Step(c, [])
    else
      var (t, ok) := Connect(c.transport, h);
      if ok then
        Step(c.(transport := On(t, "message-SUB"), subscribers := c.subscribers["OPEN" := OpenListener]), [])
      else HandleDisconnected(c.(transport := t), loggedIn, connectionStopped)
  }

  /** `resetWebsocket`: close, then `init`. The close is awaited, so when
      it rejects on a closing socket the reset rejects there and no new
      socket is opened. */
  function ResetWebsocket(c: Client, loggedIn: bool, connectionStopped: bool, h: Handshake): (s: Step)
    ensures s.client.transport.closeTriggered || c.transport.ws.None?
    ensures c.transport.ws == Some(Closing) ==>
      && s.actions == []
      && s.client.transport.ws.None?
      && s.client.failureCount == c.failureCount
    ensures (c.transport.ws == Some(Open) || c.transport.ws == Some(Closed) || c.transport.ws.None?) && h == Opened ==>
      IsOpen(s.client) && s.client.transport.callback == Some("message-SUB")
    ensures s.client.queue == c.queue
  {
    var (t, settled) := Close(c.transport);
    var closed := c.(transport := t);
    if settled == Reject then Step(closed, [])
    else Init(closed, loggedIn, connectionStopped, h)
  }

  /** A reset that meets a closing socket ends with no socket at all and no
      retry scheduled, whatever the handshake would have done; the same
      reset of an open socket reconnects, or schedules a retry when the
      handshake fails for a logged-in, running client. */
  lemma ResetOfClosingSocketStalls(c: Client, connectionStopped: bool, h: Handshake)
    requires c.transport.ws == Some(Closing) && h != Opened
    ensures var r := ResetWebsocket(c, true, connectionStopped, h);
            !IsOpen(r.client) && r.client.transport.ws.None? && r.actions == []
    ensures var r := ResetWebsocket(c.(transport := c.transport.(ws := Some(Open))), true, false, h);
            |r.actions| == 1 && r.actions[0].ScheduleReset?
  {
  }

  /** Resetting while the handshake is in progress leaves the handshake
      alone: `close` keeps a connecting socket and `init` then returns. */
  lemma ResetDuringHandshakeOpensNothing(c: Client, loggedIn: bool, connectionStopped: bool, h: Handshake)
    requires c.transport.ws == Some(Connecting)
    ensures ResetWebsocket(c, loggedIn, connectionStopped, h).actions == []
    ensures ResetWebsocket(c, loggedIn, connectionStopped, h).client.transport.ws == Some(Connecting)
  {
  }

  /** The close event of the socket: the fail callback runs only while no
      close was asked for. */
  function SocketClose(c: Client, loggedIn: bool, connectionStopped: bool): (s: Step)
    ensures !SocketClosed(c.transport).1 ==> s == Step(c.(transport := SocketClosed(c.transport).0), [])
    ensures SocketClosed(c.transport).1 ==>
      |s.actions| >= 2 && s.actions[|s.actions| - 2..] == [OplogFailed, LoginFailed]
  {
    var (t, failed) := SocketClosed(c.transport);
    var c1 := c.(transport := t);
    if !failed then Step(c1, [])
    else
      var d := if loggedIn then HandleDisconnected(c1, loggedIn, connectionStopped) else Step(c1, []);
      Step(d.client, d.actions + [OplogFailed, LoginFailed])
  }

  /** The close event of a socket `close` let go of: the message callback is
      dropped, nothing else changes. */
  function StraySocketClose(c: Client): (s: Step)
    ensures s.actions == []
    ensures c.transport.strayCloses > 0 ==> s.client.transport.callback.None?
    ensures s.client.subscribers == c.subscribers && s.client.queue == c.queue
    ensures s.client.transport.ws == c.transport.ws
  {
    Step(c.(transport := StrayClosed(c.transport)), [])
  }

  /** A reset of an open socket that reconnects at once can be followed by
      the old socket's close event; from then on frames for the open
      subscriber or anyone else go nowhere, though the socket is open. */
  lemma ResetThenStrayCloseDropsFrames(c: Client, loggedIn: bool, connectionStopped: bool, f: Frame)
    requires c.transport.ws == Some(Open)
    ensures var reset := ResetWebsocket(c, loggedIn, connectionStopped, Opened).client;
            && IsOpen(reset)
            && var silenced := StraySocketClose(reset).client;
               IsOpen(silenced) && Receive(silenced, f).Handled? && Receive(silenced, f).step.actions == []
  {
    var closed := c.(transport := Close(c.transport).0);
    assert closed.transport.ws.None?;
  }

  /** `subscribe`: one subscriber per name, the last one wins. */
  function Subscribe(c: Client, name: string, l: Listener): (r: Client)
    ensures name in r.subscribers && r.subscribers[name] == l
    ensures forall n :: n != name ==> (n in r.subscribers <==> n in c.subscribers)
    ensures forall n :: n != name && n in c.subscribers ==> r.subscribers[n] == c.subscribers[n]
  {
    c.(subscribers := c.subscribers[name := l])
  }

  /** `unSubscribe` */
  function Unsubscribe(c: Client, name: string): (r: Client)
    ensures name !in r.subscribers
    ensures forall n :: n != name ==> (n in r.subscribers <==> n in c.subscribers)
    ensures forall n :: n != name && n in c.subscribers ==> r.subscribers[n] == c.subscribers[n]
  {
    c.(subscribers := c.subscribers - {name})
  }

  /** The subscriber an envelope goes to. Names are looked up as strings. */
  function Addressee(c: Client, e: Envelope): (l: Option<Listener>)
    ensures l.Some? <==> e.name.JStr? && e.name.s in c.subscribers
    ensures l.Some? ==> l.value == c.subscribers[e.name.s]
  {
    if e.name.JStr? && e.name.s in c.subscribers then Some(c.subscribers[e.name.s]) else None
  }

  datatype Received = Handled(step: Step) | Hangs

  /** An inbound frame: normalised by the socket wrapper, then handed to its
      subscriber; an OPEN announcement runs `onOpen`. */
  function Receive(c: Client, f: Frame): (r: Received)
    ensures Message(c.transport, f).1.None? ==> r == Handled(Step(c.(transport := Message(c.transport, f).0), []))
    ensures r.Handled? && r.step.actions != [] ==> Message(c.transport, f).1.Some?
    ensures r.Handled? && r.step.actions != [] && Message(c.transport, f).1.Some? ==>
      Addressee(c, Message(c.transport, f).1.value).Some?
  {
    var (t, delivered) := Message(c.transport, f);
    var c1 := c.(transport := t);
    match delivered
    case None => Handled(Step(c1, []))
    case Some(e) =>
      match Addressee(c1, e)
      case None => Handled(Step(c1, []))
      case Some(OpenListener) =>
        (match OnOpen(c1)
         case Diverges => Hangs
         case Flushed(s) => Handled(s))
      case Some(External(id)) => Handled(Step(c1, [Delivered(External(id), e)]))
  }

  /** A message for a name nobody subscribed to is dropped; one for an
      external subscriber reaches exactly that subscriber. */
  lemma DispatchByName(c: Client, name: string, state: Json)
    requires c.transport.messageHandler && c.transport.callback.Some?
    requires JsonTruthy(state) && name != ""
    ensures var f := Parsed(JObj(map["type" := JStr(name), "payload" := state]));
      && (name !in c.subscribers ==> Receive(c, f).Handled? && Receive(c, f).step.actions == [])
      && (name in c.subscribers && c.subscribers[name].External? ==>
            Receive(c, f).Handled?
            && Receive(c, f).step.actions == [Delivered(c.subscribers[name], Envelope(JStr(name), state))])
  {
    NormaliseWellFormed(JStr(name), state);
  }

  /** Nothing the client does assigns the user: every frame it sends carries
      an empty Authorization unless a token was there from the start. */
  lemma AuthorizationAlwaysEmpty(c: Client, ms: seq<PubMessage>)
    requires c.loggedInToken.None?
    ensures forall a :: a in PublishAll(c, ms).actions ==> a.Sent? && a.wire.authorization == Some("")
    ensures PublishAll(c, ms).client.loggedInToken.None?
  {
  }

  /** Tracking ids are never reused: the i-th message sent gets the
      counter's value plus i, so ids are consecutive and all distinct. */
  lemma {:induction false} TrackingIdsFresh(c: Client, ms: seq<PubMessage>)
    requires IsOpen(c)
    ensures var a := PublishAll(c, ms).actions;
      |a| == |ms| && forall i :: 0 <= i < |a| ==> a[i].Sent? && a[i].wire.requestId == Some(c.nextTrackingId + i)
    ensures PublishAll(c, ms).client.nextTrackingId == c.nextTrackingId + |ms|
  {
    StampedIds(c, ms, c.nextTrackingId);
  }

  /** The frames stamped from `first` carry the ids `first`, `first + 1`, ... */
  lemma StampedIds(c: Client, ms: seq<PubMessage>, first: nat)
    ensures forall i :: 0 <= i < |ms| ==>
      StampAll(c, ms, first)[i].Sent? && StampAll(c, ms, first)[i].wire.requestId == Some(first + i)
  {
    forall i | 0 <= i < |ms|
      ensures StampAll(c, ms, first)[i].Sent? && StampAll(c, ms, first)[i].wire.requestId == Some(first + i)
    {
      var w := Stamp(c, ms[i], first + i);
      assert StampAll(c, ms, first)[i] == Sent(w);
    }
  }

  /** `n` failures in a row, each handled on its own. */
  function Failures(c: Client, n: nat): Step
    decreases n
  {
    if n == 0 then Step(c, [])
    else
      var first := HandleDisconnected(c, true, false);
      var rest := Failures(first.client, n - 1);
      Step(rest.client, first.actions + rest.actions)
  }

  /** The counter is never capped and never reset while connected: after
      `n` failures from a reset counter it is `n`, and the last reset is
      scheduled with a requested delay of `2^n` seconds. */
  lemma {:induction false} BackoffUncapped(c: Client, n: nat)
    requires n >= 1
    ensures Failures(c, n).client.failureCount == c.failureCount + n
    ensures var a := Failures(c, n).actions;
      |a| == n && a[n - 1] == ScheduleReset(
        if c.failureCount + n == 1 then None else Some(ReconnectDelayMs(c.failureCount + n)))
    decreases n
  {
    var first := HandleDisconnected(c, true, false);
    if n > 1 {
      BackoffUncapped(first.client, n - 1);
    }
  }

  /** Because the counter is never capped, the backoff collapses: once it
      passes 28 every requested delay is a multiple of 2^32 milliseconds,
      which a browser timer turns into no wait at all, so each further
      disconnect resets the socket at once. */
  lemma BackoffCollapses(c: Client)
    requires c.failureCount >= 28
    ensures var a := HandleDisconnected(c, true, false).actions;
            && |a| == 1 && a[0].ScheduleReset? && a[0].delayMs.Some?
            && TimerWaitMs(a[0].delayMs.value) == 0
  {
    TimerWaitOfDelay(c.failureCount + 1);
  }
}

=== FILE: oplog_service.dfy ===
/** The change-feed subscription service: a registry of subscriptions keyed
    by a composite id, the register / resubscribe / deregister messages it
    publishes through the client, the routing of logged operations to the
    subscriber whose id they carry, and the per-instance bookkeeping of
    subscribed operations. */
module OplogService {
  import opened Wrappers
  import opened OplogTransport
  import OplogClient

  /** What a subscription is about: a namespace (a projection view), an
      operation, and the key field and value it is filtered on. */
  datatype Descriptor = Descriptor(nameSpace: string, operation: string, keyField: string, keyValue: string)

  const Sep := '~'

  /** `_provisionId` */
  function ProvisionId(d: Descriptor): string {
    d.nameSpace + [Sep] + d.operation + [Sep] + d.keyField + [Sep] + d.keyValue
  }

  predicate NoSep(s: string) {
    forall i :: 0 <= i < |s| ==> s[i] != Sep
  }

  predicate PlainDescriptor(d: Descriptor) {
    NoSep(d.nameSpace) && NoSep(d.operation) && NoSep(d.keyField) && NoSep(d.keyValue)
  }

  /** Two strings free of the separator, each followed by it, can only be
      told apart by what follows. */
  lemma SplitAtSep(x: string, r: string, y: string, q: string)
    requires NoSep(x) && NoSep(y)
    requires x + [Sep] + r == y + [Sep] + q
    ensures x == y && r == q
  {
    var s := x + [Sep] + r;
    // The first separator of `s` sits right after `x` and right after `y`.
    assert s[|x|] == Sep && s[|y|] == Sep;
    assert x == s[..|x|] == y;
    assert r == s[|x| + 1..] == q;
  }

  /** Distinct subscriptions get distinct ids as long as no field holds the
      separator. */
  lemma ProvisionIdInjective(a: Descriptor, b: Descriptor)
    requires PlainDescriptor(a) && PlainDescriptor(b)
    requires ProvisionId(a) == ProvisionId(b)
    ensures a == b
  {
    var ta := a.operation + [Sep] + a.keyField + [Sep] + a.keyValue;
    var tb := b.operation + [Sep] + b.keyField + [Sep] + b.keyValue;
    assert ProvisionId(a) == a.nameSpace + [Sep] + ta;
    assert ProvisionId(b) == b.nameSpace + [Sep] + tb;
    SplitAtSep(a.nameSpace, ta, b.nameSpace, tb);
    var ua := a.keyField + [Sep] + a.keyValue;
    var ub := b.keyField + [Sep] + b.keyValue;
    assert ta == a.operation + [Sep] + ua;
    assert tb == b.operation + [Sep] + ub;
    SplitAtSep(a.operation, ua, b.operation, ub);
    SplitAtSep(a.keyField, a.keyValue, b.keyField, b.keyValue);
  }

  /** A registry entry: the descriptor and the subscriber's callback. The
      callback the service stores is always a wrapper function. */
  datatype Entry = Entry(id: string, descriptor: Descriptor, handler: string)

  /** The registry, in the order its keys were first inserted. */
  type Registry = seq<Entry>

  predicate UniqueIds(r: Registry) {
    forall i, j :: 0 <= i < j < |r| ==> r[i].id != r[j].id
  }

  predicate WellKeyed(r: Registry) {
    forall i :: 0 <= i < |r| ==> r[i].id == ProvisionId(r[i].descriptor)
  }

  predicate Valid(r: Registry) {
    UniqueIds(r) && WellKeyed(r)
  }

  function IndexOfId(r: Registry, id: string): (k: Option<nat>)
    ensures k.Some? ==> k.value < |r| && r[k.value].id == id
    ensures k.None? <==> forall i :: 0 <= i < |r| ==> r[i].id != id
  {
    if r == [] then None
    else if r[0].id == id then Some(0)
    else match IndexOfId(r[1..], id)
      case None => None
      case Some(k) => Some(k + 1)
  }

  predicate HasId(r: Registry, id: string) {
    exists i :: 0 <= i < |r| && r[i].id == id
  }

  /** `subscribers[id] = entry`: an existing key keeps its place. */
  function Put(r: Registry, e: Entry): (r': Registry)
    requires UniqueIds(r)
    ensures UniqueIds(r')
    ensures HasId(r, e.id) ==> |r'| == |r|
    ensures !HasId(r, e.id) ==> r' == r + [e]
    ensures exists k :: 0 <= k < |r'| && r'[k] == e
    ensures forall i :: 0 <= i < |r'| && r'[i].id != e.id ==> r'[i] in r
    ensures forall i :: 0 <= i < |r| && r[i].id != e.id ==> r[i] in r'
  {
    match IndexOfId(r, e.id)
    case Some(k) =>
      var r' := r[k := e];
      assert r'[k] == e;
      assert forall i :: 0 <= i < |r| && r[i].id != e.id ==> r'[i] == r[i];
      r'
    case None =>
      var r' := r + [e];
      assert r'[|r|] == e;
      assert !HasId(r, e.id);
      r'
  }

  /** `delete subscribers[id]` */
  function Remove(r: Registry, id: string): (r': Registry)
    ensures forall i :: 0 <= i < |r'| ==> r'[i].id != id
    ensures forall e :: e in r' <==> e in r && e.id != id
    ensures !HasId(r, id) ==> r' == r
  {
    if r == [] then []
    else
      var rest := Remove(r[1..], id);
      assert forall e :: e in r[1..] ==> e in r;
      if r[0].id == id then rest else [r[0]] + rest
  }

  /** Removing an id keeps the ids unique. */
  lemma {:induction false} RemoveKeepsUnique(r: Registry, id: string)
    requires UniqueIds(r)
    ensures UniqueIds(Remove(r, id))
  {
    if r != [] {
      RemoveKeepsUnique(r[1..], id);
      var rest := Remove(r[1..], id);
      if r[0].id != id {
        forall e | e in rest ensures e.id != r[0].id {
          var j :| 0 <= j < |r[1..]| && r[1..][j] == e;
          assert r[j + 1] == e;
        }
        assert Remove(r, id) == [r[0]] + rest;
      }
    }
  }

  function Lookup(r: Registry, id: string): (e: Option<Entry>)
    ensures e.Some? <==> HasId(r, id)
    ensures e.Some? ==> e.value in r && e.value.id == id
  {
    match IndexOfId(r, id)
    case Some(k) => Some(r[k])
    case None => None
  }

  const RegisterName := "RegisterOperationLog"
  const DeregisterName := "DeregisterOperationLog"

  /** The four fields as the state of a message. */
  function DescriptorState(d: Descriptor): Json {
    JObj(map["nameSpace" := JStr(d.nameSpace), "operation" := JStr(d.operation),
             "keyField" := JStr(d.keyField), "keyValue" := JStr(d.keyValue)])
  }

  /** How the server reads the four fields back. */
  function ReadDescriptor(state: Option<Json>): Option<Descriptor> {
    if state.None? then None
    else
      match (Field(state.value, "nameSpace"), Field(state.value, "operation"),
             Field(state.value, "keyField"), Field(state.value, "keyValue"))
      case (Some(JStr(n)), Some(JStr(o)), Some(JStr(f)), Some(JStr(v))) => Some(Descriptor(n, o, f, v))
      case _ => None
  }

  function RegisterMessage(d: Descriptor): (m: OplogClient.PubMessage)
    ensures m.name == RegisterName && ReadDescriptor(m.state) == Some(d)
  {
    OplogClient.PubMessage(RegisterName, Some(DescriptorState(d)))
  }

  function DeregisterMessage(d: Descriptor): (m: OplogClient.PubMessage)
    ensures m.name == DeregisterName && ReadDescriptor(m.state) == Some(d)
  {
    OplogClient.PubMessage(DeregisterName, Some(DescriptorState(d)))
  }

  /** The deregistration of everything, with no state. */
  const DeregisterAll := OplogClient.PubMessage(DeregisterName, None)

  datatype Change = Change(registry: Registry, messages: seq<OplogClient.PubMessage>)

  /** `_subscribeOplog` */
  function SubscribeOplog(r: Registry, d: Descriptor, handler: string): (c: Change)
    requires Valid(r)
    ensures Valid(c.registry)
    ensures Lookup(c.registry, ProvisionId(d)) == Some(Entry(ProvisionId(d), d, handler))
    ensures forall e :: e in r && e.id != ProvisionId(d) ==> e in c.registry
    ensures forall e :: e in c.registry && e.id != ProvisionId(d) ==> e in r
    ensures c.messages == [RegisterMessage(d)]
  {
    var e := Entry(ProvisionId(d), d, handler);
    var r' := Put(r, e);
    assert WellKeyed(r') by {
      forall i | 0 <= i < |r'| ensures r'[i].id == ProvisionId(r'[i].descriptor) {
        if r'[i].id != e.id {
          var j :| 0 <= j < |r| && r[j] == r'[i];
        }
      }
    }
    var k :| 0 <= k < |r'| && r'[k] == e;
    LookupUnique(r', k);
    Change(r', [RegisterMessage(d)])
  }

  lemma LookupUnique(r: Registry, k: nat)
    requires UniqueIds(r) && k < |r|
    ensures Lookup(r, r[k].id) == Some(r[k])
  {
  }

  function RegisterAll(r: Registry): (ms: seq<OplogClient.PubMessage>)
    ensures |ms| == |r|
    ensures forall i :: 0 <= i < |r| ==> ms[i] == RegisterMessage(r[i].descriptor)
  {
    if r == [] then [] else [RegisterMessage(r[0].descriptor)] + RegisterAll(r[1..])
  }

  /** `_resubscribeOplog`: one registration per stored subscriber, in
      registry order. */
  function ResubscribeOplog(r: Registry): (c: Change)
    ensures c.registry == r && c.messages == RegisterAll(r)
  {
    Change(r, RegisterAll(r))
  }

  /** `_unSubscribeOplog` */
  function UnsubscribeOplog(r: Registry, d: Descriptor): (c: Change)
    requires Valid(r)
    ensures Valid(c.registry)
    ensures !HasId(c.registry, ProvisionId(d))
    ensures forall e :: e in c.registry <==> e in r && e.id != ProvisionId(d)
    ensures c.messages == [DeregisterMessage(d)]
  {
    var r' := Remove(r, ProvisionId(d));
    RemoveKeepsUnique(r, ProvisionId(d));
    assert WellKeyed(r') by {
      forall i | 0 <= i < |r'| ensures r'[i].id == ProvisionId(r'[i].descriptor) {
        assert r'[i] in r;
        var j :| 0 <= j < |r| && r[j] == r'[i];
      }
    }
    Change(r', [DeregisterMessage(d)])
  }

  /** Subscribing to something new and unsubscribing again gives the
      registry back. */
  lemma SubscribeUnsubscribeRoundTrip(r: Registry, d: Descriptor, handler: string)
    requires Valid(r) && !HasId(r, ProvisionId(d))
    ensures UnsubscribeOplog(SubscribeOplog(r, d, handler).registry, d).registry == r
  {
    var e := Entry(ProvisionId(d), d, handler);
    assert SubscribeOplog(r, d, handler).registry == r + [e];
    RemoveLast(r, e);
  }

  lemma {:induction false} RemoveLast(r: Registry, e: Entry)
    requires !HasId(r, e.id)
    ensures Remove(r + [e], e.id) == r
  {
    if r == [] {
      assert [e][1..] == [];
    } else {
      assert (r + [e])[1..] == r[1..] + [e];
      assert !HasId(r[1..], e.id);
      RemoveLast(r[1..], e);
    }
  }

  /** `_deregister`: the registry is cleared unless reconnecting; either way
      a bare deregistration goes out. */
  function Deregister(r: Registry, isReconnecting: bool): (c: Change)
    ensures c.registry == (if isReconnecting then r else [])
    ensures c.messages == [DeregisterAll]
  {
    Change(if isReconnecting then r else [], [DeregisterAll])
  }

  /** A logged operation delivered to a subscriber: its callback and the
      operation's `o` field (absent when the message has none). */
  datatype Delivery = Delivery(handler: string, operation: Option<Json>)

  /** The OperationLogged subscriber: routed by the `id` of the message's
      state, dropped when no subscriber holds that id. Ids are compared as
      strings. */
  function OperationLogged(r: Registry, e: Envelope): (d: Option<Delivery>)
    ensures d.Some? <==>
      (match Field(e.state, "id") case Some(JStr(id)) => HasId(r, id) case _ => false)
    ensures d.Some? ==>
      exists k :: 0 <= k < |r| && Field(e.state, "id") == Some(JStr(r[k].id))
        && d.value == Delivery(r[k].handler, Field(e.state, "o"))
  {
    match Field(e.state, "id")
    case Some(JStr(id)) =>
      (match Lookup(r, id)
       case Some(entry) => Some(Delivery(entry.handler, Field(e.state, "o")))
       case None => None)
    case _ => None
  }

  /** An operation logged for a subscription reaches that subscription's
      callback with the operation. */
  lemma OperationReachesItsSubscriber(r: Registry, d: Descriptor, handler: string, o: Json)
    requires Valid(r)
    ensures var r' := SubscribeOplog(r, d, handler).registry;
      OperationLogged(r', Envelope(JStr("OperationLogged"), JObj(map["id" := JStr(ProvisionId(d)), "o" := o])))
        == Some(Delivery(handler, Some(o)))
  {
  }

  /** A subscription object made by `subscribeOn(keyField, keyValue).in(nameSpace)`:
      the operations it has subscribed to, in order. */
  datatype Instance = Instance(nameSpace: string, keyField: string, keyValue: string, operations: seq<string>)

  function DescriptorFor(i: Instance, operation: string): Descriptor {
    Descriptor(i.nameSpace, operation, i.keyField, i.keyValue)
  }

  /** `Instance.on` */
  function InstanceOn(i: Instance, r: Registry, operation: string, handler: string): (p: (Instance, Change))
    requires Valid(r)
    ensures p.0 == i.(operations := i.operations + [operation])
    ensures p.1 == SubscribeOplog(r, DescriptorFor(i, operation), handler)
  {
    (i.(operations := i.operations + [operation]), SubscribeOplog(r, DescriptorFor(i, operation), handler))
  }

  /** The ids of an instance's subscriptions to `ops`. */
  function OperationIds(i: Instance, ops: seq<string>): (ids: set<string>)
    ensures forall k :: 0 <= k < |ops| ==> ProvisionId(DescriptorFor(i, ops[k])) in ids
  {
    if ops == [] then {} else {ProvisionId(DescriptorFor(i, ops[0]))} + OperationIds(i, ops[1..])
  }

  function DeregisterEach(i: Instance, ops: seq<string>): (ms: seq<OplogClient.PubMessage>)
    ensures |ms| == |ops|
    ensures forall k :: 0 <= k < |ops| ==> ms[k] == DeregisterMessage(DescriptorFor(i, ops[k]))
  {
    if ops == [] then [] else [DeregisterMessage(DescriptorFor(i, ops[0]))] + DeregisterEach(i, ops[1..])
  }

  function UnsubscribeAll(i: Instance, r: Registry, ops: seq<string>): (c: Change)
    requires Valid(r)
    ensures Valid(c.registry)
    ensures forall e :: e in c.registry <==> e in r && e.id !in OperationIds(i, ops)
    ensures c.messages == DeregisterEach(i, ops)
    decreases |ops|
  {
    if ops == [] then Change(r, [])
    else
      var first := UnsubscribeOplog(r, DescriptorFor(i, ops[0]));
      var rest := UnsubscribeAll(i, first.registry, ops[1..]);
      Change(rest.registry, first.messages + rest.messages)
  }

  /** `Instance.unsubscribe`: every recorded operation is deregistered, in
      order, and the list is emptied. */
  function InstanceUnsubscribe(i: Instance, r: Registry): (p: (Instance, Change))
    requires Valid(r)
    ensures p.0.operations == []
    ensures forall e :: e in p.1.registry <==> e in r && e.id !in OperationIds(i, i.operations)
    ensures |p.1.messages| == |i.operations|
    ensures forall k :: 0 <= k < |i.operations| ==> p.1.messages[k] == DeregisterMessage(DescriptorFor(i, i.operations[k]))
  {
    (i.(operations := []), UnsubscribeAll(i, r, i.operations))
  }

  /** The service: the registry and the client it currently publishes
      through. */
  datatype Service = Service(registry: Registry, client: OplogClient.Client)

  /** The name the service's OperationLogged subscriber is registered under
      on the client. */
  const OperationLoggedName := "OperationLogged"

  /** `init(isReconnecting)`: a new client with the OperationLogged
      subscriber; the registry survives only a reconnecting init. */
  function Init(s: Service, isReconnecting: bool): (s': Service)
    ensures s'.registry == (if isReconnecting then s.registry else [])
    ensures s'.client.subscribers == map[OperationLoggedName := OplogClient.External(OperationLoggedName)]
    ensures s'.client.queue == [] && s'.client.transport == OplogTransport.Initial
  {
    var registry := if isReconnecting then s.registry else [];
    Service(registry, OplogClient.Subscribe(OplogClient.Initial, OperationLoggedName, OplogClient.External(OperationLoggedName)))
  }

  datatype Outcome = Outcome(service: Service, actions: seq<OplogClient.ClientAction>)

  /** Publishes a change's messages through the client. */
  function Apply(s: Service, c: Change): (o: Outcome)
    ensures o.service.registry == c.registry
    ensures o == Outcome(Service(c.registry, OplogClient.PublishAll(s.client, c.messages).client),
                         OplogClient.PublishAll(s.client, c.messages).actions)
  {
    var p := OplogClient.PublishAll(s.client, c.messages);
    Outcome(Service(c.registry, p.client), p.actions)
  }

  /** `start`: the client starts, and only then is every stored
      subscription registered again. */
  function Start(s: Service, loggedIn: bool, connectionStopped: bool, h: Handshake): (o: Outcome)
    ensures var started := OplogClient.Init(s.client, loggedIn, connectionStopped, h);
      o == Outcome(Service(s.registry, OplogClient.PublishAll(started.client, RegisterAll(s.registry)).client),
                   started.actions + OplogClient.PublishAll(started.client, RegisterAll(s.registry)).actions)
  {
    var started := OplogClient.Init(s.client, loggedIn, connectionStopped, h);
    var re := Apply(Service(s.registry, started.client), ResubscribeOplog(s.registry));
    Outcome(re.service, started.actions + re.actions)
  }

  /** `stop`: a bare deregistration that keeps the registry, then the
      socket is closed. */
  function Stop(s: Service): (o: Outcome)
    ensures o.service.registry == s.registry
    ensures !o.service.client.transport.livenessTimer
  {
    var d := Apply(s, Deregister(s.registry, true));
    var closed := Close(d.service.client.transport).0;
    Outcome(d.service.(client := d.service.client.(transport := closed)), d.actions)
  }

  /** A started service on an open socket sends one registration for every
      stored subscription, in registry order. */
  lemma StartRegistersEverything(s: Service, loggedIn: bool, connectionStopped: bool)
    requires s.client.transport.ws != Some(Connecting)
    ensures var o := Start(s, loggedIn, connectionStopped, Opened);
      |o.actions| == |s.registry|
      && forall k :: 0 <= k < |s.registry| ==>
           o.actions[k].Sent? && o.actions[k].wire.msgType == RegisterName
           && ReadDescriptor(o.actions[k].wire.payload) == Some(s.registry[k].descriptor)
  {
    var started := OplogClient.Init(s.client, loggedIn, connectionStopped, Opened);
    assert started.actions == [];
    var ms := RegisterAll(s.registry);
    var a := OplogClient.PublishAll(started.client, ms).actions;
    assert a == OplogClient.StampAll(started.client, ms, started.client.nextTrackingId);
    forall k | 0 <= k < |s.registry|
      ensures a[k].Sent? && a[k].wire.msgType == RegisterName
        && ReadDescriptor(a[k].wire.payload) == Some(s.registry[k].descriptor)
    {
      assert ms[k] == RegisterMessage(s.registry[k].descriptor);
    }
  }

  /** Stopping and starting again keeps every subscription. */
  lemma StopKeepsRegistry(s: Service)
    ensures Init(Stop(s).service, true).registry == s.registry
  {
  }
}

=== FILE: oplog_transport.dfy ===
/** The change-feed socket wrapper: connecting with a timeout, the close case
    analysis on the socket's ready state, the once-set `closeTriggered` flag,
    normalisation of inbound frames, the field mapping of outbound frames and
    the single message callback. The browser's WebSocket is abstract: its
    ready state is part of the model and its events are inputs. */
module OplogTransport {
  import opened Wrappers

  /** The JSON values a frame may carry. */
  datatype Json =
    | JNull
    | JBool(b: bool)
    | JNum(n: int)
    | JStr(s: string)
    | JArr(items: seq<Json>)
    | JObj(fields: map<string, Json>)

  /** JavaScript truthiness of a parsed JSON value. */
  predicate JsonTruthy(j: Json) {
    match j
    case JNull => false
    case JBool(b) => b
    case JNum(n) => n != 0
    case JStr(s) => s != ""
    case _ => true
  }

  const EmptyObject: Json := JObj(map[])

  /** `value.field`: only an object has own fields; anything else gives
      `undefined`. */
  function Field(value: Json, field: string): Option<Json> {
    if value.JObj? && field in value.fields then Some(value.fields[field]) else None
  }

  /** The four ready states of a browser WebSocket. */
  datatype ReadyState = Connecting | Open | Closing | Closed

  /** The numeric `readyState` the code compares against. */
  function ReadyStateCode(r: ReadyState): (n: int)
    ensures 0 <= n <= 3
  {
    match r
    case Connecting => 0
    case Open => 1
    case Closing => 2
    case Closed => 3
  }

  /** The handler bound to the socket's close event. */
  datatype CloseHandler =
    | NoCloseHandler
      /** Installed by `connect`: reports a failure unless a close was asked for. */
    | ReportFailure
      /** Installed by `close`: drops the message callback. */
    | DropCallback

  datatype Transport = Transport(
    /** The current socket and its ready state; None is `ws` being null. */
    ws: Option<ReadyState>,
    onClose: CloseHandler,
    /** Set by every `close`; nothing clears it. */
    closeTriggered: bool,
    /** The topic the single message callback was registered under. */
    callback: Option<string>,
    /** Whether `onmessage` is installed on the socket. */
    messageHandler: bool,
    /** Whether the liveness interval is running. */
    livenessTimer: bool,
    /** Sockets no longer held that still carry the handler `close`
        installed, and whose close event is still to come. */
    strayCloses: nat)

  const Initial := Transport(None, NoCloseHandler, false, None, false, false, 0)

  /** The connect timeout. */
  const ConnectTimeoutMs := 15000
  /** Silence, in seconds, after which the liveness check stops itself. */
  const LivenessSilenceSeconds := 40

  /** How the promise `close` returns settles. */
  datatype Settle = Resolve | Reject

  /** `close()`, by the ready state of the socket held. An open or closing
      socket is let go of with its close event still to come. */
  function Close(t: Transport): (p: (Transport, Settle))
    ensures !p.0.livenessTimer
    ensures t.ws.None? ==> p == (t.(livenessTimer := false), Resolve)
    ensures t.ws.Some? ==> p.0.closeTriggered && p.0.onClose == DropCallback
    ensures t.ws == Some(Connecting) ==> p.0.ws == t.ws && p.1 == Resolve
    ensures t.ws == Some(Open) ==> p.0.ws.None? && p.1 == Resolve
    ensures t.ws == Some(Closing) ==> p.0.ws.None? && p.1 == Reject
    ensures t.ws == Some(Closed) ==> p.0.ws.None? && p.1 == Resolve
    ensures p.1 == Reject <==> t.ws == Some(Closing)
    ensures p.0.callback == t.callback && p.0.messageHandler == t.messageHandler
    ensures t.closeTriggered ==> p.0.closeTriggered
    ensures p.0.strayCloses == t.strayCloses + (if t.ws == Some(Open) || t.ws == Some(Closing) then 1 else 0)
  {
    var t1 := t.(livenessTimer := false);
    match t.ws
    case None => (t1, Resolve)
    case Some(r) =>
      var t2 := t1.(closeTriggered := true, onClose := DropCallback);
      match r
      case Connecting => (t2, Resolve)
      case Open => (t2.(ws := None, strayCloses := t.strayCloses + 1), Resolve)
      case Closing => (t2.(ws := None, strayCloses := t.strayCloses + 1), Reject)
      case Closed => (t2.(ws := None), Resolve)
  }

  /** How the opening handshake ended: opened, an error event, or no answer
      within `ConnectTimeoutMs`. On failure the socket's ready state at the
      moment `close` runs is part of the input. */
  datatype Handshake = Opened | Errored(stateAtClose: ReadyState) | TimedOut(stateAtClose: ReadyState)

  /** `connect(failCallback)`: a new socket; on open, the message handler is
      installed; on an error or the timeout, the socket is closed and the
      promise rejects. A socket still held that `close` had armed, and that
      has not closed yet, is let go of with its close event to come. */
  function Connect(t: Transport, h: Handshake): (p: (Transport, bool))
    ensures p.1 <==> h == Opened
    ensures p.1 ==> p.0.ws == Some(Open) && p.0.messageHandler && p.0.onClose == ReportFailure
    ensures !p.1 ==> !p.0.messageHandler
    ensures !p.1 ==> p.0.closeTriggered && p.0.onClose == DropCallback
    ensures p.0.closeTriggered == (t.closeTriggered || !p.1)
    ensures p.0.callback == t.callback
    ensures p.0.strayCloses >= t.strayCloses
  {
    var displaced := if t.ws.Some? && t.ws.value != Closed && t.onClose == DropCallback then 1 else 0;
    var armed := t.(onClose := ReportFailure, messageHandler := false, strayCloses := t.strayCloses + displaced);
    match h
    case Opened => (armed.(ws := Some(Open), messageHandler := true), true)
    case Errored(r) => (Close(armed.(ws := Some(r))).0, false)
    case TimedOut(r) => (Close(armed.(ws := Some(r))).0, false)
  }

  /** The close event of the socket held. Returns whether `failCallback` ran. */
  function SocketClosed(t: Transport): (p: (Transport, bool))
    ensures p.1 <==> t.onClose == ReportFailure && !t.closeTriggered
    ensures p.1 ==> !p.0.livenessTimer
    ensures t.onClose == DropCallback ==> p.0.callback.None?
    ensures t.ws.Some? ==> p.0.ws == Some(Closed)
  {
    var t1 := if t.ws.Some? then t.(ws := Some(Closed)) else t;
    match t.onClose
    case NoCloseHandler => (t1, false)
    case ReportFailure =>
      if !t.closeTriggered then (t1.(livenessTimer := false), true) else (t1, false)
    case DropCallback => (t1.(callback := None), false)
  }

  /** The close event of a socket let go of: the handler `close` installed
      on it drops the message callback, whichever socket is held by then. */
  function StrayClosed(t: Transport): (r: Transport)
    ensures t.strayCloses == 0 ==> r == t
    ensures t.strayCloses > 0 ==> r.callback.None? && r.strayCloses == t.strayCloses - 1
    ensures r.ws == t.ws && r.onClose == t.onClose && r.messageHandler == t.messageHandler
  {
    if t.strayCloses == 0 then t else t.(callback := None, strayCloses := t.strayCloses - 1)
  }

  /** Closing an open socket and connecting afresh leaves the old socket's
      close event pending: when it arrives after the new socket has opened
      and registered its callback, every later frame on the new socket is
      dropped, and nothing registers the callback again. */
  lemma StrayCloseSilencesNewSocket(t: Transport, topic: string, f: Frame)
    requires t.ws == Some(Open)
    ensures var reconnected := On(Connect(Close(t).0, Opened).0, topic);
            && reconnected.ws == Some(Open) && reconnected.strayCloses > 0
            && Message(reconnected, f).1 == Some(Normalise(f))
            && StrayClosed(reconnected).ws == Some(Open)
            && Message(StrayClosed(reconnected), f).1.None?
  {
  }

  /** Once any close was asked for, a later close event never reports a
      failure, however often the socket reconnects. */
  lemma CloseSilencesFailureReports(t: Transport, hs: seq<Handshake>)
    requires t.closeTriggered
    ensures !SocketClosed(ConnectAll(t, hs)).1
  {
    ConnectAllKeepsCloseTriggered(t, hs);
  }

  /** Repeated connections, as the reconnect loop makes them. */
  function ConnectAll(t: Transport, hs: seq<Handshake>): Transport
    decreases |hs|
  {
    if hs == [] then t else ConnectAll(Connect(t, hs[0]).0, hs[1..])
  }

  lemma {:induction false} ConnectAllKeepsCloseTriggered(t: Transport, hs: seq<Handshake>)
    requires t.closeTriggered
    ensures ConnectAll(t, hs).closeTriggered
    decreases |hs|
  {
    if hs != [] {
      ConnectAllKeepsCloseTriggered(Connect(t, hs[0]).0, hs[1..]);
    }
  }

  /** `on(topic, callback)`: one callback, whatever the topic. */
  function On(t: Transport, topic: string): (r: Transport)
    ensures r.callback == Some(topic)
    ensures r.ws == t.ws && r.closeTriggered == t.closeTriggered && r.onClose == t.onClose
  {
    t.(callback := Some(topic))
  }

  /** A frame as it arrives: text that does not parse, or a parsed value. */
  datatype Frame = Malformed | Parsed(value: Json)

  /** The message the callback receives. */
  datatype Envelope = Envelope(name: Json, state: Json)

  /** A field that is missing or falsy becomes an empty object. */
  function OrEmpty(v: Option<Json>): (r: Json)
    ensures JsonTruthy(r)
    ensures v.Some? && JsonTruthy(v.value) ==> r == v.value
  {
    if v.Some? && JsonTruthy(v.value) then v.value else EmptyObject
  }

  /** Normalisation of an inbound frame to `{name: type, state: payload}`. */
  function Normalise(f: Frame): (e: Envelope)
    ensures JsonTruthy(e.name) && JsonTruthy(e.state)
    ensures f.Malformed? ==> e == Envelope(EmptyObject, EmptyObject)
    ensures f.Parsed? && !JsonTruthy(f.value) ==> e == Envelope(EmptyObject, EmptyObject)
    ensures f.Parsed? && f.value.JObj? && "type" in f.value.fields && JsonTruthy(f.value.fields["type"]) ==>
      e.name == f.value.fields["type"]
    ensures f.Parsed? && f.value.JObj? && "payload" in f.value.fields && JsonTruthy(f.value.fields["payload"]) ==>
      e.state == f.value.fields["payload"]
  {
    match f
    case Malformed => Envelope(EmptyObject, EmptyObject)
    case Parsed(v) =>
      if !JsonTruthy(v) then Envelope(EmptyObject, EmptyObject)
      else Envelope(OrEmpty(Field(v, "type")), OrEmpty(Field(v, "payload")))
  }

  /** Normalising what a well-formed frame says gives it back. */
  lemma NormaliseWellFormed(name: Json, state: Json)
    requires JsonTruthy(name) && JsonTruthy(state)
    ensures Normalise(Parsed(JObj(map["type" := name, "payload" := state]))) == Envelope(name, state)
  {
  }

  /** An inbound message: without the handler (before the socket opened)
      nothing happens; with it, the envelope reaches the callback, if there
      is one, and the liveness interval restarts. */
  function Message(t: Transport, f: Frame): (p: (Transport, Option<Envelope>))
    ensures !t.messageHandler ==> p == (t, None)
    ensures t.messageHandler ==> p.0.livenessTimer
    ensures p.1.Some? <==> t.messageHandler && t.callback.Some?
    ensures p.1.Some? ==> p.1.value == Normalise(f)
    ensures p.0.ws == t.ws && p.0.callback == t.callback && p.0.closeTriggered == t.closeTriggered
  {
    if !t.messageHandler then (t, None)
    else
      var delivered := if t.callback.Some? then Some(Normalise(f)) else None;
      (t.(livenessTimer := true), delivered)
  }

  /** One tick of the liveness interval: after more than 40 seconds of
      silence it stops itself. It never touches the socket. */
  function LivenessTick(t: Transport, silentSeconds: int): (r: Transport)
    ensures r.ws == t.ws && r.callback == t.callback && r.closeTriggered == t.closeTriggered
    ensures r.livenessTimer <==> t.livenessTimer && silentSeconds <= LivenessSilenceSeconds
  {
    if t.livenessTimer && silentSeconds > LivenessSilenceSeconds then t.(livenessTimer := false) else t
  }

  /** An outbound message as the client builds it. Absent fields are left
      out when serialised. */
  datatype OutMessage = OutMessage(
    name: string,
    state: Option<Json>,
    feature: Option<string>,
    authorization: Option<string>,
    trackingId: Option<nat>)

  /** The serialised frame. */
  datatype Wire = Wire(
    authorization: Option<string>,
    root: Option<string>,
    msgType: string,
    payload: Option<Json>,
    requestId: Option<nat>)

  /** The field mapping of `emit`. */
  function ToWire(m: OutMessage): (w: Wire)
    ensures w.msgType == m.name && w.payload == m.state && w.root == m.feature
    ensures w.authorization == m.authorization && w.requestId == m.trackingId
  {
    Wire(m.authorization, m.feature, m.name, m.state, m.trackingId)
  }

  /** The reading the server applies. */
  function FromWire(w: Wire): OutMessage {
    OutMessage(w.msgType, w.payload, w.root, w.authorization, w.requestId)
  }

  /** The mapping loses nothing. */
  lemma WireRoundTrip(m: OutMessage)
    ensures FromWire(ToWire(m)) == m
  {
  }

  /** `emit`: only an open socket sends. On a closing or closed socket the
      browser discards the frame without an error; a connecting socket or
      no socket at all throws inside the `try`. Either way nothing leaves. */
  function Emit(t: Transport, m: OutMessage): (sent: seq<Wire>)
    ensures sent != [] <==> t.ws == Some(Open)
    ensures sent != [] ==> sent == [ToWire(m)]
  {
    if t.ws == Some(Open) then [ToWire(m)] else []
  }
}

=== FILE: phone_service.dfy ===
/** The phone service between the views and the SIP controller: DTMF
    forwarding with the local key tone, the ringing tone driven by the call
    events, and the forced stop of the signalling channel. Audio playback
    is abstract: which tone file plays, and which ringing instances are
    live, is part of the model. */
module PhoneService {
  import opened Wrappers
  import AppStore
  import SipControl

  /** The key-tone table: one sound per digit and for `hash` and
      `asterisk`. */
  function DtmfSound(token: string): (sound: Option<string>)
    ensures sound.Some? <==> token in ToneKeys()
  {
    if |token| == 1 && '0' <= token[0] <= '9' then
      DigitIsKey(token);
      Some("dtmf-" + token + ".mp3")
    else if token == "hash" then Some("dtmf-hash.mp3")
    else if token == "asterisk" then Some("dtmf-star.mp3")
    else None
  }

  /** The keys of the key-tone table. */
  function ToneKeys(): set<string> {
    {"0", "1", "2", "3", "4", "5", "6", "7", "8", "9", "hash", "asterisk"}
  }

  /** A one-digit token is a key of the table. */
  lemma DigitIsKey(token: string)
    requires |token| == 1 && '0' <= token[0] <= '9'
    ensures token in ToneKeys()
  {
    var d := token[0];
    assert token == [d];
    if d == '0' { assert token == "0"; }
    else if d == '1' { assert token == "1"; }
    else if d == '2' { assert token == "2"; }
    else if d == '3' { assert token == "3"; }
    else if d == '4' { assert token == "4"; }
    else if d == '5' { assert token == "5"; }
    else if d == '6' { assert token == "6"; }
    else if d == '7' { assert token == "7"; }
    else if d == '8' { assert token == "8"; }
    else { assert token == "9"; }
  }

  /** What one DTMF key press does: what the controller sends and which
      local tone plays. */
  datatype KeyPress = KeyPress(sent: seq<SipControl.SipAction>, sound: Option<string>)

  /** `sendDTMF(tone, noSend)`: forwarded to the controller unless `noSend`
      is set; the local tone plays either way. */
  function SendDtmf(c: SipControl.Controller, tone: string, noSend: Option<bool>): (k: KeyPress)
    ensures k.sound == DtmfSound(tone)
    ensures IsSet(noSend) ==> k.sent == []
    ensures !IsSet(noSend) ==> k.sent == SipControl.SendDtmf(c, tone)
  {
    KeyPress(if IsSet(noSend) then [] else SipControl.SendDtmf(c, tone), DtmfSound(tone))
  }

  /** Every token with a local tone is one the controller would send on a
      held call, and the only other tokens it sends are the single `*` and
      `#` characters. */
  lemma ToneTableMatchesController(c: SipControl.Controller, tone: string)
    requires c.session.Some?
    ensures DtmfSound(tone).Some? ==> SipControl.SendDtmf(c, tone) != []
    ensures SipControl.SendDtmf(c, tone) != [] && DtmfSound(tone).None? ==> tone == "*" || tone == "#"
  {
    SipControl.SentTones(c, tone);
  }

  /** The `plus` key plays nothing and sends nothing. */
  lemma PlusIsSilent(c: SipControl.Controller, noSend: Option<bool>)
    ensures SendDtmf(c, "plus", noSend) == KeyPress([], None)
  {
    SipControl.PlusNeverSent(c);
  }

  // ---------------------------------------------------------------------
  // The ringing tone
  // ---------------------------------------------------------------------

  /** The ringing instances: the one referenced (`dialMessageAudio`) and
      the number still playing. */
  datatype Ringer = Ringer(held: bool, playing: nat)

  const Silent := Ringer(false, 0)

  /** No instance plays without being referenced. */
  predicate RingerValid(r: Ringer) {
    r.playing == (if r.held then 1 else 0)
  }

  /** `stopRingingAudio`: stops the referenced instance, if any, and
      forgets it. */
  function StopRinging(r: Ringer): (r': Ringer)
    ensures !r'.held
    ensures r'.playing == (if r.held && r.playing > 0 then r.playing - 1 else r.playing)
  {
    Ringer(false, if r.held && r.playing > 0 then r.playing - 1 else r.playing)
  }

  /** `playRingingAudio`: the current instance is stopped before a new one
      starts. */
  function PlayRinging(r: Ringer): (r': Ringer)
    ensures r'.held
    ensures r'.playing == StopRinging(r).playing + 1
  {
    var stopped := StopRinging(r);
    Ringer(true, stopped.playing + 1)
  }

  /** The call events the ringing tone follows. */
  function OnCallEvent(r: Ringer, e: AppStore.CallEvent): (r': Ringer)
    ensures e.CallConnecting? ==> r'.held
    ensures e.CallAccepted? || e.CallConfirmed? || e.CallEnded? || e.CallFailed? ==> r' == StopRinging(r)
    ensures e.CallSending? || e.CallProgress? || e.CallHold? || e.CallUnhold? || e.CallMuted? || e.CallUnmuted? ==>
      r' == r
  {
    match e
    case CallConnecting(_) => PlayRinging(r)
    case CallAccepted => StopRinging(r)
    case CallConfirmed => StopRinging(r)
    case CallEnded(_) => StopRinging(r)
    case CallFailed(_) => StopRinging(r)
    case _ => r
  }

  function OnCallEvents(r: Ringer, es: seq<AppStore.CallEvent>): Ringer
    decreases |es|
  {
    if es == [] then r else OnCallEvents(OnCallEvent(r, es[0]), es[1..])
  }

  /** However the call events come, at most one ringing instance plays,
      and it is the referenced one. */
  lemma {:induction false} AtMostOneRinging(r: Ringer, es: seq<AppStore.CallEvent>)
    requires RingerValid(r)
    ensures RingerValid(OnCallEvents(r, es))
    ensures OnCallEvents(r, es).playing <= 1
    decreases |es|
  {
    if es != [] {
      var next := OnCallEvent(r, es[0]);
      assert RingerValid(next);
      AtMostOneRinging(next, es[1..]);
    }
  }

  /** Once the call ends or fails, nothing rings. */
  lemma EndingSilences(r: Ringer, d: AppStore.CallData, failed: bool)
    requires RingerValid(r)
    ensures OnCallEvent(r, if failed then AppStore.CallFailed(d) else AppStore.CallEnded(d)) == Silent
  {
  }

  // ---------------------------------------------------------------------
  // Forced stop
  // ---------------------------------------------------------------------

  /** `stopSip(error)`: the store's forced stop is set, with the error,
      before the user agent is destroyed. */
  function StopSip(s: AppStore.Store, c: SipControl.Controller, error: Option<string>): (r: (AppStore.Store, SipControl.Step))
    ensures r.0 == AppStore.ConnectionStopForced(s, error)
    ensures r.1 == SipControl.DestroyUserAgent(c)
    ensures r.0.connectionStopped && r.1.controller.ua.None?
  {
    (AppStore.ConnectionStopForced(s, error), SipControl.DestroyUserAgent(c))
  }
}

=== FILE: region.dfy ===
/** Region-based URL rewriting for the end-of-wrap-up requests: the first
    `region` placeholder in the router endpoint becomes the region of the
    organisation's country. */
module Region {
  import opened Wrappers
  import opened Text

  const Placeholder := "region"
  const DefaultRegion := "za"

  /** The member states of the European Union that have a region entry. */
  const EuCountries: set<string> :=
    {"AT", "BE", "EE", "ES", "FI", "FR", "DE", "GR", "IE", "IT", "LV", "LT", "LU", "MT", "NL", "PT", "SK", "SI"}

  /** The country-to-region table, for the development tables (`dev1`) or
      the production ones. */
  function RegionOf(country: string, dev1: bool): (r: Option<string>)
    ensures country == "US" ==> r == Some("usw2")
    ensures country == "ZA" ==> r == Some("za")
    ensures country in EuCountries ==> r == Some(if dev1 then "eu" else "euw1")
    ensures r.None? <==> country != "US" && country != "ZA" && country !in EuCountries
  {
    if country == "US" then Some("usw2")
    else if country == "ZA" then Some("za")
    else if country in EuCountries then Some(if dev1 then "eu" else "euw1")
    else None
  }

  /** The development tables are used in the `default` and `dev1`
      environments. */
  predicate UsesDev1Table(env: string) {
    env == "default" || env == "dev1"
  }

  /** `getRegionBaseUrl` / `getRegionBaseUrlForDev1`. A missing or empty URL
      is handed back as it is. */
  function RegionBaseUrl(url: Option<string>, country: string, dev1: bool): (r: Option<string>)
    ensures !Truthy(url) ==> r == url
    ensures Truthy(url) && !Contains(url.value, Placeholder) ==> r == url
    ensures Truthy(url) && Contains(url.value, Placeholder) ==>
      r == Some(ReplaceFirst(url.value, Placeholder, RegionOf(country, dev1).GetOr(DefaultRegion)))
  {
    if Truthy(url) && Contains(url.value, Placeholder) then
      var region := RegionOf(country, dev1);
      Some(ReplaceFirst(url.value, Placeholder, if region.None? then DefaultRegion else region.value))
    else url
  }

  /** The URL `wrapUpAllInteractions` switches to. The environment picks
      the table, which matters only for an EU country. */
  function WrapUpEndpoint(env: string, url: Option<string>, country: string): (r: Option<string>)
    ensures !Truthy(url) ==> r == url
    ensures Truthy(url) && Contains(url.value, Placeholder) ==>
      r == Some(ReplaceFirst(url.value, Placeholder, RegionOf(country, UsesDev1Table(env)).GetOr(DefaultRegion)))
    ensures country !in EuCountries ==> r == RegionBaseUrl(url, country, false)
  {
    TablesDifferOnlyInEurope(country);
    RegionBaseUrl(url, country, UsesDev1Table(env))
  }

  /** The two tables differ only on the EU countries. */
  lemma TablesDifferOnlyInEurope(country: string)
    ensures RegionOf(country, true) != RegionOf(country, false) <==> country in EuCountries
  {
  }

  /** An unlisted country falls back to the default region. */
  lemma UnknownCountryFallsBack(prefix: string, suffix: string, country: string, dev1: bool)
    requires !Contains(prefix, Placeholder)
    requires country != "US" && country != "ZA" && country !in EuCountries
    ensures RegionBaseUrl(Some(prefix + Placeholder + suffix), country, dev1) == Some(prefix + DefaultRegion + suffix)
  {
    PlaceholderReplaced(prefix, suffix, DefaultRegion);
  }

  /** With a placeholder-free prefix, exactly the first placeholder is
      replaced: what follows it, including any later placeholder, is kept. */
  lemma PlaceholderReplaced(prefix: string, suffix: string, region: string)
    requires !Contains(prefix, Placeholder)
    ensures ReplaceFirst(prefix + Placeholder + suffix, Placeholder, region) == prefix + region + suffix
  {
    var s := prefix + Placeholder + suffix;
    var i := |prefix|;
    assert OccursAt(s, Placeholder, i) by {
      assert s[i..i + |Placeholder|] == Placeholder;
    }
    assert Contains(s, Placeholder);
    forall j | 0 <= j < i
      ensures !OccursAt(s, Placeholder, j)
    {
      // An occurrence inside the prefix is excluded; one straddling the end
      // of the prefix would overlap the placeholder at `i`.
      if j + |Placeholder| <= |prefix| {
        assert !OccursAt(prefix, Placeholder, j);
        assert s[j..j + |Placeholder|] == prefix[j..j + |Placeholder|];
      } else if OccursAt(s, Placeholder, j) {
        NoOverlappingPlaceholders(s, j, i);
      }
    }
    var w := ReplaceFirst(s, Placeholder, region);
    var m :| 0 <= m <= |s| && OccursAt(s, Placeholder, m) && (forall j :: 0 <= j < m ==> !OccursAt(s, Placeholder, j))
             && w == s[..m] + region + s[m + |Placeholder|..];
    assert m == i;
    assert s[..i] == prefix;
    assert s[i + |Placeholder|..] == suffix;
  }

  /** Two occurrences of the placeholder never overlap: its first letter
      does not recur inside it. */
  lemma NoOverlappingPlaceholders(s: string, j: int, i: int)
    requires j < i < j + |Placeholder|
    requires OccursAt(s, Placeholder, j)
    ensures !OccursAt(s, Placeholder, i)
  {
    assert s[i] == s[j..j + |Placeholder|][i - j];
  }
}

=== FILE: sip_control.dfy ===
/** The call-signalling rules of the SIP controller: how an invite is
    classified from its headers, which invites are adopted, answered,
    terminated or left alone, the single held-session slot, the guards
    on the call-control operations, DTMF tone normalisation, the
    user-agent lifecycle and the cause-to-title table. The SIP library's
    user agent and sessions are abstract: their events are inputs and the
    calls made on them are actions. */
module SipControl {
  import opened Wrappers
  import opened Text
  import AppStore

  // ---------------------------------------------------------------------
  // Classification of a new session
  // ---------------------------------------------------------------------

  datatype CallType = ClickToDial | RegularOutbound | Internal | Flow | InboundUnknown
  datatype Originator = Local | Remote
  datatype Direction = Inbound | Outbound

  /** The direction as the call info carries it. */
  function DirectionName(d: Direction): string {
    match d
    case Inbound => "inbound"
    case Outbound => "outbound"
  }

  /** What the controller reads of the request of a new session. A header
      is the list of its values, each with an optional raw text. */
  datatype Request = Request(
    callId: string,
    xReferences: Option<seq<Option<string>>>,
    interactionIds: Option<seq<Option<string>>>,
    fromUser: Option<string>,
    fromDisplayName: Option<string>,
    toUser: Option<string>)

  /** The raw text of the first value of a header, if it is non-empty. */
  function FirstRaw(header: Option<seq<Option<string>>>): (r: Option<string>)
    ensures r.Some? <==> header.Some? && |header.value| > 0 && Truthy(header.value[0])
    ensures r.Some? ==> r == header.value[0]
  {
    if header.Some? && |header.value| > 0 && Truthy(header.value[0]) then header.value[0] else None
  }

  /** The inbound type named by the first `X-References` value; a missing
      header, value or raw text means a click-to-dial call. */
  function Classify(raw: Option<string>): (t: CallType)
    ensures t != RegularOutbound
    ensures t == ClickToDial <==> !Truthy(raw)
    ensures t == Internal <==> Truthy(raw) && Contains(raw.value, "internal")
    ensures t == Flow <==> Truthy(raw) && !Contains(raw.value, "internal") && Contains(raw.value, "flow")
  {
    if !Truthy(raw) then ClickToDial
    else if Contains(raw.value, "internal") then Internal
    else if Contains(raw.value, "flow") then Flow
    else InboundUnknown
  }

  /** The metadata stored on every new session. */
  datatype CallMeta = CallMeta(
    callId: string,
    local: Option<string>,
    remote: Option<string>,
    originator: Originator,
    direction: Direction,
    callType: CallType,
    interactionId: Option<string>)

  /** `_analyzeCallType`. */
  function Analyze(originator: Originator, req: Request): (m: CallMeta)
    ensures m.callId == req.callId && m.originator == originator
    ensures m.interactionId == FirstRaw(req.interactionIds)
    ensures originator == Local ==>
      m.direction == Outbound && m.callType == RegularOutbound && m.remote == req.toUser && m.local == req.fromUser
    ensures originator == Remote ==>
      m.callType == Classify(FirstRaw(req.xReferences)) && m.local == req.toUser
    ensures originator == Remote ==> (m.direction == Outbound <==> m.callType == ClickToDial)
    ensures originator == Remote && m.callType == Internal ==> m.remote == req.fromDisplayName
    ensures originator == Remote && m.callType != Internal ==> m.remote == req.fromUser
  {
    var inboundType := Classify(FirstRaw(req.xReferences));
    match originator
    case Local =>
      CallMeta(req.callId, req.fromUser, req.toUser, Local, Outbound, RegularOutbound, FirstRaw(req.interactionIds))
    case Remote =>
      var direction := if inboundType == ClickToDial then Outbound else Inbound;
      var remote := if inboundType == Internal then req.fromDisplayName else req.fromUser;
      CallMeta(req.callId, req.toUser, remote, Remote, direction, inboundType, FirstRaw(req.interactionIds))
  }

  /** "internal" is looked for before "flow": a reference naming both is an
      internal call. */
  lemma InternalCheckedBeforeFlow(raw: string)
    requires Contains(raw, "internal") && Contains(raw, "flow")
    ensures Classify(Some(raw)) == Internal
  {
  }

  /** A remote party's invite is never a regular outbound call, and it is
      tagged outbound exactly when it is a click-to-dial call. */
  lemma InboundTagging(req: Request)
    ensures Analyze(Remote, req).callType != RegularOutbound
    ensures Analyze(Remote, req).direction == Outbound <==> !Truthy(FirstRaw(req.xReferences))
  {
  }

  // ---------------------------------------------------------------------
  // Controller state and what it asks of the outside
  // ---------------------------------------------------------------------

  /** What is stored on a session: its metadata and, for a call this side
      placed, the work type handed in with it. */
  datatype SessionData = SessionData(meta: CallMeta, workType: Option<string>)
  datatype Session = Session(id: nat, data: SessionData)

  datatype UaStatus = Running | Stopped
  datatype SipConfig = SipConfig(domain: string)

  /** The three listeners the start-up race attaches to the user agent. */
  datatype RaceListener = OnDisconnected | OnRegistrationFailed | OnRegistered

  datatype Controller = Controller(
    /** The user agent; None is `userAgent` being null. */
    ua: Option<UaStatus>,
    config: Option<SipConfig>,
    raceListeners: set<RaceListener>,
    /** Whether `callOptions` has been filled in. It starts empty and is
        filled in after a won start-up race; nothing empties it again. */
    callOptionsConfigured: bool,
    /** The single active-session slot. */
    session: Option<Session>)

  const Initial := Controller(None, None, {}, false, None)

  /** What the controller publishes or asks of the SIP library. */
  datatype SipAction =
    | ToParent(message: string)
    | Notified(callId: string)
    | Answered(callId: string)
    | Sip(signal: AppStore.SipEvent)
    | Ua(registration: AppStore.UaEvent)
    | Telephony(call: AppStore.CallEvent)
      /** `stateService.handleDisconnected`. */
    | ChannelLost
    | MediaDeviceError
    | AnswerSession(session: nat)
    | TerminateSession(session: nat)
    | Invite(uri: string)
    | MuteSession(session: nat)
    | UnmuteSession(session: nat)
    | HoldSession(session: nat)
    | UnholdSession(session: nat)
    | Refer(session: nat, uri: string)
    | SendTone(session: nat, tone: string)
    | TerminateSessions
    | StopUa
    | Unregister

  datatype Step = Step(controller: Controller, actions: seq<SipAction>)

  /** The actions that act on one session. */
  predicate TouchesSession(a: SipAction) {
    a.AnswerSession? || a.TerminateSession? || a.MuteSession? || a.UnmuteSession? ||
    a.HoldSession? || a.UnholdSession? || a.Refer? || a.SendTone?
  }

  /** The call data a telephony event carries for the held session. */
  function Payload(d: SessionData, title: Option<string>, cause: Option<string>): (p: AppStore.CallData)
    ensures p.remote == d.meta.remote && p.direction == Some(DirectionName(d.meta.direction))
    ensures p.workType == d.workType && p.title == title && p.cause == cause
  {
    AppStore.CallData(title, d.meta.remote, Some(DirectionName(d.meta.direction)), d.workType, cause)
  }

  /** `_doConnecting`: nothing without a held session. */
  function DoConnecting(session: Option<Session>): (a: seq<SipAction>)
    ensures session.None? <==> a == []
  {
    if session.None? then []
    else [Telephony(AppStore.CallConnecting(Payload(session.value.data, None, None)))]
  }

  // ---------------------------------------------------------------------
  // Admission of new sessions
  // ---------------------------------------------------------------------

  /** `addInboundSubscriptions`: the session becomes the held one and the
      call is reported as connecting. */
  function Adopt(c: Controller, s: Session): (r: Step)
    ensures r.controller == c.(session := Some(s))
    ensures r.actions == [Telephony(AppStore.CallConnecting(Payload(s.data, None, None)))]
  {
    Step(c.(session := Some(s)), DoConnecting(Some(s)))
  }

  /** The `newRTCSession` handler for a session with the given id. */
  function NewRtcSession(c: Controller, originator: Originator, req: Request, id: nat): (r: Step)
    ensures |r.actions| >= 1 && r.actions[0] == ToParent("webphone-new-session")
    ensures originator == Local ==> r == Step(c, [ToParent("webphone-new-session")])
    ensures c.session.Some? ==> r.controller == c
    ensures r.controller.session.Some? ==> r.controller.session.value.id == id || r.controller == c
  {
    var meta := Analyze(originator, req);
    var announced := [ToParent("webphone-new-session")];
    if originator == Local then Step(c, announced)
    else
      var notified := announced + [Notified(req.callId)];
      var s := Session(id, SessionData(meta, None));
      if meta.callType == ClickToDial then
        if c.session.None? then
          var adopted := Adopt(c, s);
          var answered := Answer(adopted.controller);
          Step(answered.controller, notified + adopted.actions + answered.actions)
        else if c.session.value.id != id then Step(c, notified + [TerminateSession(id)])
        else Step(c, notified)
      else if c.session.None? then
        var adopted := Adopt(c, s);
        Step(adopted.controller, notified + adopted.actions)
      else Step(c, notified)
  }

  /** A click-to-dial invite with no call held is adopted and answered. */
  lemma ClickToDialAdoptedWhenIdle(c: Controller, req: Request, id: nat)
    requires c.session.None? && !Truthy(FirstRaw(req.xReferences))
    ensures NewRtcSession(c, Remote, req, id).controller.session == Some(Session(id, SessionData(Analyze(Remote, req), None)))
    ensures AnswerSession(id) in NewRtcSession(c, Remote, req, id).actions
    ensures Answered(req.callId) in NewRtcSession(c, Remote, req, id).actions
  {
    var r := NewRtcSession(c, Remote, req, id);
    var s := Session(id, SessionData(Analyze(Remote, req), None));
    var n := [ToParent("webphone-new-session"), Notified(req.callId)];
    var adopted := Adopt(c, s);
    assert r.actions == n + adopted.actions + [AnswerSession(id), Answered(req.callId)];
    assert r.actions[|r.actions| - 2] == AnswerSession(id);
  }

  /** A second, different click-to-dial invite during a call is terminated;
      the held call is untouched. */
  lemma ClickToDialRejectedWhileBusy(c: Controller, req: Request, id: nat)
    requires c.session.Some? && c.session.value.id != id && !Truthy(FirstRaw(req.xReferences))
    ensures NewRtcSession(c, Remote, req, id) ==
      Step(c, [ToParent("webphone-new-session"), Notified(req.callId), TerminateSession(id)])
  {
  }

  /** Any other invite is adopted only when no call is held, and never
      answered or terminated here; during a call it is left alone. */
  lemma OtherInvitesAdoptedOnlyWhenIdle(c: Controller, req: Request, id: nat)
    requires Truthy(FirstRaw(req.xReferences))
    ensures c.session.None? ==>
      NewRtcSession(c, Remote, req, id).controller.session == Some(Session(id, SessionData(Analyze(Remote, req), None)))
    ensures c.session.Some? ==>
      NewRtcSession(c, Remote, req, id) == Step(c, [ToParent("webphone-new-session"), Notified(req.callId)])
    ensures forall a | a in NewRtcSession(c, Remote, req, id).actions :: !TouchesSession(a)
  {
  }

  // ---------------------------------------------------------------------
  // Events of the held session
  // ---------------------------------------------------------------------

  datatype SessionEvent =
    | Connecting
    | Sending
    | Progress
    | Accepted
    | Confirmed
    | Ended(cause: string)
    | Failed(cause: string)
    | Held
    | Unheld
    | Muted
    | Unmuted
      /** The media of the call could not be obtained. */
    | GetUserMediaFailed
    | PeerConnection
      /** The refer subscriber of a blind transfer reports success. */
    | ReferSucceeded

  /** The handlers bound to the held session, and the success handler of
      the refer a blind transfer sends. Without a held session the metadata
      lookup gives nothing: the connecting handler stops there and the ended
      and failed handlers throw after announcing themselves. A failed media
      request raises the media-device error before anything can throw. A
      successful refer ends whatever call is held by then. */
  function OnSession(c: Controller, e: SessionEvent): (r: Step)
    ensures (e.Ended? || e.Failed?) ==> r.controller == c.(session := None)
    ensures !(e.Ended? || e.Failed?) ==> r.controller == c
    ensures e.Ended? && c.session.Some? ==>
      r.actions == [ToParent("webphone-ended"),
                    Telephony(AppStore.CallEnded(EndedPayload(c.session.value.data, e.cause)))]
    ensures e.Failed? && c.session.Some? ==>
      r.actions == [ToParent("webphone-failed"),
                    Telephony(AppStore.CallFailed(EndedPayload(c.session.value.data, e.cause)))]
    ensures (e.Ended? || e.Failed?) && c.session.None? ==> |r.actions| == 1
    ensures e.GetUserMediaFailed? ==> r.actions == [MediaDeviceError]
    ensures e.PeerConnection? ==> r.actions == [ToParent("webphone-peerconnection")]
    ensures e.ReferSucceeded? && c.session.Some? ==> r.actions == [TerminateSession(c.session.value.id)]
    ensures e.ReferSucceeded? && c.session.None? ==> r.actions == []
  {
    match e
    case Connecting => Step(c, [ToParent("webphone-connecting")] + DoConnecting(c.session))
    case Sending => Step(c, [Telephony(AppStore.CallSending)])
    case Progress => Step(c, [Telephony(AppStore.CallProgress)])
    case Accepted => Step(c, [Telephony(AppStore.CallAccepted)])
    case Confirmed => Step(c, [Telephony(AppStore.CallConfirmed)])
    case Ended(cause) =>
      if c.session.None? then Step(c, [ToParent("webphone-ended")])
      else
        var p := EndedPayload(c.session.value.data, cause);
        Step(c.(session := None), [ToParent("webphone-ended"), Telephony(AppStore.CallEnded(p))])
    case Failed(cause) =>
      if c.session.None? then Step(c, [ToParent("webphone-failed")])
      else
        var p := EndedPayload(c.session.value.data, cause);
        Step(c.(session := None), [ToParent("webphone-failed"), Telephony(AppStore.CallFailed(p))])
    case Held => Step(c, [Telephony(AppStore.CallHold)])
    case Unheld => Step(c, [Telephony(AppStore.CallUnhold)])
    case Muted => Step(c, [Telephony(AppStore.CallMuted)])
    case Unmuted => Step(c, [Telephony(AppStore.CallUnmuted)])
    case GetUserMediaFailed => Step(c, [MediaDeviceError])
    case PeerConnection => Step(c, [ToParent("webphone-peerconnection")])
    case ReferSucceeded => Step(c, Operate(c, EndCall))
  }

  /** The call data of an ended or failed call: the formatted title and
      cause when the cause is listed, none otherwise. */
  function EndedPayload(d: SessionData, cause: string): (p: AppStore.CallData)
    ensures cause in ListedCauses ==>
      p.title == Some(CauseFormatter(cause, d.meta.direction).value.title) && p.cause == Some(cause)
    ensures cause !in ListedCauses ==> p.title.None? && p.cause.None?
    ensures p.remote == d.meta.remote && p.workType == d.workType
  {
    var f := CauseFormatter(cause, d.meta.direction);
    if f.None? then Payload(d, None, None) else Payload(d, Some(f.value.title), Some(f.value.cause))
  }

  // ---------------------------------------------------------------------
  // Placing a call and the call-control operations
  // ---------------------------------------------------------------------

  /** `callSip`: a new session only when none is held. `deviceFound` is
      the device lookup finding a device with an id, which happens only
      when settings exist. The library fires `newRTCSession` for the call
      while placing it, then the session becomes the held one carrying the
      work type. None is the promise rejecting. The slot is looked at once,
      before the device lookup; `PlaceOnAgent` is what runs after it. */
  function CallSip(c: Controller, number: string, workType: Option<string>, deviceFound: bool, req: Request, id: nat): (r: Option<Step>)
    ensures c.session.Some? ==> r == Some(Step(c, []))
    ensures r.None? <==>
      c.session.None? && ((deviceFound && !c.callOptionsConfigured) || c.ua.None? || c.config.None?)
    ensures c.session.None? && r.Some? ==>
      r.value.controller.session == Some(Session(id, SessionData(Analyze(Local, req), workType))) &&
      r.value.actions == [ToParent("webphone-new-session"), Invite("sip:" + Trim(number) + "@" + c.config.value.domain)]
  {
    if c.session.Some? then Some(Step(c, []))
    else PlaceOnAgent(c, number, workType, deviceFound, req, id)
  }

  /** The part of `callSip` after the device lookup has settled: the slot
      is not looked at again, so the new session takes it whatever it holds
      by then. The promise rejects when the found device is written into
      call options that were never filled in, when there is no user agent,
      and when there is no configuration. */
  function PlaceOnAgent(c: Controller, number: string, workType: Option<string>, deviceFound: bool, req: Request, id: nat): (r: Option<Step>)
    ensures r.None? <==> (deviceFound && !c.callOptionsConfigured) || c.ua.None? || c.config.None?
    ensures r.Some? ==>
      r.value.controller == c.(session := Some(Session(id, SessionData(Analyze(Local, req), workType))))
    ensures r.Some? ==>
      r.value.actions == [ToParent("webphone-new-session"), Invite("sip:" + Trim(number) + "@" + c.config.value.domain)]
  {
    if deviceFound && !c.callOptionsConfigured then None
    else if c.ua.None? || c.config.None? then None
    else
      var created := NewRtcSession(c, Local, req, id);
      var s := Session(id, SessionData(Analyze(Local, req), workType));
      Some(Step(c.(session := Some(s)),
                created.actions + [Invite("sip:" + Trim(number) + "@" + c.config.value.domain)]))
  }

  /** An invite adopted while `callSip` waits for its device lookup is
      displaced when the call is placed: the slot then holds the outgoing
      session, which the whole call, taken in one step, would have refused
      to create. */
  lemma CallSipOverwritesSessionAdoptedDuringLookup(
    c: Controller, number: string, workType: Option<string>, deviceFound: bool, req: Request, id: nat,
    inbound: Request, inboundId: nat)
    requires c.session.None? && c.ua.Some? && c.config.Some? && inboundId != id
    requires deviceFound ==> c.callOptionsConfigured
    ensures var adopted := NewRtcSession(c, Remote, inbound, inboundId).controller;
            && adopted.session.Some? && adopted.session.value.id == inboundId
            && CallSip(adopted, number, workType, deviceFound, req, id) == Some(Step(adopted, []))
            && PlaceOnAgent(adopted, number, workType, deviceFound, req, id).value.controller.session.value.id == id
  {
    var adopted := NewRtcSession(c, Remote, inbound, inboundId);
    var s := Session(inboundId, SessionData(Analyze(Remote, inbound), None));
    if Analyze(Remote, inbound).callType == ClickToDial {
      assert adopted.controller == Answer(Adopt(c, s).controller).controller;
    } else {
      assert adopted.controller == Adopt(c, s).controller;
    }
  }

  /** `answer`: answers the held session and reports it answered. The slot
      is looked at once, before the device lookup; `AnswerHeld` is what
      runs after it. */
  function Answer(c: Controller): (r: Step)
    ensures r.controller == c
    ensures c.session.None? ==> r.actions == []
    ensures c.session.Some? ==>
      r.actions == [AnswerSession(c.session.value.id), Answered(c.session.value.data.meta.callId)]
  {
    if c.session.None? then Step(c, [])
    else AnswerHeld(c).value
  }

  /** The part of `answer` after the device lookup has settled: whatever
      session the slot holds by then is answered. With the slot empty the
      answer attempt is caught and logged, but attaching the remote audio
      then fails and the promise rejects: None. */
  function AnswerHeld(c: Controller): (r: Option<Step>)
    ensures r.None? <==> c.session.None?
    ensures r.Some? ==>
      r.value.controller == c && |r.value.actions| == 2 &&
      r.value.actions[0] == AnswerSession(c.session.value.id) && r.value.actions[1].Answered?
  {
    if c.session.None? then None
    else Some(Step(c, [AnswerSession(c.session.value.id), Answered(c.session.value.data.meta.callId)]))
  }

  /** While `answer` waits for its device lookup the call it was asked to
      answer can end, and another invite can take the slot: the answer then
      rejects, or goes to the newcomer. */
  lemma AnswerAfterLookupMeetsCurrentSlot(c: Controller, cause: string, inbound: Request, inboundId: nat)
    requires c.session.Some? && inboundId != c.session.value.id && Truthy(FirstRaw(inbound.xReferences))
    ensures var ended := OnSession(c, Ended(cause)).controller;
            && AnswerHeld(ended).None?
            && AnswerHeld(NewRtcSession(ended, Remote, inbound, inboundId).controller).value.actions[0] ==
               AnswerSession(inboundId)
            && AnswerSession(inboundId) != Answer(c).actions[0]
  {
    var ended := OnSession(c, Ended(cause)).controller;
    OtherInvitesAdoptedOnlyWhenIdle(ended, inbound, inboundId);
  }

  datatype Control = EndCall | Mute | Unmute | Hold | Unhold

  /** `endCall`, `mute`, `unmute`, `hold` and `unhold`: each acts on the held
      session, if any. */
  function Operate(c: Controller, op: Control): (a: seq<SipAction>)
    ensures c.session.None? ==> a == []
    ensures c.session.Some? ==> |a| == 1 && TouchesSession(a[0])
  {
    if c.session.None? then []
    else
      var id := c.session.value.id;
      match op
      case EndCall => [TerminateSession(id)]
      case Mute => [MuteSession(id)]
      case Unmute => [UnmuteSession(id)]
      case Hold => [HoldSession(id)]
      case Unhold => [UnholdSession(id)]
  }

  /** `transferBlind` has no guard: None is the exception raised when no
      session is held. */
  function TransferBlind(c: Controller, target: string): (r: Option<seq<SipAction>>)
    ensures r.None? <==> c.session.None? || c.config.None?
    ensures r.Some? ==> r.value == [Refer(c.session.value.id, "sip:" + target + "@" + c.config.value.domain)]
  {
    if c.session.None? || c.config.None? then None
    else Some([Refer(c.session.value.id, "sip:" + target + "@" + c.config.value.domain)])
  }

  /** When the refer of a blind transfer succeeds with the referred call
      still held, that call is terminated; the slot is let go only when the
      call's own end event follows. */
  lemma TransferSuccessEndsReferredCall(c: Controller, target: string, cause: string)
    requires TransferBlind(c, target).Some?
    ensures var referred := TransferBlind(c, target).value[0].session;
            && OnSession(c, ReferSucceeded) == Step(c, [TerminateSession(referred)])
            && OnSession(OnSession(c, ReferSucceeded).controller, Ended(cause)).controller.session.None?
  {
  }

  /** `isOnHold` has no guard either; the local hold flag of the session is
      the library's and an input here. */
  function IsOnHold(c: Controller, heldLocally: bool): (r: Option<bool>)
    ensures r.None? <==> c.session.None?
    ensures r.Some? ==> r.value == heldLocally
  {
    if c.session.None? then None else Some(heldLocally)
  }

  /** `sendDTMF`'s token rewriting. */
  function NormaliseTone(tone: string): (t: string)
    ensures tone == "asterisk" ==> t == "*"
    ensures tone == "hash" ==> t == "#"
    ensures tone != "asterisk" && tone != "hash" ==> t == tone
  {
    if tone == "asterisk" then "*" else if tone == "hash" then "#" else tone
  }

  predicate IsToneChar(c: char) {
    '0' <= c <= '9' || c == '*' || c == '#'
  }

  /** The test the rewritten tone must pass: one character from
      `[0-9*#]`. */
  predicate Transmittable(t: string) {
    |t| == 1 && IsToneChar(t[0])
  }

  /** `sendDTMF`: sends the rewritten tone to the held session when it is
      one tone character. */
  function SendDtmf(c: Controller, tone: string): (a: seq<SipAction>)
    ensures a != [] <==> c.session.Some? && Transmittable(NormaliseTone(tone))
    ensures a != [] ==> a == [SendTone(c.session.value.id, NormaliseTone(tone))]
  {
    if c.session.Some? && Transmittable(NormaliseTone(tone)) then
      [SendTone(c.session.value.id, NormaliseTone(tone))]
    else []
  }

  /** The tokens that reach the wire are the twelve keys of a telephone
      keypad, written as digits, `*` and `#`, and the named forms of the
      last two. */
  lemma SentTones(c: Controller, tone: string)
    requires c.session.Some?
    ensures SendDtmf(c, tone) != [] <==>
      tone == "asterisk" || tone == "hash" || (|tone| == 1 && IsToneChar(tone[0]))
  {
  }

  /** The named `plus` key is never sent. */
  lemma PlusNeverSent(c: Controller)
    ensures SendDtmf(c, "plus") == []
  {
    assert NormaliseTone("plus") == "plus";
  }

  // ---------------------------------------------------------------------
  // The user agent
  // ---------------------------------------------------------------------

  /** How the start-up race ended: registered, disconnected, registration
      failed, or no answer within the timeout. */
  datatype Race = RaceRegistered | RaceDisconnected | RaceRegistrationFailed(callId: string) | RaceTimedOut

  /** How the promise `initialise` returns settles. */
  datatype Settled = Resolved | Rejected | Threw

  datatype Init = Init(controller: Controller, actions: seq<SipAction>, settled: Settled)

  /** The race listeners attached to a fresh user agent and removed once
      the race is over, whichever way it ended. */
  function RaceListeners(): set<RaceListener> {
    {OnDisconnected, OnRegistrationFailed, OnRegistered}
  }

  /** `initialise`: nothing if a user agent exists; otherwise the media
      permission and device checks, a fresh user agent, and the race. A
      lost race stops the user agent but keeps it. The user agent is looked
      at once, before the checks; `StartUserAgent` is what runs after them. */
  function Initialise(c: Controller, config: SipConfig, permitted: bool, devicesValid: bool, race: Race): (r: Init)
    ensures c.ua.Some? ==> r == Init(c, [], Resolved)
    ensures c.ua.None? && (!permitted || !devicesValid) ==> r.controller == c && r.settled == Rejected
    ensures c.ua.None? && permitted && !devicesValid ==> r.actions == [MediaDeviceError]
    ensures c.ua.None? && permitted && devicesValid ==>
      r.controller.raceListeners == {} && r.controller.config == Some(config) && r.controller.ua.Some?
    ensures c.ua.None? && permitted && devicesValid ==>
      (r.settled == Resolved <==> race == RaceRegistered) &&
      (r.controller.ua == Some(Running) <==> race == RaceRegistered)
    ensures r.settled == Threw ==> |r.actions| > 0 && r.actions[|r.actions| - 1] == StopUa
    ensures r.controller.session == c.session
  {
    if c.ua.Some? then Init(c, [], Resolved)
    else if !permitted then Init(c, [], Rejected)
    else if !devicesValid then Init(c, [MediaDeviceError], Rejected)
    else StartUserAgent(c, config, race)
  }

  /** `_initializeUserAgent` and the race, once both checks have passed: a
      fresh user agent replaces whatever the controller holds by then. */
  function StartUserAgent(c: Controller, config: SipConfig, race: Race): (r: Init)
    ensures r.controller.raceListeners == {} && r.controller.config == Some(config) && r.controller.ua.Some?
    ensures r.settled == Resolved <==> race == RaceRegistered
    ensures r.settled != Rejected
    ensures r.controller.ua == Some(Running) <==> race == RaceRegistered
    ensures r.settled == Threw ==> |r.actions| > 0 && r.actions[|r.actions| - 1] == StopUa
    ensures r.controller.session == c.session
    ensures r.controller.callOptionsConfigured <==> c.callOptionsConfigured || race == RaceRegistered
  {
    var created := c.(ua := Some(Running), config := Some(config), raceListeners := {});
    var racing := created.(raceListeners := created.raceListeners + RaceListeners());
    var settled := racing.(raceListeners := racing.raceListeners - RaceListeners());
    match race
    case RaceRegistered => Init(settled.(callOptionsConfigured := true), [Sip(AppStore.SipConnected)], Resolved)
    case RaceDisconnected => Init(settled.(ua := Some(Stopped)), [Sip(AppStore.SipDisconnected), StopUa], Threw)
    case RaceRegistrationFailed(_) => Init(settled.(ua := Some(Stopped)), [Sip(AppStore.SipFailed), StopUa], Threw)
    case RaceTimedOut => Init(settled.(ua := Some(Stopped)), [StopUa], Threw)
  }

  /** Two `initialise` calls that both pass the guard before either has
      built its user agent both build one: the later agent's configuration
      and race decide the outcome, where the second call taken in one step
      would have left the first agent alone. */
  lemma OverlappingInitialisesBothStart(c: Controller, config: SipConfig, config2: SipConfig, race: Race, race2: Race)
    requires c.ua.None? && config != config2
    ensures var first := StartUserAgent(c, config, race).controller;
            && Initialise(first, config2, true, true, race2).controller.config == Some(config)
            && StartUserAgent(first, config2, race2).controller.config == Some(config2)
            && (StartUserAgent(first, config2, race2).controller.ua == Some(Running) <==> race2 == RaceRegistered)
  {
  }

  /** `destroyUserAgent`: the user agent and its configuration are dropped;
      the held-session slot and the call options are not touched. */
  function DestroyUserAgent(c: Controller): (r: Step)
    ensures r.controller.ua.None? && r.controller.config.None?
    ensures r.controller.session == c.session
    ensures r.controller.callOptionsConfigured == c.callOptionsConfigured
    ensures r.actions == (if c.ua.Some? then [TerminateSessions, StopUa, Unregister] else [])
  {
    Step(c.(ua := None, config := None), if c.ua.Some? then [TerminateSessions, StopUa, Unregister] else [])
  }

  /** A running user agent always has its call options: they are filled in
      by the same won race that leaves the agent running, and nothing
      empties them. */
  lemma RunningAgentHasCallOptions(c: Controller, e: Event)
    requires c.ua == Some(Running) ==> c.callOptionsConfigured
    ensures Apply(c, e).ua == Some(Running) ==> Apply(c, e).callOptionsConfigured
  {
    match e
    case Start(cfg, p, d, race) =>
      if c.ua.None? && p && d {
        assert Apply(c, e) == StartUserAgent(c, cfg, race).controller;
      }
    case _ =>
  }

  /** When the first start-up race is lost the agent is kept, stopped, but
      the call options stay empty: a later call whose device lookup finds a
      device writes into them and rejects, while one that finds none is
      placed with empty options. */
  lemma LostFirstRaceBreaksCallsWithDevice(
    config: SipConfig, race: Race, number: string, workType: Option<string>, req: Request, id: nat)
    requires race != RaceRegistered
    ensures var c := Initialise(Initial, config, true, true, race).controller;
            && c.ua == Some(Stopped)
            && CallSip(c, number, workType, true, req, id).None?
            && CallSip(c, number, workType, false, req, id).Some?
  {
    var r := Initialise(Initial, config, true, true, race);
    assert r == StartUserAgent(Initial, config, race);
  }

  /** A second `initialise` does nothing until the user agent is destroyed;
      after that it starts afresh. */
  lemma InitialiseOnceUntilDestroyed(c: Controller, config: SipConfig, config2: SipConfig, race: Race, race2: Race)
    requires c.ua.None?
    ensures var first := Initialise(c, config, true, true, race).controller;
            Initialise(first, config2, true, true, race2).controller == first &&
            Initialise(DestroyUserAgent(first).controller, config2, true, true, race2).controller.config == Some(config2)
  {
  }

  /** The permanent user-agent listeners. A disconnection (after the
      debounce) stops the user agent and hands over to the reconnect
      policy. */
  datatype UaSignal = UaConnecting | UaConnected | UaDisconnected | UaRegistered | UaUnregistered | UaRegistrationFailed

  function OnUa(c: Controller, e: UaSignal): (r: Step)
    ensures e == UaDisconnected ==> ChannelLost in r.actions
    ensures e == UaDisconnected && c.ua.Some? ==> r.controller.ua == Some(Stopped)
    ensures e != UaDisconnected ==> r.controller == c && |r.actions| == 1
    ensures r.controller.session == c.session
  {
    match e
    case UaConnecting => Step(c, [Sip(AppStore.SipConnecting)])
    case UaConnected => Step(c, [Sip(AppStore.SipConnected)])
    case UaDisconnected =>
      if c.ua.Some? then Step(c.(ua := Some(Stopped)), [StopUa, ChannelLost]) else Step(c, [ChannelLost])
    case UaRegistered => Step(c, [Ua(AppStore.UaRegistered)])
    case UaUnregistered => Step(c, [Ua(AppStore.UaUnregistered)])
    case UaRegistrationFailed => Step(c, [Ua(AppStore.UaFailed)])
  }

  // ---------------------------------------------------------------------
  // The single held session
  // ---------------------------------------------------------------------

  /** Everything that moves the controller. */
  datatype Event =
    | NewSession(originator: Originator, req: Request, id: nat)
    | SessionChanged(e: SessionEvent)
    | PlaceCall(number: string, workType: Option<string>, deviceFound: bool, req: Request, id: nat)
    | AnswerCall
    | Control(op: Control)
    | Tone(tone: string)
    | Start(config: SipConfig, permitted: bool, devicesValid: bool, race: Race)
    | Destroy
    | UaChanged(signal: UaSignal)

  function Apply(c: Controller, e: Event): (r: Controller)
    ensures r.session != c.session ==>
      (c.session.None? && (e.NewSession? || e.PlaceCall?)) || (e.SessionChanged? && (e.e.Ended? || e.e.Failed?))
    ensures !(e.Start? || e.Destroy? || e.UaChanged?) ==> r.ua == c.ua && r.config == c.config
  {
    match e
    case NewSession(o, req, id) => NewRtcSession(c, o, req, id).controller
    case SessionChanged(ev) => OnSession(c, ev).controller
    case PlaceCall(n, w, found, req, id) =>
      var r := CallSip(c, n, w, found, req, id);
      if r.None? then c else r.value.controller
    case AnswerCall => Answer(c).controller
    case Control(_) => c
    case Tone(_) => c
    case Start(cfg, p, d, race) => Initialise(c, cfg, p, d, race).controller
    case Destroy => DestroyUserAgent(c).controller
    case UaChanged(s) => OnUa(c, s).controller
  }

  function ApplyAll(c: Controller, es: seq<Event>): Controller
    decreases |es|
  {
    if es == [] then c else ApplyAll(Apply(c, es[0]), es[1..])
  }

  /** A held session is never replaced by another: the slot goes from
      none to a session, and from that session back to none. */
  lemma HeldSessionNeverReplaced(c: Controller, e: Event)
    requires c.session.Some? && Apply(c, e).session.Some?
    ensures Apply(c, e).session == c.session
  {
  }

  /** Only an ended or failed event clears the slot. */
  lemma OnlyEndingClears(c: Controller, e: Event)
    requires c.session.Some? && Apply(c, e).session.None?
    ensures e.SessionChanged? && (e.e.Ended? || e.e.Failed?)
  {
  }

  /** An event other than the end of the call keeps the held session. */
  lemma KeptUnlessEnded(c: Controller, e: Event)
    requires c.session.Some? && !(e.SessionChanged? && (e.e.Ended? || e.e.Failed?))
    ensures Apply(c, e).session == c.session
  {
  }

  /** Over any run in which the call does not end, the held session stays
      the one held. */
  lemma {:induction false} SessionHeldUntilEnded(c: Controller, es: seq<Event>)
    requires c.session.Some?
    requires forall i | 0 <= i < |es| :: !(es[i].SessionChanged? && (es[i].e.Ended? || es[i].e.Failed?))
    ensures ApplyAll(c, es).session == c.session
    decreases |es|
  {
    if es != [] {
      assert !(es[0].SessionChanged? && (es[0].e.Ended? || es[0].e.Failed?));
      KeptUnlessEnded(c, es[0]);
      SessionHeldUntilEnded(Apply(c, es[0]), es[1..]);
    }
  }

  // ---------------------------------------------------------------------
  // Causes
  // ---------------------------------------------------------------------

  /** The cause texts of the SIP library's `C.causes`. */
  const ConnectionError := "Connection Error"
  const RequestTimeout := "Request Timeout"
  const SipFailureCode := "SIP Failure Code"
  const InternalError := "Internal Error"
  const Busy := "Busy"
  const RejectedCause := "Rejected"
  const Redirected := "Redirected"
  const Unavailable := "Unavailable"
  const NotFound := "Not Found"
  const AddressIncomplete := "Address Incomplete"
  const IncompatibleSdp := "Incompatible SDP"
  const MissingSdp := "Missing SDP"
  const AuthenticationError := "Authentication Error"
  const Bye := "Terminated"
  const WebRtcError := "WebRTC Error"
  const Canceled := "Canceled"
  const NoAnswer := "No Answer"
  const Expires := "Expires"
  const NoAck := "No ACK"
  const DialogError := "Dialog Error"
  const UserDeniedMediaAccess := "User Denied Media Access"
  const BadMediaDescription := "Bad Media Description"
  const RtpTimeout := "RTP Timeout"

  const GenericCauses: set<string> := {ConnectionError, RequestTimeout, SipFailureCode, InternalError}
  const SipErrorCauses: set<string> :=
    {Busy, RejectedCause, Redirected, Unavailable, NotFound, AddressIncomplete, IncompatibleSdp, MissingSdp,
     AuthenticationError}
  const SessionErrorCauses: set<string> :=
    {Bye, WebRtcError, Canceled, NoAnswer, Expires, NoAck, DialogError, UserDeniedMediaAccess,
     BadMediaDescription, RtpTimeout}
  const ListedCauses: set<string> := GenericCauses + SipErrorCauses + SessionErrorCauses

  datatype ErrorType = Generic | SipError | SessionError

  datatype FormattedCause = FormattedCause(title: string, cause: string, causeType: ErrorType)

  /** The title and category of each listed cause, one case per line of
      the table. */
  function Entry(cause: string, direction: Direction): Option<(string, ErrorType)> {
    if cause == ConnectionError then Some(("Error 2201", Generic))
    else if cause == RequestTimeout then Some(("Error 2202", Generic))
    else if cause == SipFailureCode then Some(("Error 2203", Generic))
    else if cause == InternalError then Some(("Error 2204", Generic))
    else if cause == Busy then Some(("Busy", SipError))
    else if cause == RejectedCause then Some((if direction == Outbound then "Rejected" else "Call Ended", SipError))
    else if cause == Redirected then Some(("Redirected", SipError))
    else if cause == Unavailable then Some((NotFound, SipError))
    else if cause == NotFound then Some((NotFound, SipError))
    else if cause == AddressIncomplete then Some((AddressIncomplete, SipError))
    else if cause == IncompatibleSdp then Some(("Error 3301", SipError))
    else if cause == MissingSdp then Some(("Error 3302", SipError))
    else if cause == AuthenticationError then Some(("Error 3303", SipError))
    else if cause == Bye then Some(("Call Ended", SessionError))
    else if cause == WebRtcError then Some(("Error 4401", SessionError))
    else if cause == Canceled then Some(("Cancelled", SessionError))
    else if cause == NoAnswer then Some(("No Answer", SessionError))
    else if cause == Expires then Some(("Error 4402", SessionError))
    else if cause == NoAck then Some(("Error 4403", SessionError))
    else if cause == DialogError then Some(("Error 4404", SessionError))
    else if cause == UserDeniedMediaAccess then Some(("Error 4405", SessionError))
    else if cause == BadMediaDescription then Some(("Error 4406", SessionError))
    else if cause == RtpTimeout then Some(("Error 4407", SessionError))
    else None
  }

  /** `causeFormatter`: the title and category of a cause, undefined for a
      cause the table does not list. */
  function CauseFormatter(cause: string, direction: Direction): (r: Option<FormattedCause>)
    ensures r.Some? <==> cause in ListedCauses
    ensures r.Some? ==> r.value.cause == cause
    ensures cause == RejectedCause ==> r.value.title == (if direction == Outbound then "Rejected" else "Call Ended")
    ensures cause == Unavailable || cause == NotFound ==> r.value.title == NotFound
  {
    var e := Entry(cause, direction);
    if e.None? then
      NoEntryIsUnlisted(cause, direction);
      None
    else
      EntryIsListed(cause, direction);
      Some(FormattedCause(e.value.0, cause, e.value.1))
  }

  lemma NoEntryIsUnlisted(cause: string, direction: Direction)
    requires Entry(cause, direction).None?
    ensures cause !in ListedCauses
  {
    NoEntryNotGeneric(cause, direction);
    NoEntryNotSipError(cause, direction);
    NoEntryNotSessionError(cause, direction);
  }

  lemma NoEntryNotGeneric(cause: string, direction: Direction)
    requires Entry(cause, direction).None?
    ensures cause !in GenericCauses
  {
  }

  lemma NoEntryNotSipError(cause: string, direction: Direction)
    requires Entry(cause, direction).None?
    ensures cause !in SipErrorCauses
  {
  }

  lemma NoEntryNotSessionError(cause: string, direction: Direction)
    requires Entry(cause, direction).None?
    ensures cause !in SessionErrorCauses
  {
  }

  lemma EntryIsListed(cause: string, direction: Direction)
    requires Entry(cause, direction).Some?
    ensures cause in ListedCauses
  {
  }

  /** Each listed cause is filed under the category whose set holds it. */
  lemma CauseCategories(cause: string, direction: Direction)
    requires cause in ListedCauses
    ensures CauseFormatter(cause, direction).value.causeType == Generic <==> cause in GenericCauses
    ensures CauseFormatter(cause, direction).value.causeType == SipError <==> cause in SipErrorCauses
    ensures CauseFormatter(cause, direction).value.causeType == SessionError <==> cause in SessionErrorCauses
  {
    CategoriesDisjoint();
  }

  /** No cause is in two categories. */
  lemma CategoriesDisjoint()
    ensures GenericCauses !! SipErrorCauses && GenericCauses !! SessionErrorCauses
    ensures SipErrorCauses !! SessionErrorCauses
  {
  }

  /** The direction matters only for a rejected call. */
  lemma DirectionMattersOnlyForRejected(cause: string)
    ensures CauseFormatter(cause, Inbound) != CauseFormatter(cause, Outbound) <==> cause == RejectedCause
  {
  }
}

=== FILE: sip_reconnect.dfy ===
/** The signalling channel's disconnect policy: an immediate retry, then
    retries after a growing delay, and a forced stop of the connection on the
    fourth consecutive failure. Scheduled publications carry their delay. */
module SipReconnect {
  import opened Wrappers
  import opened Backoff

  /** The number of consecutive failures after which the connection is
      stopped. */
  const MaxRetries := 3

  /** What the policy does, in order. */
  datatype Action =
    | PublishDisconnected
    | PublishConnected
    /** `appStore.connectionStopForced()`, with no error. */
    | StopConnection
    /** `appStore.reconnectSip()`: the store's `connecting` flag is raised. */
    | MarkConnecting
    /** SIP.RECONNECT, now (None) or after a delay in milliseconds. */
    | PublishReconnect(delayMs: Option<nat>)
    | PublishOplogSuccess
    | PublishOplogReconnect

  datatype Step = Step(failureCount: nat, actions: seq<Action>)

  /** `handleDisconnected`, given whether a user is logged in and whether the
      connection was stopped. */
  function HandleDisconnected(failureCount: nat, loggedIn: bool, connectionStopped: bool): (s: Step)
    ensures |s.actions| >= 1 && s.actions[0] == PublishDisconnected
    ensures !loggedIn || connectionStopped ==> s == Step(failureCount, [PublishDisconnected])
    ensures loggedIn && !connectionStopped && failureCount + 1 > MaxRetries ==>
      s == Step(0, [PublishDisconnected, StopConnection])
    ensures loggedIn && !connectionStopped && failureCount + 1 <= MaxRetries ==>
      && s.failureCount == failureCount + 1
      && s.actions == [PublishDisconnected, MarkConnecting,
                       PublishReconnect(if s.failureCount == 1 then None else Some(ReconnectDelayMs(s.failureCount)))]
  {
    if !loggedIn || connectionStopped then Step(failureCount, [PublishDisconnected])
    else
      var count := failureCount + 1;
      if count > MaxRetries then Step(0, [PublishDisconnected, StopConnection])
      else
        var later := if count > 1 then Some(ReconnectDelayMs(count)) else None;
        Step(count, [PublishDisconnected, MarkConnecting, PublishReconnect(later)])
  }

  /** `triggerSip.connected`: the counter is reset before CONNECTED goes out. */
  function Connected(failureCount: nat): (s: Step)
    ensures s.failureCount == 0 && s.actions == [PublishConnected]
  {
    Step(0, [PublishConnected])
  }

  /** `triggerOplog.success`: success first, then the request to resubscribe. */
  function OplogSucceeded(): (actions: seq<Action>)
    ensures |actions| == 2 && actions[0] == PublishOplogSuccess && actions[1] == PublishOplogReconnect
  {
    [PublishOplogSuccess, PublishOplogReconnect]
  }

  /** The counter never exceeds the retry limit. */
  lemma CounterBounded(failureCount: nat, loggedIn: bool, connectionStopped: bool)
    requires failureCount <= MaxRetries
    ensures HandleDisconnected(failureCount, loggedIn, connectionStopped).failureCount <= MaxRetries
  {
  }

  /** A stop and a reconnect never come from the same call. */
  lemma StopOrReconnect(failureCount: nat, loggedIn: bool, connectionStopped: bool)
    ensures var a := HandleDisconnected(failureCount, loggedIn, connectionStopped).actions;
      StopConnection in a ==> forall d :: PublishReconnect(d) !in a
  {
  }

  /** `n` disconnects in a row while logged in and not stopped (the stop
      flag is not consulted again: see the store-level lemma for that). */
  function Disconnects(failureCount: nat, n: nat): Step
    decreases n
  {
    if n == 0 then Step(failureCount, [])
    else
      var first := HandleDisconnected(failureCount, true, false);
      var rest := Disconnects(first.failureCount, n - 1);
      Step(rest.failureCount, first.actions + rest.actions)
  }

  /** From a counter of `c`, the next `MaxRetries - c` disconnects each
      retry and the one after stops the connection and resets the counter. */
  lemma {:induction false} StopAfterRemainingRetries(c: nat)
    requires c <= MaxRetries
    ensures var s := Disconnects(c, MaxRetries - c);
      s.failureCount == MaxRetries && StopConnection !in s.actions
    ensures var s := Disconnects(c, MaxRetries + 1 - c);
      s.failureCount == 0 && s.actions[|s.actions| - 1] == StopConnection
    decreases MaxRetries - c
  {
    if c < MaxRetries {
      StopAfterRemainingRetries(c + 1);
      var first := HandleDisconnected(c, true, false);
      assert first.failureCount == c + 1;
      var rest := Disconnects(c + 1, MaxRetries - (c + 1));
      assert StopConnection !in first.actions;
      assert Disconnects(c, MaxRetries - c).actions == first.actions + rest.actions;
    } else {
      assert Disconnects(c, 0) == Step(c, []);
      assert Disconnects(c, 1) == Step(0, [PublishDisconnected, StopConnection]);
    }
  }

  /** From a reset counter: an immediate retry, one after 4 s, one after
      8 s, and then the stop. */
  lemma FourthDisconnectStops()
    ensures Disconnects(0, 4).actions == [
      PublishDisconnected, MarkConnecting, PublishReconnect(None),
      PublishDisconnected, MarkConnecting, PublishReconnect(Some(4000)),
      PublishDisconnected, MarkConnecting, PublishReconnect(Some(8000)),
      PublishDisconnected, StopConnection]
    ensures Disconnects(0, 4).failureCount == 0
  {
    assert ReconnectDelayMs(2) == 4000;
    assert ReconnectDelayMs(3) == 8000;
  }
}

=== FILE: tabs.dfy ===
/** The call-control view: the getters that enable its buttons, derived
    from the store's call info, the mute and hold toggles, placing a call
    from the dialled number, and the choice between the dial pad and the
    calls tab during wrap-up. */
module Tabs {
  import opened Wrappers
  import opened Text
  import AppStore

  /** `canMakeCall`: no call pending or up. */
  predicate CanMakeCall(c: AppStore.CallInfo): (r: bool)
    ensures c.status.None? ==> r
  {
    c.status != Some(AppStore.StatusOnCall) && c.status != Some(AppStore.StatusPending)
  }

  /** `isPendingInbound` */
  predicate IsPendingInbound(c: AppStore.CallInfo): (r: bool)
    ensures r ==> !CanMakeCall(c)
  {
    c.status == Some(AppStore.StatusPending) && c.direction == Some("inbound")
  }

  /** `isPendingOutbound` */
  predicate IsPendingOutbound(c: AppStore.CallInfo): (r: bool)
    ensures r ==> !CanMakeCall(c) && !IsPendingInbound(c)
  {
    c.status == Some(AppStore.StatusPending) && c.direction == Some("outbound")
  }

  /** `endCallEnabled` */
  predicate EndCallEnabled(c: AppStore.CallInfo): (r: bool)
    ensures c.onCall || c.ringing ==> r
    ensures r && !c.onCall && !c.ringing ==> !CanMakeCall(c)
  {
    IsPendingInbound(c) || IsPendingOutbound(c) || c.onCall || c.ringing
  }

  /** A call is never pending in both directions, and a pending call
      blocks placing another. */
  lemma PendingExclusive(c: AppStore.CallInfo)
    ensures !(IsPendingInbound(c) && IsPendingOutbound(c))
    ensures IsPendingInbound(c) || IsPendingOutbound(c) ==> !CanMakeCall(c)
  {
  }

  /** In any call info the store's call events produce, the end-call button
      is enabled exactly while a call can not be placed, except for a
      pending call with no direction or a direction other than the two. */
  lemma EndCallWhileBusy(c: AppStore.CallInfo)
    requires AppStore.CallInfoConsistent(c)
    ensures EndCallEnabled(c) ==> !CanMakeCall(c)
    ensures !CanMakeCall(c) && (c.direction == Some("inbound") || c.direction == Some("outbound")) ==>
      EndCallEnabled(c)
  {
  }

  datatype PhoneCommand =
    | Mute | Unmute | Hold | Unhold
    | PlaceCall(number: string, workType: Option<string>)
    | AcceptInbound

  /** `toggleMute`: only on a call; unmute exactly when muted. */
  function ToggleMute(c: AppStore.CallInfo): (r: seq<PhoneCommand>)
    ensures !c.onCall <==> r == []
    ensures c.onCall ==> r == [if IsSet(c.muted) then Unmute else Mute]
  {
    if !c.onCall then [] else if IsSet(c.muted) then [Unmute] else [Mute]
  }

  /** `toggleHold`: only on a call; unhold exactly when held. */
  function ToggleHold(c: AppStore.CallInfo): (r: seq<PhoneCommand>)
    ensures !c.onCall <==> r == []
    ensures c.onCall ==> r == [if IsSet(c.hold) then Unhold else Hold]
  {
    if !c.onCall then [] else if IsSet(c.hold) then [Unhold] else [Hold]
  }

  /** Toggling mute on a call and feeding the store the event the call
      then reports flips the muted flag. */
  lemma ToggleMuteFlips(c: AppStore.CallInfo)
    requires c.onCall
    ensures var e := if ToggleMute(c) == [Mute] then AppStore.CallMuted else AppStore.CallUnmuted;
            IsSet(AppStore.HandleCall(c, e).muted) == !IsSet(c.muted)
  {
  }

  /** The view's own state: the dialled number, blank at first. */
  datatype View = View(targetNumber: string)

  const InitialView := View(" ")

  /** `startCallUsingDialpadNumber`: nothing for a blank number; otherwise
      the call goes out with the name of the first selected flow option as
      its work type and the number resets to a single space. */
  function StartCall(v: View, flows: AppStore.InteractionFlows): (r: (View, seq<PhoneCommand>))
    ensures IsBlank(v.targetNumber) ==> r == (v, [])
    ensures !IsBlank(v.targetNumber) ==> r.0 == InitialView && |r.1| == 1 && r.1[0].PlaceCall?
    ensures !IsBlank(v.targetNumber) ==> r.1[0].number == v.targetNumber
    ensures !IsBlank(v.targetNumber) ==>
      r.1[0].workType == (var f := AppStore.FirstSelected(flows.outboundFlowOptions); if f.Some? then Some(f.value.flowName) else None)
  {
    TrimEmptyIffBlank(v.targetNumber);
    var flow := AppStore.FirstSelected(flows.outboundFlowOptions);
    if Trim(v.targetNumber) == "" then (v, [])
    else (InitialView, [PlaceCall(v.targetNumber, if flow.Some? then Some(flow.value.flowName) else None)])
  }

  /** With the flows the store builds, the work type of a placed call is
      the name of the store's selected flow: the private entry when no
      incoming option is selected. */
  lemma WorkTypeIsSelectedFlow(v: View, incoming: seq<AppStore.Flow>)
    requires !IsBlank(v.targetNumber)
    ensures var flows := AppStore.HandleInteractionFlows(incoming);
            StartCall(v, flows).1[0].workType == Some(flows.selectedFlow.value.flowName)
  {
  }

  /** `doStartCall`: answers only a pending inbound call. */
  function DoStartCall(c: AppStore.CallInfo): (r: seq<PhoneCommand>)
    ensures r != [] <==> IsPendingInbound(c)
    ensures r != [] ==> r == [AcceptInbound]
  {
    if IsPendingInbound(c) then [AcceptInbound] else []
  }

  /** `isWrapUp`: in wrap-up with at least one active interaction. */
  predicate IsWrapUp(a: AppStore.RoutingActivity, interactions: Option<seq<AppStore.Interaction>>) {
    a.wrapUp && interactions.Some? && |interactions.value| > 0
  }

  /** `updateState`'s tab choice: the dial pad, unless in wrap-up with every
      interaction in WRAP_UP, when the calls tab shows. */
  function ShowDefaultTab(a: AppStore.RoutingActivity, interactions: Option<seq<AppStore.Interaction>>): (show: bool)
    ensures !IsWrapUp(a, interactions) ==> show
    ensures IsWrapUp(a, interactions) ==>
      (show <==> exists k | 0 <= k < |interactions.value| :: interactions.value[k].state != "WRAP_UP")
  {
    if !IsWrapUp(a, interactions) then true
    else exists k | 0 <= k < |interactions.value| :: interactions.value[k].state != "WRAP_UP"
  }

  /** The calls tab shows exactly in wrap-up with every interaction
      wrapping up. */
  lemma CallsTabOnlyInWrapUp(a: AppStore.RoutingActivity, interactions: Option<seq<AppStore.Interaction>>)
    ensures !ShowDefaultTab(a, interactions) <==>
      a.wrapUp && interactions.Some? && interactions.value != [] &&
      forall k | 0 <= k < |interactions.value| :: interactions.value[k].state == "WRAP_UP"
  {
  }

  /** The two DTMF handlers: the transfer dial pad plays the tone without
      sending it. */
  function DtmfNoSend(transferPad: bool): (noSend: Option<bool>)
    ensures IsSet(noSend) <==> transferPad
  {
    if transferPad then Some(true) else None
  }
}

=== FILE: tel_chars.dfy ===
/** The telephone-character filter: everything except the digits and
    `+`, `*`, `#` is removed. The value converter bound to number inputs
    and the dialpad's paste handling share it. */
module TelChars {
  import opened Wrappers

  /** The characters a dialled number may hold: `[0-9+*#]`. */
  predicate IsTelChar(c: char) {
    ('0' <= c <= '9') || c == '+' || c == '*' || c == '#'
  }

  predicate AllTelChars(s: string) {
    forall i :: 0 <= i < |s| ==> IsTelChar(s[i])
  }

  /** `r` is obtained from `s` by deleting characters, keeping the order
      of those left. */
  predicate IsSubsequence(r: string, s: string)
    decreases |s|
  {
    r == [] || (s != [] && ((r[0] == s[0] && IsSubsequence(r[1..], s[1..])) || IsSubsequence(r, s[1..])))
  }

  /** `s.replace(/[^0-9+*#]/g, '')` */
  function KeepTelChars(s: string): (r: string)
    ensures AllTelChars(r)
    ensures AllTelChars(s) ==> r == s
    ensures |r| <= |s|
  {
    if s == [] then []
    else if IsTelChar(s[0]) then [s[0]] + KeepTelChars(s[1..])
    else KeepTelChars(s[1..])
  }

  /** The value converter: a falsy input (null, undefined or '') gives ''. */
  function ToView(value: Option<string>): (r: string)
    ensures !Truthy(value) ==> r == ""
    ensures AllTelChars(r)
    ensures Truthy(value) ==> |r| <= |value.value|
  {
    if Truthy(value) then KeepTelChars(value.value) else ""
  }

  /** The filter keeps what it keeps in the original order. */
  lemma {:induction false} KeepTelCharsIsSubsequence(s: string)
    ensures IsSubsequence(KeepTelChars(s), s)
  {
    if s != [] {
      KeepTelCharsIsSubsequence(s[1..]);
      var r := KeepTelChars(s);
      if IsTelChar(s[0]) {
        assert r[0] == s[0] && r[1..] == KeepTelChars(s[1..]);
      } else {
        assert r == KeepTelChars(s[1..]);
      }
    }
  }

  /** Every telephone character of the input survives, as often as it
      occurred, and nothing else does. */
  lemma {:induction false} KeepTelCharsCounts(s: string)
    ensures forall c :: IsTelChar(c) ==> multiset(KeepTelChars(s))[c] == multiset(s)[c]
    ensures forall c :: !IsTelChar(c) ==> multiset(KeepTelChars(s))[c] == 0
  {
    if s != [] {
      KeepTelCharsCounts(s[1..]);
      assert s == [s[0]] + s[1..];
      assert multiset(s) == multiset([s[0]]) + multiset(s[1..]);
      if IsTelChar(s[0]) {
        assert multiset(KeepTelChars(s)) == multiset([s[0]]) + multiset(KeepTelChars(s[1..]));
      }
    }
  }

  /** Filtering a concatenation filters each part. */
  lemma {:induction false} KeepTelCharsAppend(a: string, b: string)
    ensures KeepTelChars(a + b) == KeepTelChars(a) + KeepTelChars(b)
  {
    if a != [] {
      assert (a + b)[1..] == a[1..] + b;
      KeepTelCharsAppend(a[1..], b);
    } else {
      assert a + b == b;
    }
  }

  /** Converting an already-converted value changes nothing. */
  lemma ToViewIdempotent(value: Option<string>)
    ensures ToView(Some(ToView(value))) == ToView(value)
  {
  }
}

=== FILE: text.dfy ===
/** The handful of JavaScript string operations the core relies on:
    `includes`, first-occurrence `replace`, `trim`, and removing spaces. */
module Text {
  import opened Wrappers

  /** `p` occurs in `s` starting at index `i`. */
  predicate OccursAt(s: string, p: string, i: int) {
    0 <= i && i + |p| <= |s| && s[i..i + |p|] == p
  }

  /** `s.includes(p)`, and also what a global regex literal without
      metacharacters (`/flow/g`) matches. */
  predicate Contains(s: string, p: string) {
    exists i :: 0 <= i <= |s| && OccursAt(s, p, i)
  }

  /** The first occurrence of `p` in `s` at or after `k`. */
  function IndexFrom(s: string, p: string, k: nat): (r: Option<nat>)
    ensures r.Some? ==> k <= r.value && OccursAt(s, p, r.value)
    ensures r.Some? ==> forall j :: k <= j < r.value ==> !OccursAt(s, p, j)
    ensures r.None? ==> forall j :: k <= j ==> !OccursAt(s, p, j)
    decreases |s| - k + 1
  {
    if k + |p| > |s| then None
    else if s[k..k + |p|] == p then Some(k)
    else IndexFrom(s, p, k + 1)
  }

  /** `s.indexOf(p)`, with -1 as None. */
  function IndexOf(s: string, p: string): (r: Option<nat>)
    ensures r.Some? <==> Contains(s, p)
    ensures r.Some? ==> OccursAt(s, p, r.value)
    ensures r.Some? ==> forall j :: 0 <= j < r.value ==> !OccursAt(s, p, j)
  {
    IndexFrom(s, p, 0)
  }

  /** `s.replace(p, q)` with a string pattern: only the first occurrence is replaced. */
  function ReplaceFirst(s: string, p: string, q: string): (r: string)
    ensures !Contains(s, p) ==> r == s
    ensures Contains(s, p) ==>
      exists i :: 0 <= i <= |s| && OccursAt(s, p, i) && (forall j :: 0 <= j < i ==> !OccursAt(s, p, j))
                  && r == s[..i] + q + s[i + |p|..]
  {
    match IndexOf(s, p)
    case None => s
    case Some(i) => s[..i] + q + s[i + |p|..]
  }

  /** The characters `String.prototype.trim` removes: ECMAScript WhiteSpace and
      LineTerminator code points. */
  predicate IsJsWhitespace(c: char) {
    var n := c as int;
    n == 0x09 || n == 0x0A || n == 0x0B || n == 0x0C || n == 0x0D || n == 0x20
    || n == 0xA0 || n == 0x1680 || (0x2000 <= n <= 0x200A) || n == 0x2028 || n == 0x2029
    || n == 0x202F || n == 0x205F || n == 0x3000 || n == 0xFEFF
  }

  predicate IsBlank(s: string) {
    forall i :: 0 <= i < |s| ==> IsJsWhitespace(s[i])
  }

  function TrimStart(s: string): (r: string)
    ensures |r| <= |s| && r == s[|s| - |r|..]
    ensures r != [] ==> !IsJsWhitespace(r[0])
    ensures IsBlank(s[..|s| - |r|])
  {
    if s == [] || !IsJsWhitespace(s[0]) then s
    else
      var r := TrimStart(s[1..]);
      assert s[1..][..|s[1..]| - |r|] == s[1..|s| - |r|];
      r
  }

  function TrimEnd(s: string): (r: string)
    ensures |r| <= |s| && r == s[..|r|]
    ensures r != [] ==> !IsJsWhitespace(r[|r| - 1])
    ensures IsBlank(s[|r|..])
  {
    if s == [] || !IsJsWhitespace(s[|s| - 1]) then s
    else
      var r := TrimEnd(s[..|s| - 1]);
      assert s[..|s| - 1][|r|..] == s[|r|..|s| - 1];
      r
  }

  /** `s.trim()`: the slice of `s` left between a blank prefix and a blank
      suffix, neither end of which is whitespace. */
  function Trim(s: string): (r: string)
    ensures |r| <= |s|
    ensures exists a, b :: 0 <= a <= b <= |s| && r == s[a..b] && IsBlank(s[..a]) && IsBlank(s[b..])
    ensures r != [] ==> !IsJsWhitespace(r[0]) && !IsJsWhitespace(r[|r| - 1])
    ensures s == [] || (!IsJsWhitespace(s[0]) && !IsJsWhitespace(s[|s| - 1])) ==> r == s
  {
    var t := TrimStart(s);
    var r := TrimEnd(t);
    var a := |s| - |t|;
    assert r == s[a..a + |r|];
    assert s[a + |r|..] == t[|r|..];
    r
  }

  /** `s.trim() === ''` exactly when every character of `s` is whitespace. */
  lemma TrimEmptyIffBlank(s: string)
    ensures Trim(s) == "" <==> IsBlank(s)
  {
    var t := TrimStart(s);
    if Trim(s) == "" {
      // TrimEnd leaves a blank suffix; a non-empty `t` starts with a non-blank.
      assert IsBlank(t[0..]);
      assert t == [];
      forall i | 0 <= i < |s| ensures IsJsWhitespace(s[i]) {
        assert s[i] == s[..|s| - |t|][i];
      }
    } else {
      assert t != [];
      assert t[0] == s[|s| - |t|];
    }
  }

  /** `s.replace(/ /g, '')` */
  function RemoveSpaces(s: string): (r: string)
    ensures |r| <= |s|
    ensures forall i :: 0 <= i < |r| ==> r[i] != ' '
  {
    if s == [] then []
    else if s[0] == ' ' then RemoveSpaces(s[1..])
    else [s[0]] + RemoveSpaces(s[1..])
  }

  /** Removing spaces from a concatenation removes them from each part. */
  lemma {:induction false} RemoveSpacesAppend(a: string, b: string)
    ensures RemoveSpaces(a + b) == RemoveSpaces(a) + RemoveSpaces(b)
  {
    if a != [] {
      assert (a + b)[1..] == a[1..] + b;
      RemoveSpacesAppend(a[1..], b);
    } else {
      assert a + b == b;
    }
  }

  /** Every character other than a space is kept as often as it occurs;
      no space is. Together with `RemoveSpacesAppend` this says the kept
      characters are those of the input, in the input's order. */
  lemma {:induction false} RemoveSpacesCounts(s: string)
    ensures forall c :: c != ' ' ==> multiset(RemoveSpaces(s))[c] == multiset(s)[c]
    ensures multiset(RemoveSpaces(s))[' '] == 0
  {
    if s != [] {
      RemoveSpacesCounts(s[1..]);
      assert s == [s[0]] + s[1..];
      assert multiset(s) == multiset([s[0]]) + multiset(s[1..]);
      if s[0] != ' ' {
        assert multiset(RemoveSpaces(s)) == multiset([s[0]]) + multiset(RemoveSpaces(s[1..]));
      }
    }
  }

  /** After removing every space, something is left exactly when some
      character was not a space. */
  lemma {:induction false} RemoveSpacesNonEmptyIff(s: string)
    ensures |RemoveSpaces(s)| > 0 <==> exists i :: 0 <= i < |s| && s[i] != ' '
  {
    if s != [] {
      RemoveSpacesNonEmptyIff(s[1..]);
      if s[0] == ' ' {
        if exists i :: 0 <= i < |s| && s[i] != ' ' {
          var i :| 0 <= i < |s| && s[i] != ' ';
          assert s[1..][i - 1] != ' ';
        }
      }
    }
  }
}

=== FILE: wrappers.dfy ===
/** Optional values, standing in for the source's `null` / `undefined`. */
module Wrappers {

  datatype Option<+T> = None | Some(value: T) {

    /** The value, or `default` when there is none. */
    function GetOr(default: T): T {
      match this
      case Some(v) => v
      case None => default
    }
  }

  /** JavaScript truthiness of a nullable string: present and non-empty. */
  predicate Truthy(s: Option<string>) {
    s.Some? && s.value != ""
  }

  /** JavaScript truthiness of a nullable boolean flag. */
  predicate IsSet(b: Option<bool>) {
    b == Some(true)
  }
}
